=== FILE: README.md ===
# MotoBikeStore core in Dafny

This project models the business logic of MotoBikeStore, an ASP.NET MVC
motorbike shop. Everything the shop keeps lives in static in-memory lists:
categories, products, coupons, users, orders and order details, together
with their id counters.

The centre of the model is the **checkout**. It:

- prices the cart (subtotal, shipping, total);
- chooses a coupon: a typed, eligible code first, and otherwise the
  eligible coupon with the strictly largest discount;
- computes the discount and charges one use to the coupon it applies.

Beside the checkout sit:

- the coupon rules of `CouponsController`: the available list, `Validate`,
  and admin create, edit, toggle and delete;
- the seasonal-promotion lookup and its catalogue;
- the small state machines of the other controllers: id counters and
  seeding, the cart, the compare list, catalog filtering and sorting,
  product create/edit/delete, and the admin dashboard and reports;
- the pure parts of `site.js`: compare and wishlist toggles, the quantity
  control, the countdown and the rating stars.

Modules, one per file:

| file | module | models |
|---|---|---|
| wrappers.dfy | Wrappers | `Option` |
| seqs.dfy | Seqs | first match, filter, sums, stable insertion sort, take |
| text.dfy | Text | whitespace and `Trim`, ASCII case folding, substring, ordinal string order, digit formatting |
| calendar.dfy | Calendar | instants as milliseconds since the Unix epoch (UTC), civil dates, weekday, `AddMonths` |
| models.dfy | Models | the `Category`, `Product`, `Coupon`, `Order`, `OrderDetail` and `User` records and their defaults |
| datastore.dfy | DataStore | the store, id counters, seed data, `Initialize`, `Reset`, navigation links |
| coupons.dfy | Coupons | eligibility, the discount formula at all four sites, the best-coupon scan, `Validate`, admin actions |
| checkout.dfy | Checkout | the checkout POST and `Track` |
| promotions.dfy | Promotions | `SeasonalPromotionService` and `SeasonalPromotionsController` |
| catalog.dfy | Catalog | `HomeController.Index` and `Detail` |
| cart.dfy | Cart | `CartController` |
| compare.dfy | Compare | `CompareController` |
| admin.dfy | Admin | `AdminController` |
| products.dfy | Products | `ProductsController` |
| client.dfy | Client | pure logic of `site.js` |

Modelling conventions:

- C# `decimal` is `real`.
- `DateTime` is an integer instant in milliseconds, UTC.
- A nullable value is an `Option`.
- A `TryParse` or `parseInt` result is an `Option` parameter, where `None`
  means "did not parse".
- The clock (`now`, and the local `today` of the coupon form), the
  session's admin flag and user id, and the generated GUID are parameters.
- Case folding is ASCII, and string order is ordinal.

### Where the code and its description differ

The model follows the code in each case:

- The checkout does **not** trim the typed coupon code, while `Validate`
  does. A code typed with surrounding spaces is therefore found by
  `Validate` and ignored at checkout (`Coupons.UntrimmedCodeDiffers`).
- `ProductsController.Edit` writes the form into the stored product
  **before** validating it. A rejected edit leaves the product changed
  (`Products.RejectedEditStillWrites`).
- `Edit` checks the image type but not its size.
- The checkout builds `Order.Details`, but it never adds them to the
  store's detail list, and `PopulateNavigationProperties` is never called.
  So the dashboard sees an order's lines only through the order itself
  (`Checkout.LinesNotStored`).
- The total is not clamped at zero (`Checkout.TotalCanBeNegative`).
- The phone pattern `^[0-9]{10,11}$` is matched with .NET semantics, where
  `$` also matches before a final line feed (`Text.MatchesPhonePattern`).

## Model

| member | source | states |
|---|---|---|
| Models.NewCoupon | Models/Category.cs:21-47 | a coupon created with only code, description and window has minimum 0, unlimited usage (limit 0), no uses, is active, and has percent 0 with no fixed amount and no cap |
| Models.UsageAfterUses | Models/Category.cs:42-44 | k uses add exactly k to `UsedCount`; the coupon stays usable iff the limit is 0 (unlimited) or `UsedCount + k` is still below it |
| Models.Use | Controllers/OrdersController.cs:172-173 | one use adds 1 to `UsedCount` and changes no other field |
| Models.NewOrder | Models/Product.cs:55-76 | a new order is Pending, placed now, with zero discount and shipping, no coupon, no user and no lines |
| DataStore.TakeId | Services/InMemoryDataStore.cs:358-383 | `GetNext*Id` returns the counter's current value and leaves it one higher; other counters and all tables are untouched |
| DataStore.TakeIds | Services/InMemoryDataStore.cs:358-383 | n successive draws return n consecutive ids from the counter, which advances by n |
| DataStore.SuccessiveIds | Services/InMemoryDataStore.cs:358-383 | two successive draws of the same counter differ by exactly 1 |
| DataStore.Seed | Services/InMemoryDataStore.cs:36-345 | seeding adds 4 categories, 14 products, 3 coupons and 1 user numbered consecutively from the counters; orders and their counters are untouched |
| DataStore.SeedUsers | Services/InMemoryDataStore.cs:332-345 | the one seeded user takes the next user id and is an Admin |
| DataStore.SeedCoupons | Services/InMemoryDataStore.cs:289-329 | three coupons with consecutive ids, all starting at the seeding instant |
| DataStore.Initialize | Services/InMemoryDataStore.cs:31-345 | a store with products is returned unchanged; an empty one is seeded |
| DataStore.InitializeIdempotent | Services/InMemoryDataStore.cs:33 | initializing a second time, at any instant, changes nothing |
| DataStore.Reset | Services/InMemoryDataStore.cs:388-405 | reset equals initializing an empty store with every counter at 1 |
| DataStore.ResetNumbering | Services/InMemoryDataStore.cs:388-405 | reset forgets the previous state entirely: seeds are numbered from 1 and the next coupon id is 4 |
| DataStore.CategoryOf | Services/InMemoryDataStore.cs:413-416 | the linked category has the product's category id, and none is linked only when no category has it |
| DataStore.UserOf | Services/InMemoryDataStore.cs:420 | the linked user has the order's user id; none only when no user has it |
| DataStore.CouponOf | Services/InMemoryDataStore.cs:421 | the linked coupon has the order's coupon id; none only when no coupon has it |
| DataStore.ProductOf | Services/InMemoryDataStore.cs:426-429 | the linked product has the detail's product id; none only when no product has it |
| DataStore.PopulateNavigation | Services/InMemoryDataStore.cs:410-432 | each order keeps every field except `Details`, which becomes exactly the stored details carrying its id; nothing else in the store changes |
| Coupons.DiscountShape | Controllers/OrdersController.cs:157-169 | a positive percent gives `amount*pct/100`, capped at `MaxDiscountAmount` when set; otherwise the discount does not depend on the amount (the fixed amount, or 0) |
| Coupons.DiscountWithinAmount | Controllers/CouponsController.cs:289-299 | for a percent in (0,100] with a non-negative cap, the discount lies between 0 and the amount |
| Coupons.DiscountMonotone | Controllers/CouponsController.cs:36-46 | a larger order never gets a smaller discount from the same coupon |
| Coupons.AvailableSortKey | Controllers/CouponsController.cs:36-46 | the sort key of the available list, with its early returns, equals the shared discount formula |
| Coupons.SiteDiscount | Controllers/OrdersController.cs:134-144 | the discount computed step by step, as the checkout scan, the checkout apply step (OrdersController.cs lines 157-169) and `Validate` (CouponsController.cs lines 289-299) each write it, equals the shared discount formula |
| Coupons.TypedCoupon | Controllers/OrdersController.cs:106-116 | the result is the first coupon that both matches the typed code ignoring case and is eligible; no earlier coupon does both |
| Coupons.BestChoiceUnique | Controllers/OrdersController.cs:119-152 | "eligible, positive discount, strictly above every earlier eligible coupon and at least every later one" picks at most one coupon |
| Coupons.BestFromCorrect | Controllers/OrdersController.cs:119-152 | the scan, continued from any position with the running best, ends on the best choice, or on nothing when every eligible discount is ≤ 0 |
| Coupons.BestCouponCorrect | Controllers/OrdersController.cs:119-152 | the fallback picks the eligible coupon with the strictly greatest discount, and ties keep the earliest; nothing is picked when no discount is positive |
| Coupons.AutoSelect | Controllers/OrdersController.cs:119-152 | the loop of the source, written as a method, returns the best choice, or nothing when no eligible discount is positive |
| Coupons.SelectCoupon | Controllers/OrdersController.cs:106-152 | a selected coupon is always eligible |
| Coupons.TypedCodeFirst | Controllers/OrdersController.cs:106-116 | an eligible typed code wins even when auto-selection would give more |
| Coupons.FallbackIsBest | Controllers/OrdersController.cs:119-152 | with a blank code, or no eligible match for it, the choice is the best coupon |
| Coupons.AvailableCoupons | Controllers/CouponsController.cs:25-63 | exactly the active, in-window, not used-up coupons (no minimum-order filter), as a permutation of that filter, in non-increasing discount order, stable among equal discounts |
| Coupons.ValidateLookup | Controllers/CouponsController.cs:266-272 | the first coupon whose code matches ignoring case and which is active, in window and not used up; the minimum is not looked at |
| Coupons.Validate | Controllers/CouponsController.cs:246-310 | a blank code, then an amount ≤ 0, are rejected before any lookup; not-found and under-minimum are distinct outcomes; a found coupon is rejected with its minimum exactly when the amount is below it, and is otherwise accepted with the shared discount formula and its description |
| Coupons.ValidateRespectsCap | Controllers/CouponsController.cs:289-299 | a valid percentage reply never exceeds the coupon's cap when one is set |
| Coupons.ValidateAgreesWithCheckout | Controllers/CouponsController.cs:246-310 | with distinct codes and a trimmed code, `Validate` accepts exactly when the checkout would apply the typed code, and both quote the same discount |
| Coupons.UntrimmedCodeDiffers | Controllers/OrdersController.cs:106-116 | a code with a trailing space is accepted by `Validate` but not applied by the checkout |
| Coupons.FindCoupon | Controllers/CouponsController.cs:180 | the first coupon with the id, or none when no coupon has it |
| Coupons.CreatePost | Controllers/CouponsController.cs:87-157 | the checks run in order (blank, duplicate ignoring case, pattern `^[A-Z0-9]+$`, percent in (0,100], end date parsed, end after today), each error iff the checks before it pass and its own fails; a form passing every check is created; a rejection leaves the store unchanged; success appends one coupon with the trimmed upper-cased code, minimum 0, limit 0, no uses, active, no fixed amount or cap, and the next coupon id |
| Coupons.NormalizedCodeFacts | Controllers/CouponsController.cs:91-104 | the normalised code is blank iff the trimmed input is empty, and it matches the pattern iff it is all ASCII capitals and digits |
| Coupons.CreateKeepsInvariants | Controllers/CouponsController.cs:87-157 | creating keeps coupon codes distinct ignoring case and coupon ids increasing |
| Coupons.EditPost | Controllers/CouponsController.cs:173-197 | an unknown id and a missing end date change nothing; otherwise only percent (kept when unparsed), end date, active flag and description change |
| Coupons.EditSkipsPercentRange | Controllers/CouponsController.cs:180-193 | edit accepts a percent of 250, which create would reject |
| Coupons.EditKeepsInvariants | Controllers/CouponsController.cs:173-197 | editing keeps codes distinct and ids increasing |
| Coupons.ToggleStatus | Controllers/CouponsController.cs:228-242 | only `IsActive` of the first coupon with the id flips; an unknown id or a non-admin changes nothing |
| Coupons.ToggleTwice | Controllers/CouponsController.cs:228-242 | toggling twice restores the store |
| Coupons.DeleteConfirmed | Controllers/CouponsController.cs:213-225 | the first coupon with the id is removed and the others keep their order; an unknown id changes nothing |
| Coupons.DeleteRemovesId | Controllers/CouponsController.cs:213-225 | with increasing ids, no coupon with the id remains after delete |
| Checkout.ShippingFee | Controllers/OrdersController.cs:99 | shipping is 0 iff the subtotal is at least 5,000,000, and 150,000 otherwise |
| Checkout.FormErrors | Controllers/OrdersController.cs:52-84 | the form is accepted iff name, phone, address and payment are not blank and the phone matches `^[0-9]{10,11}$`; each error is reported iff its condition holds |
| Checkout.OrderLines | Controllers/OrdersController.cs:89-96 | one line per cart product, numbered consecutively, quantity 1, unit price the product's price |
| Checkout.CouponsAfter | Controllers/OrdersController.cs:155-175 | exactly the applied coupon gains one use; every other coupon is unchanged |
| Checkout.PlacedOrder | Controllers/OrdersController.cs:87-182 | the order takes the next id, code `MB-yyyyMMdd-id` with the id padded to 4 digits, subtotal = sum of cart prices, the shipping rule, the discount of the applied coupon (0 without one), total = subtotal + shipping − discount, the applied coupon's id, Pending status, and the session user when there is one |
| Checkout.StoreAfter | Controllers/OrdersController.cs:184 | the store gains the order, the applied coupon's use, one more order id and one detail id per line; nothing else changes |
| Checkout.Checkout | Controllers/OrdersController.cs:35-210 | an empty cart or any form error returns before an id is drawn or a coupon changes, and leaves the session cart as it was; the order is placed iff the cart is non-empty and the form has no error, and then the session cart is emptied |
| Checkout.LinesSum | Controllers/OrdersController.cs:89-98 | the lines' `Quantity * UnitPrice` add up to the subtotal |
| Checkout.PlacedLinesAddUp | Controllers/OrdersController.cs:87-98 | every line of a placed order has quantity 1, refers to a cart product at its catalog price, and the lines sum to the subtotal |
| Checkout.CouponAccounting | Controllers/OrdersController.cs:155-175 | with a coupon applied, exactly that coupon's `UsedCount` rises by 1 and `CouponId` is its id; without one, no coupon changes |
| Checkout.CheckoutKeepsCouponInvariants | Controllers/OrdersController.cs:155-175 | a checkout keeps codes distinct, ids increasing, and uses within a positive limit |
| Checkout.LinesNotStored | Controllers/OrdersController.cs:184 | the store's detail table holds no line of the new order |
| Checkout.TotalCanBeNegative | Controllers/OrdersController.cs:177-179 | a fixed discount larger than subtotal plus shipping gives a negative total |
| Checkout.SeedCart | Services/InMemoryDataStore.cs:45-287 | on a fresh store, a cart of id 1 holds exactly one product, priced 48,990,000 |
| Checkout.SeedCouponChoice | Services/InMemoryDataStore.cs:289-329 | for 48,990,000 the three seeded coupons are all live and eligible; WELCOME10 takes off 2,000,000, SUMMER2024 1,000,000 and VIP15 min(7,348,500, 5,000,000), so the automatic choice is VIP15 |
| Checkout.SeedCheckoutPicksVip | Controllers/OrdersController.cs:119-177 | with no code, checkout on a fresh store picks VIP15, discount 5,000,000, total 43,990,000 |
| Checkout.Track | Controllers/OrdersController.cs:233-250 | a blank id finds nothing; when some order's code matches ignoring case, the first such order is returned; otherwise, when the id parses, the first order with that number is returned; nothing is found only when no order matches either way |
| Checkout.PlacedOrderTrackable | Controllers/OrdersController.cs:233-250 | a placed order is found again by its order code |
| Promotions.MaxPercent | Services/SeasonalPromotionService.cs:102-104 | the maximum is at least every percent and equal to one of them |
| Promotions.GetBestDiscount | Services/SeasonalPromotionService.cs:79-105 | 0 when nothing applies; otherwise at least every applicable promotion's percent and equal to one of them |
| Promotions.WeekendRuleMeaning | Services/SeasonalPromotionService.cs:82-100 | a promotion passes the weekend rule iff it is not All-scope, or its name lacks "Cuối Tuần", or the UTC day is Saturday or Sunday |
| Promotions.GetActivePromotions | Services/SeasonalPromotionService.cs:107-115 | exactly the active promotions whose inclusive window holds now, in catalogue order |
| Promotions.ApplicableIsActive | Services/SeasonalPromotionService.cs:84-93 | every promotion that applies to a product is among the active ones |
| Promotions.Add | Services/SeasonalPromotionService.cs:119-123 | the promotion is appended with its id overwritten by the counter, which rises by 1 |
| Promotions.AddKeepsIdsOrdered | Services/SeasonalPromotionService.cs:119-123 | ids stay strictly increasing after an add |
| Promotions.SuccessiveAddIds | Services/SeasonalPromotionService.cs:119-123 | two adds receive consecutive ids |
| Promotions.Remove | Services/SeasonalPromotionService.cs:125-129 | the first promotion with the id is removed; an unknown id changes nothing |
| Promotions.RemoveKeepsIdsOrdered | Services/SeasonalPromotionService.cs:125-129 | removal keeps ids increasing and leaves no promotion with the id |
| Promotions.Toggle | Services/SeasonalPromotionService.cs:131-135 | only `IsActive` of the first promotion with the id flips |
| Promotions.ToggleTwice | Services/SeasonalPromotionService.cs:131-135 | toggling twice restores the catalogue |
| Promotions.Initialize | Services/SeasonalPromotionService.cs:27-76 | a non-empty catalogue is returned unchanged; an empty one receives the seeds |
| Promotions.InitializeIdempotent | Services/SeasonalPromotionService.cs:29 | initializing twice changes nothing more |
| Promotions.SeedsLive | Services/SeasonalPromotionService.cs:27-76 | every seeded promotion is active and in its window at the seeding instant |
| Promotions.SeedWeekendOnly | Services/SeasonalPromotionService.cs:79-105 | a Yamaha outside category 1 gets 10% from the seeds at the weekend and nothing on a weekday |
| Promotions.SeedHondaScooter | Services/SeasonalPromotionService.cs:79-105 | a Honda in category 1 gets the largest applicable seed, 15% |
| Promotions.PromotionCheck | Controllers/SeasonalPromotionsController.cs:40-60 | accepted iff the name is not blank, the percent is in (0,100] and the end is after the start; a blank name is reported first, then the percent, then the dates |
| Promotions.CreatePromotion | Controllers/SeasonalPromotionsController.cs:40-65 | only a promotion passing every check reaches `Add`; otherwise the catalogue is unchanged |
| Promotions.CreatedPromotionValid | Controllers/SeasonalPromotionsController.cs:40-65 | the stored promotion has a non-blank name, a percent in (0,100] and end after start |
| Promotions.ToggleAction | Controllers/SeasonalPromotionsController.cs:68-74 | an admin's toggle is the service's `Toggle` by id |
| Promotions.DeleteAction | Controllers/SeasonalPromotionsController.cs:77-83 | an admin's delete is the service's `Remove` by id |
| Promotions.Listing | Controllers/SeasonalPromotionsController.cs:18-27 | a permutation of the promotions, latest start date first, and promotions with the same start date keep their stored order (a stable sort) |
| Catalog.FilteredIsConjunction | Controllers/HomeController.cs:18-37 | the chain of conditional `Where`s keeps exactly the products that satisfy every supplied filter, in catalog order |
| Catalog.Index | Controllers/HomeController.cs:11-77 | a product is listed iff it is in the catalog and matches brand (ignoring case), text (lower-cased substring of name or description), category and inclusive price bounds; each `sortBy` gives its order, and any other value, a missing one included, gives brand then name; products with equal keys keep their catalog order |
| Catalog.SortedMeaning | Controllers/HomeController.cs:40-47 | the sort is a permutation (same multiset) ordered by price ascending or descending, rating descending, name, or, for any other value, brand then name; it is stable, each class of equal keys keeping its order |
| Catalog.Brands | Controllers/HomeController.cs:63-67 | the brand list holds exactly the catalog's brands, each once, strictly ascending |
| Catalog.Detail | Controllers/HomeController.cs:79-105 | an unknown id shows nothing; otherwise the first product with the id (no product with the id comes before it) and at most 4 related products in catalog order, each sharing brand or category and not the product itself; these are the first related products: one with fewer than 4 related products before it in the catalog is always shown, and when fewer than 4 are shown, every related product is shown |
| Cart.Products | Controllers/CartController.cs:13-18 | the cart page lists exactly the catalog products whose id is in the cart, in catalog order |
| Cart.Add | Controllers/CartController.cs:20-34 | an unknown id or an id already present leaves the cart unchanged; otherwise the id is appended |
| Cart.AddProperties | Controllers/CartController.cs:20-34 | add keeps the cart free of duplicates, adds only a known id, and is idempotent |
| Cart.Remove | Controllers/CartController.cs:36-42 | removing a present id takes out its first occurrence only and keeps the other ids in order; an absent id changes nothing |
| Cart.RemoveProperties | Controllers/CartController.cs:36-42 | after remove the id is gone, every other id stays, and there are still no duplicates |
| Cart.AddThenShow | Controllers/CartController.cs:13-42 | a product added is shown, and after removing it again it is not |
| Compare.Add | Controllers/CompareController.cs:40-62 | a list of 4 or more refuses even a listed id; a listed id is reported; otherwise the id is appended |
| Compare.AddKeepsValid | Controllers/CompareController.cs:40-62 | add keeps the list free of duplicates and at most 4 long; the id is in the result iff it was listed or there was room |
| Compare.Remove | Controllers/CompareController.cs:65-73 | a present id loses exactly its first occurrence, the items before and after staying in order; an absent id changes nothing |
| Compare.RemoveKeepsValid | Controllers/CompareController.cs:65-73 | after remove the id is gone and the list stays valid |
| Compare.Clear | Controllers/CompareController.cs:76-81 | clear empties the list |
| Compare.Count | Controllers/CompareController.cs:84-89 | the count is the length of the list: at most 4 for a valid list, and 0 iff the list is empty |
| Compare.FullListRefuses | Controllers/CompareController.cs:40-73 | a full list refuses every id, and removing one entry makes room again |
| Compare.Products | Controllers/CompareController.cs:17-37 | the compare page lists exactly the catalog products whose id is in the list, in catalog order |
| Admin.Index | Controllers/AdminController.cs:18-58 | dashboard counts, revenue as the sum of totals, this month's revenue since the first of the month, Pending count at most the order count, top products and recent orders |
| Admin.RevenueAppend | Controllers/AdminController.cs:30 | revenue grows by exactly the total of an added order |
| Admin.DashboardAfterCheckout | Controllers/AdminController.cs:18-58 | after a placed checkout the dashboard has one more order and one more Pending order, and both total and this month's revenue grow by the order's total |
| Admin.SalesByProduct | Controllers/AdminController.cs:37-48 | one entry per known product that has sales (no product id twice), carrying its summed quantity; unknown products are dropped |
| Admin.TopSellers | Controllers/AdminController.cs:45-47 | the 5 best sellers, or all of them when there are fewer, in non-increasing quantity; no sale is taken more often than it occurs, so products with distinct ids stay distinct; none left out sold more than one kept, and of equal sellers the earliest are kept, in their sales order |
| Admin.TopProductsComplete | Controllers/AdminController.cs:37-48 | every product with a sale in some order appears among the top products, or the list is full and each listed product sold at least as much |
| Admin.RecentOrders | Controllers/AdminController.cs:51-55 | the 10 newest orders, or all of them when there are fewer, newest first; no order is taken more often than it occurs; no order left out is newer than one kept, and of orders placed at the same instant the earliest are kept, in store order |
| Admin.OrderList | Controllers/AdminController.cs:60-71 | exactly the orders with the given status (all of them for no or empty status), newest first; orders with the same date keep their stored order |
| Admin.WithStatus | Controllers/AdminController.cs:96-105 | the status is always set; Shipping with a non-empty tracking number also sets tracking number and shipped date; Delivered also sets the delivered date; nothing else changes |
| Admin.UpdateOrderStatus | Controllers/AdminController.cs:88-109 | a non-admin gets a login request, an unknown id a not-found; otherwise the first order with the id is updated and nothing else changes |
| Admin.UpdateOrderStatusTwice | Controllers/AdminController.cs:88-109 | repeating the same update changes nothing more |
| Admin.UpdateKeepsRevenue | Controllers/AdminController.cs:88-109 | a status update does not change revenue |
| Admin.Rows | Controllers/AdminController.cs:121-150 | grouped rows lie in range, have ascending distinct keys and at least one order, and carry their group's revenue and count |
| Admin.RowsComplete | Controllers/AdminController.cs:121-150 | every order whose key is in range has a row |
| Admin.RowsPartition | Controllers/AdminController.cs:121-150 | the rows' revenue and count add up to those of the orders in range |
| Admin.Reports | Controllers/AdminController.cs:111-176 | the year defaults to now's; cancelled orders are excluded; monthly rows for that year ascending; daily rows for [first of the month, one month later); top customers; `InvalidMonth` exactly when the first of the month or the first of the next month is not a representable date |
| Admin.LastMonthRejected | Controllers/AdminController.cs:137-138 | December 9999 gets `InvalidMonth`, since one month after its first day lies beyond year 9999 |
| Admin.OtherMonthsReported | Controllers/AdminController.cs:137-138 | every other month of the years 1 to 9999 gets a report |
| Admin.MonthlyComplete | Controllers/AdminController.cs:121-131 | every non-cancelled order of the year is counted in the row of its month |
| Admin.MonthlyAddsUp | Controllers/AdminController.cs:121-131 | the monthly rows add up to the year's revenue and order count |
| Admin.DailyComplete | Controllers/AdminController.cs:137-150 | every order in the month window is counted in the row of its day |
| Admin.DailyAddsUp | Controllers/AdminController.cs:137-150 | the daily rows add up to the window's revenue and order count |
| Admin.SpendingByUser | Controllers/AdminController.cs:154-165 | no two entries share a user id, and each carries that user's order count (at least one) and total spent |
| Admin.SpendingByUserComplete | Controllers/AdminController.cs:154-157 | every user id on an order has an entry |
| Admin.TopCustomers | Controllers/AdminController.cs:154-173 | at most 10 customers, no customer twice, each a known user with their true totals, in non-increasing total spent |
| Admin.TopCustomersComplete | Controllers/AdminController.cs:154-173 | a known user with an order is listed, or spent no more than each of the 10 listed |
| Admin.UserList | Controllers/AdminController.cs:180-189 | every user, newest first; users created at the same instant keep their stored order |
| Admin.UserDetail | Controllers/AdminController.cs:191-209 | an unknown id shows nothing; otherwise the first user with the id, exactly their orders newest first (same-date orders in stored order), their order count and total spent |
| Admin.ToggleUserStatus | Controllers/AdminController.cs:212-226 | only `IsActive` of the first user with the id flips, and only when that user is not an Admin and the caller is one |
| Admin.ToggleSparesAdmins | Controllers/AdminController.cs:216-223 | no Admin user is ever changed |
| Admin.ToggleUserTwice | Controllers/AdminController.cs:212-226 | toggling twice restores the users |
| Products.Extension | Controllers/ProductsController.cs:98-117 | the extension is empty, or a final suffix starting with the last dot that has no dot or separator after it |
| Products.ExtensionOfName | Controllers/ProductsController.cs:98-117 | a stem followed by an extension without dots or separators yields that extension |
| Products.ImageUrlKeepsType | Controllers/ProductsController.cs:120-142 | the stored image url lies under `/images/products/`, continues with the GUID, and ends with the lower-cased upload extension, which is one of the accepted ones |
| Products.Normalize | Controllers/ProductsController.cs:44-60 | unparsed price becomes 0, rating defaults to 4.5, stock to 100, parsed values and text fields are taken from the form; old price, discount and category are set iff the form gives a positive value, and then hold that value |
| Products.ApplyForm | Controllers/ProductsController.cs:188-220 | unparsed price, rating and stock keep their old values; old price, discount and category are set iff the form gives a positive value, and then hold that value; id and image are kept |
| Products.ApplyFormIdempotent | Controllers/ProductsController.cs:188-220 | applying the same form twice is applying it once |
| Products.NormalizeIsApplyToBlank | Controllers/ProductsController.cs:44-60 | create's normalisation agrees with edit's write applied to a blank product |
| Products.Create | Controllers/ProductsController.cs:38-157 | rejections run in order (name, price ≤ 0, brand, engine, fuel, image missing or empty, type, over 5 MiB), each error iff the checks before it pass and its own fails, and leave the store unchanged; success appends the normalised product with the next product id and its image url |
| Products.UnparsedPriceRejected | Controllers/ProductsController.cs:44-72 | an unparsable price becomes 0 and is rejected as invalid |
| Products.CreateKeepsIdsOrdered | Controllers/ProductsController.cs:148-150 | a created product takes a fresh id, the list grows by exactly one, and ids stay increasing |
| Products.CopyList | Controllers/ProductsController.cs:164-167 | the copy list is the id and name of each other product, one entry per product, in list order; the edited product is excluded |
| Products.CopyListLength | Controllers/ProductsController.cs:164-167 | with increasing ids the copy list is one entry shorter than the catalog exactly when the product exists |
| Products.Edit | Controllers/ProductsController.cs:171-281 | unknown id is not found; the form is written before validation; the checks run in order (blank name, price not positive, uploaded image of a refused type), each error iff the checks before it pass and its own fails, and the edit is accepted iff all pass; a rejected edit keeps the written product; an accepted one has the new image url when an image was uploaded |
| Products.RejectedEditStillWrites | Controllers/ProductsController.cs:188-236 | an edit rejected for its price still leaves the form's other fields in the stored product |
| Products.BlankNameEditKeepsBrand | Controllers/ProductsController.cs:188-236 | an edit rejected for a blank name still stores the new brand |
| Products.EditTwice | Controllers/ProductsController.cs:171-281 | submitting the same edit a second time leaves the store as the first submission left it |
| Products.EditKeepsIdsOrdered | Controllers/ProductsController.cs:171-281 | editing keeps product ids increasing |
| Products.DeleteConfirmed | Controllers/ProductsController.cs:292-314 | the first product with the id is removed; an unknown id or a non-admin changes nothing |
| Products.DeleteRemovesId | Controllers/ProductsController.cs:292-314 | with increasing ids, the id is gone and every other product remains |
| Client.Without | wwwroot/js/site.js:266-270 | removes every occurrence of the id; every other id keeps its order and how often it was listed |
| Client.CompareToggle | wwwroot/js/site.js:260-283 | a listed id is removed everywhere, the other ids keeping their order and multiplicity; an absent id is added only below 4 entries |
| Client.CompareToggleKeepsOk | wwwroot/js/site.js:260-283 | the toggle keeps the list free of duplicates and at most 4 long |
| Client.CompareToggleTwice | wwwroot/js/site.js:260-283 | below the cap, adding an absent id and toggling it again gives back the list |
| Client.CompareBadge | wwwroot/js/site.js:252-258 | the badge shows the list length and is visible iff the list is non-empty |
| Client.BadgeAfterToggle | wwwroot/js/site.js:252-283 | after a successful add the badge is visible and shows one more; a refused add leaves it as it was |
| Client.WishlistToggle | wwwroot/js/site.js:747-770 | a present id is removed everywhere, the other ids keeping their order and multiplicity; an absent one is appended |
| Client.WishlistToggleTwice | wwwroot/js/site.js:754-765 | toggling twice restores membership of every id |
| Client.StartQuantity | wwwroot/js/site.js:489-490 | NaN or 0 is read as 1; any other parsed value is kept |
| Client.QuantityClick | wwwroot/js/site.js:486-497 | plus adds one; minus subtracts one only above 1; another button changes nothing |
| Client.PlusThenMinus | wwwroot/js/site.js:486-497 | plus then minus returns to the start, and minus at 1 stays at 1 |
| Client.CountdownOf | wwwroot/js/site.js:627-635 | ended iff the distance is negative; otherwise hours < 24, minutes < 60, seconds < 60 and the parts make up the distance to within a second |
| Client.CountdownUnique | wwwroot/js/site.js:627-635 | any decomposition with those bounds is the countdown's |
| Client.CountdownDisplay | wwwroot/js/site.js:621-663 | ended text iff the distance is negative; otherwise all four fields are digit strings |
| Client.CountdownDisplayReadsBack | wwwroot/js/site.js:645-657 | the displayed fields read back to the countdown's parts, with hours, minutes and seconds padded to 2 digits |
| Client.ClickStar | wwwroot/js/site.js:323-337 | clicking star k makes exactly stars 0..k active and solid, and the rating k+1 |
| Client.HoverStar | wwwroot/js/site.js:339-346 | hovering star k makes stars 0..k solid and leaves the rest as they were |
| Client.LeaveStars | wwwroot/js/site.js:349-358 | leaving makes exactly the stars below the rating active and solid |
| Client.LeaveRestoresClick | wwwroot/js/site.js:323-358 | after clicking star k, any hovering followed by leaving restores the clicked state |
| Client.LeaveWithoutRating | wwwroot/js/site.js:349-358 | with no rating stored, leaving clears every star |
| Text.FormatPaddedRoundTrip | Controllers/OrdersController.cs:88 | a number padded to a width reads back as itself (the `D4` of the order code) |
| Calendar.AddMonthsForward | Services/InMemoryDataStore.cs:289-329 | adding a positive number of months gives a later instant, so the seeded windows are non-empty |

## Left out

- Image files: saving the upload, deleting it, and the exception path of the write are file-system I/O. Only the extension and size checks and the resulting url are modelled. The GUID is a parameter.
- Products.Extension: follows `Path.GetExtension` on Windows, where both '/' and '\\' separate directories.
- BCrypt hashing of the seeded admin's password is a foreign library call. The hash is a constant.
- Session storage of the cart and compare list, TempData and ViewBag messages, view rendering, redirects and logging are not modelled. Controller actions return their outcome and the new state instead.
- Program.cs (wiring only), Models/MotoBikeContext.cs (EF Core configuration and a duplicate seeder), wwwroot/js/cart.js (animation) and wwwroot/js/product-ai.js (a floating-point UI helper) are not part of this model.
- Views that only display data are not modelled: `ProductsController.Index` and the Delete confirmation page, `AdminController.OrderDetail`, `OrdersController.MyOrders` and `BankTransfer`, and the coupon index page beyond the available list.
- `site.js` side effects are not modelled: localStorage writes, toasts, animations, timers, the fetches of the compare page, and the number formatting of prices.
- Client.HoverStar: the source's `mouseenter` only swaps the solid/outline icon classes. The `fas`/`far` pair is one `solid` flag.
- Client.StartQuantity: `parseInt` is a parameter, with `None` for NaN.
- Several reads of `DateTime.UtcNow` within one request are one `now` parameter.
- Coupons.CreatePost: the description text uses the culture's number format. It is a parameter `fmt`.
- Culture-sensitive upper and lower casing (`ToUpper`, `ToLower`) and the `StringComparison.OrdinalIgnoreCase` comparisons (Unicode simple case folding, at Controllers/CouponsController.cs:104 and :267, Controllers/OrdersController.cs:109 and :239, Controllers/HomeController.cs:19) are ASCII case folding. Non-ASCII letters therefore compare as distinct in the model where the source may fold them.
- Catalog.Brands: the default string order of `OrderBy(b => b)` is culture-sensitive, and the model uses ordinal order. The two differ visibly on the seeded brands: ordinal order puts "KY" before "Kinbar" ('Y' < 'i'), while the culture comparer puts "Kinbar" first. The same applies to the default brand-then-name sort and the name sort of Catalog.Index.
- Admin.Reports: `new DateTime(year, month, 1)` throws for a month outside 1..12 or a year outside 1..9999, and `AddMonths(1)` throws for December 9999. The model returns `InvalidMonth` in each of these cases instead of an exception.
- Admin pages that are read-only (`Index`, `Orders`, `Reports`, `Users`, `UserDetail`, and the seasonal promotions `Index`) take no admin flag. They model what an admin sees.
- DataStore.Initialize: the seeder replaces the category, product, coupon and user lists, and it numbers the seeds from the current counters, as the source does. Orders are kept.
- C# `decimal` is an exact `real`. Its 28-digit rounding is not modelled.
- C# 32-bit `int` is an unbounded `int`/`nat`. The wrap-around of the six `GetNext*Id` counters (Services/InMemoryDataStore.cs:358-383) and of `UsedCount++` (Controllers/OrdersController.cs:172) is not modelled, and neither is the `OverflowException` of the checked `Sum(d => d.Quantity)` (Controllers/AdminController.cs:43).
- The static lists are shared between requests without locking. Interleavings are not modelled.

=== FILE: admin.dfy ===
/** The administration pages (`AdminController`): the dashboard figures,
    the order list and status updates, the revenue reports and the user
    pages. Every action first sends a visitor whose session role is not
    "Admin" to the login page; the two actions that change the store take
    that check as the parameter `isAdmin`, the read-only ones are modelled
    for an administrator. */
module Admin {
  import opened Wrappers
  import opened Calendar
  import opened Models
  import opened DataStore
  import Seqs
  import Checkout

  // ---------------------------------------------------------------------
  // Shared pieces
  // ---------------------------------------------------------------------

  function OrderTotal(o: Order): real { o.total }

  /** `orders.Sum(o => o.Total)`. */
  function Revenue(orders: seq<Order>): real
  {
    Seqs.SumBy(orders, OrderTotal)
  }

  function HasStatus(status: string): Order -> bool
  {
    (o: Order) => o.status == status
  }

  function PlacedSince(t: Instant): Order -> bool
  {
    (o: Order) => o.orderDate >= t
  }

  /** `o.UserId == id`, the lifted comparison of an `int?` with an `int`. */
  function ByUser(id: int): Order -> bool
  {
    (o: Order) => o.userId == Some(id)
  }

  /** `OrderByDescending(o => o.OrderDate)`. */
  function NewerFirst(a: Order, b: Order): bool
  {
    a.orderDate >= b.orderDate
  }

  lemma NewerFirstPreorder()
    ensures Seqs.TotalPreorder(NewerFirst)
  {
  }

  /** Placing an order adds its total to the revenue. */
  lemma RevenueAppend(orders: seq<Order>, o: Order)
    ensures Revenue(orders + [o]) == Revenue(orders) + o.total
  {
    Seqs.SumByAppend(orders, [o], OrderTotal);
  }

  // ---------------------------------------------------------------------
  // Dashboard (`Index`)
  // ---------------------------------------------------------------------

  const TopProductLimit: nat := 5
  const RecentOrderLimit: nat := 10

  datatype TopProduct = TopProduct(product: Product, totalSold: int)

  /** `orders.SelectMany(o => o.Details)`. */
  function AllDetails(orders: seq<Order>): (r: seq<OrderDetail>)
    ensures forall o, d :: o in orders && d in o.details ==> d in r
    ensures forall d :: d in r ==> exists o :: o in orders && d in o.details
  {
    if |orders| == 0 then []
    else
      var rest := AllDetails(orders[1..]);
      assert forall o :: o in orders[1..] ==> o in orders;
      orders[0].details + rest
  }

  function DetailQuantity(d: OrderDetail): int { d.quantity }

  function ForProduct(id: int): OrderDetail -> bool
  {
    (d: OrderDetail) => d.productId == id
  }

  /** `g.Sum(d => d.Quantity)` for the group of product `id`. */
  function Sold(details: seq<OrderDetail>, id: int): int
  {
    Seqs.SumIntBy(Seqs.Filter(details, ForProduct(id)), DetailQuantity)
  }

  function SoldOf(details: seq<OrderDetail>): int -> int
  {
    id => Sold(details, id)
  }

  function ProductIds(details: seq<OrderDetail>): (r: seq<int>)
    ensures |r| == |details| && forall i :: 0 <= i < |r| ==> r[i] == details[i].productId
  {
    seq(|details|, i requires 0 <= i < |details| => details[i].productId)
  }

  function ProductIdIs(id: int): Product -> bool
  {
    (p: Product) => p.id == id
  }

  /** One row per group key, paired with `products.FirstOrDefault(p => p.Id
      == key)`; keys without a product are dropped. */
  function ProductTotals(products: seq<Product>, sold: int -> int, keys: seq<int>): (r: seq<TopProduct>)
    ensures forall i :: 0 <= i < |r| ==>
              r[i].product in products && r[i].product.id in keys && r[i].totalSold == sold(r[i].product.id)
    ensures Seqs.NoDuplicates(keys) ==> forall i, j :: 0 <= i < j < |r| ==> r[i].product.id != r[j].product.id
  {
    if |keys| == 0 then []
    else
      var rest := ProductTotals(products, sold, keys[1..]);
      Seqs.NoDuplicatesTail(keys);
      match Seqs.FindFirst(products, ProductIdIs(keys[0]))
      case Some(k) =>
        var r := [TopProduct(products[k], sold(keys[0]))] + rest;
        assert forall i :: 0 <= i < |rest| ==> r[i + 1] == rest[i];
        assert r[0].product.id == keys[0];
        r
      case None => rest
  }

  /** Every key that some product has gets a row; `i` is that row. */
  lemma {:induction false} ProductTotalsComplete(products: seq<Product>, sold: int -> int, keys: seq<int>, j: nat)
    returns (i: nat)
    requires j < |products| && products[j].id in keys
    ensures i < |ProductTotals(products, sold, keys)|
    ensures ProductTotals(products, sold, keys)[i].product.id == products[j].id
  {
    var found := Seqs.FindFirst(products, ProductIdIs(keys[0]));
    ProductTotalsCons(products, sold, keys);
    if keys[0] == products[j].id {
      assert ProductIdIs(keys[0])(products[j]);
      i := 0;
    } else {
      assert products[j].id in keys[1..];
      var i' := ProductTotalsComplete(products, sold, keys[1..], j);
      i := if found.Some? then i' + 1 else i';
    }
  }

  /** One step of `ProductTotals`: the first key contributes a row when a
      product has it. */
  lemma ProductTotalsCons(products: seq<Product>, sold: int -> int, keys: seq<int>)
    requires |keys| > 0
    ensures var rest := ProductTotals(products, sold, keys[1..]);
            match Seqs.FindFirst(products, ProductIdIs(keys[0]))
            case Some(k) => ProductTotals(products, sold, keys) == [TopProduct(products[k], sold(keys[0]))] + rest
            case None => ProductTotals(products, sold, keys) == rest
  {
  }

  function MoreSold(a: TopProduct, b: TopProduct): bool
  {
    a.totalSold >= b.totalSold
  }

  lemma MoreSoldPreorder()
    ensures Seqs.TotalPreorder(MoreSold)
  {
  }

  /** Every product that has been ordered, with how many were sold: order
      lines grouped by product id in order of first appearance, ids with
      no product dropped. */
  function SalesByProduct(products: seq<Product>, details: seq<OrderDetail>): (r: seq<TopProduct>)
    ensures forall i :: 0 <= i < |r| ==>
              && r[i].product in products
              && r[i].totalSold == Sold(details, r[i].product.id)
              && r[i].product.id in ProductIds(details)
    ensures forall i, j :: 0 <= i < j < |r| ==> r[i].product.id != r[j].product.id
    ensures forall j, k :: 0 <= j < |products| && 0 <= k < |details| && details[k].productId == products[j].id ==>
              exists i :: 0 <= i < |r| && r[i].product.id == products[j].id
  {
    var ids := ProductIds(details);
    var keys := Seqs.Distinct(ids);
    var r := ProductTotals(products, SoldOf(details), keys);
    forall j, k | 0 <= j < |products| && 0 <= k < |details| && details[k].productId == products[j].id
      ensures exists i :: 0 <= i < |r| && r[i].product.id == products[j].id
    {
      assert ids[k] == products[j].id;
      assert products[j].id in keys;
      var i := ProductTotalsComplete(products, SoldOf(details), keys, j);
    }
    r
  }

  /** The best sellers among `sales`: the first five, most sold first. */
  function TopSellers(sales: seq<TopProduct>): (r: seq<TopProduct>)
    ensures |r| == if |sales| < TopProductLimit then |sales| else TopProductLimit
    ensures forall i, j :: 0 <= i < j < |r| ==> r[i].totalSold >= r[j].totalSold
    ensures forall e :: e in r ==> e in sales
    ensures multiset(r) <= multiset(sales)
    ensures |sales| <= TopProductLimit ==> multiset(r) == multiset(sales)
    ensures forall x, y :: x in r && y in sales && y !in r ==> x.totalSold >= y.totalSold
    ensures forall z :: Seqs.EquivClass(r, MoreSold, z) <= Seqs.EquivClass(sales, MoreSold, z)
    ensures (forall i, j :: 0 <= i < j < |sales| ==> sales[i].product.id != sales[j].product.id) ==>
              forall i, j :: 0 <= i < j < |r| ==> r[i].product.id != r[j].product.id
  {
    MoreSoldPreorder();
    TopSoldOrder(sales);
    Seqs.Top(sales, MoreSold, TopProductLimit)
  }

  /** `Seqs.Top` under `MoreSold`, read as quantities sold. */
  lemma TopSoldOrder(sales: seq<TopProduct>)
    requires Seqs.TotalPreorder(MoreSold)
    ensures var r := Seqs.Top(sales, MoreSold, TopProductLimit);
            && (forall i, j :: 0 <= i < j < |r| ==> r[i].totalSold >= r[j].totalSold)
            && (forall x, y :: x in r && y in sales && y !in r ==> x.totalSold >= y.totalSold)
            && ((forall i, j :: 0 <= i < j < |sales| ==> sales[i].product.id != sales[j].product.id) ==>
                  forall i, j :: 0 <= i < j < |r| ==> r[i].product.id != r[j].product.id)
  {
    var r := Seqs.Top(sales, MoreSold, TopProductLimit);
    assert Seqs.SortedBy(r, MoreSold);
    Seqs.SubmultisetKeysDistinct(r, sales, (e: TopProduct) => e.product.id);
  }

  function TopProducts(s: Store): (r: seq<TopProduct>)
    ensures forall i, j :: 0 <= i < j < |r| ==> r[i].product.id != r[j].product.id
  {
    TopSellers(SalesByProduct(s.products, AllDetails(s.orders)))
  }

  /** A product left out of the best sellers sold no more than each of
      the five shown. */
  lemma TopSellersComplete(sales: seq<TopProduct>, e: TopProduct)
    requires e in sales
    ensures var r := TopSellers(sales);
            e in r || (|r| == TopProductLimit && forall x :: x in r ==> x.totalSold >= e.totalSold)
  {
    var r := TopSellers(sales);
    if |sales| <= TopProductLimit {
      assert e in multiset(sales);
      assert e in multiset(r);
    }
  }

  /** The sales row of an ordered product. */
  lemma SaleOf(products: seq<Product>, details: seq<OrderDetail>, j: nat, k: nat) returns (e: TopProduct)
    requires j < |products| && k < |details| && details[k].productId == products[j].id
    ensures e in SalesByProduct(products, details) && e.product.id == products[j].id
    ensures e.totalSold == Sold(details, products[j].id)
  {
    var r := SalesByProduct(products, details);
    var i :| 0 <= i < |r| && r[i].product.id == products[j].id;
    e := r[i];
  }

  /** An ordered product is either among the best sellers, or five others
      each sold at least as many. */
  lemma TopProductsComplete(s: Store, p: Product, o: Order, d: OrderDetail)
    requires p in s.products && o in s.orders && d in o.details && d.productId == p.id
    ensures var r := TopProducts(s);
            (exists e :: e in r && e.product.id == p.id)
            || (|r| == TopProductLimit && forall e :: e in r ==> e.totalSold >= Sold(AllDetails(s.orders), p.id))
  {
    var details := AllDetails(s.orders);
    assert d in details;
    var k :| 0 <= k < |details| && details[k] == d;
    var j :| 0 <= j < |s.products| && s.products[j] == p;
    var e := SaleOf(s.products, details, j, k);
    TopSellersComplete(SalesByProduct(s.products, details), e);
  }

  /** The ten latest orders, latest first. */
  function RecentOrders(orders: seq<Order>): (r: seq<Order>)
    ensures |r| == if |orders| < RecentOrderLimit then |orders| else RecentOrderLimit
    ensures forall o :: o in r ==> o in orders
    ensures Seqs.SortedBy(r, NewerFirst)
    ensures multiset(r) <= multiset(orders)
    ensures |orders| <= RecentOrderLimit ==> multiset(r) == multiset(orders)
    ensures forall x, o :: x in r && o in orders && o !in r ==> x.orderDate >= o.orderDate
    ensures forall z :: Seqs.EquivClass(r, NewerFirst, z) <= Seqs.EquivClass(orders, NewerFirst, z)
  {
    NewerFirstPreorder();
    TopRecentOrder(orders);
    Seqs.Top(orders, NewerFirst, RecentOrderLimit)
  }

  /** `Seqs.Top` under `NewerFirst`, read as order dates. */
  lemma TopRecentOrder(orders: seq<Order>)
    requires Seqs.TotalPreorder(NewerFirst)
    ensures var r := Seqs.Top(orders, NewerFirst, RecentOrderLimit);
            forall x, o :: x in r && o in orders && o !in r ==> x.orderDate >= o.orderDate
  {
  }

  datatype Dashboard = Dashboard(
    totalOrders: nat,
    totalRevenue: real,
    totalProducts: nat,
    totalCustomers: nat,
    monthlyRevenue: real,
    pendingOrders: nat,
    topProducts: seq<TopProduct>,
    recentOrders: seq<Order>)

  function IsCustomer(u: User): bool { u.role == CustomerRole }

  /** The dashboard at time `now`. "This month" starts at midnight on the
      first day of the month of `now`. */
  function Index(s: Store, now: Instant): (r: Dashboard)
    ensures r.totalOrders == |s.orders| && r.totalProducts == |s.products|
    ensures r.totalCustomers == |Seqs.Filter(s.users, IsCustomer)|
    ensures r.totalRevenue == Revenue(s.orders)
    ensures r.monthlyRevenue == Revenue(Seqs.Filter(s.orders, PlacedSince(FirstOfMonth(now))))
    ensures r.pendingOrders == |Seqs.Filter(s.orders, HasStatus(PendingStatus))| <= r.totalOrders
    ensures r.topProducts == TopProducts(s) && r.recentOrders == RecentOrders(s.orders)
  {
    Dashboard(
      |s.orders|,
      Revenue(s.orders),
      |s.products|,
      |Seqs.Filter(s.users, IsCustomer)|,
      Revenue(Seqs.Filter(s.orders, PlacedSince(FirstOfMonth(now)))),
      |Seqs.Filter(s.orders, HasStatus(PendingStatus))|,
      TopProducts(s),
      RecentOrders(s.orders))
  }

  /** A checkout placed now shows on the dashboard at once: one more order,
      one more pending order, and its total added to both the overall and
      this month's revenue. */
  lemma DashboardAfterCheckout(s: Store, cart: seq<int>, posted: Order, couponCode: string, now: Instant, sessionUser: Option<int>)
    requires Checkout.Checkout(s, cart, posted, couponCode, now, sessionUser).0.Placed?
    ensures var out := Checkout.Checkout(s, cart, posted, couponCode, now, sessionUser);
            var before, after := Index(s, now), Index(out.1, now);
            && after.totalOrders == before.totalOrders + 1
            && after.pendingOrders == before.pendingOrders + 1
            && after.totalRevenue == before.totalRevenue + out.0.order.total
            && after.monthlyRevenue == before.monthlyRevenue + out.0.order.total
  {
    var out := Checkout.Checkout(s, cart, posted, couponCode, now, sessionUser);
    var o := out.0.order;
    assert o == Checkout.PlacedOrder(s, cart, posted, couponCode, now, sessionUser);
    assert out.1.orders == s.orders + [o];
    assert o.status == PendingStatus && o.orderDate == now;
    RevenueAppend(s.orders, o);
    Seqs.FilterAppend(s.orders, [o], HasStatus(PendingStatus));
    var since := PlacedSince(FirstOfMonth(now));
    Seqs.FilterAppend(s.orders, [o], since);
    assert Seqs.Filter([o], since) == [o];
    RevenueAppend(Seqs.Filter(s.orders, since), o);
  }

  // ---------------------------------------------------------------------
  // Order list and status (`Orders`, `UpdateOrderStatus`)
  // ---------------------------------------------------------------------

  /** `Orders(status)`: the orders with that status (all of them when the
      status is null or empty), latest first. */
  function OrderList(orders: seq<Order>, status: Option<string>): (r: seq<Order>)
    ensures forall o :: o in r <==> o in orders && (status.None? || status.value == "" || o.status == status.value)
    ensures Seqs.SortedBy(r, NewerFirst)
    ensures status.None? || status.value == "" ==> multiset(r) == multiset(orders)
    ensures status.None? || status.value == "" ==>
              forall z :: Seqs.EquivClass(r, NewerFirst, z) == Seqs.EquivClass(orders, NewerFirst, z)
    ensures status.Some? && status.value != "" ==>
              forall z :: Seqs.EquivClass(r, NewerFirst, z)
                          == Seqs.EquivClass(Seqs.Filter(orders, HasStatus(status.value)), NewerFirst, z)
  {
    var q := if status.None? || status.value == "" then orders else Seqs.Filter(orders, HasStatus(status.value));
    NewerFirstPreorder();
    Seqs.SortedMembers(q, NewerFirst);
    Seqs.SortBy(q, NewerFirst)
  }

  /** The fields one status update writes. */
  function WithStatus(o: Order, status: string, trackingNumber: Option<string>, now: Instant): (r: Order)
    ensures r.status == status
    ensures status == ShippingStatus && trackingNumber.Some? && trackingNumber.value != "" ==>
              r.trackingNumber == trackingNumber && r.shippedDate == Some(now) && r.deliveredDate == o.deliveredDate
    ensures status == DeliveredStatus ==>
              r.deliveredDate == Some(now) && r.trackingNumber == o.trackingNumber && r.shippedDate == o.shippedDate
    ensures status != DeliveredStatus && (status != ShippingStatus || trackingNumber.None? || trackingNumber.value == "") ==>
              r.trackingNumber == o.trackingNumber && r.shippedDate == o.shippedDate && r.deliveredDate == o.deliveredDate
    ensures r == o.(status := r.status, trackingNumber := r.trackingNumber,
                    shippedDate := r.shippedDate, deliveredDate := r.deliveredDate)
  {
    if status == ShippingStatus && trackingNumber.Some? && trackingNumber.value != "" then
      o.(status := status, trackingNumber := trackingNumber, shippedDate := Some(now))
    else if status == DeliveredStatus then
      o.(status := status, deliveredDate := Some(now))
    else
      o.(status := status)
  }

  function OrderIdIs(id: int): Order -> bool
  {
    (o: Order) => o.id == id
  }

  datatype StatusOutcome = LoginRequired | OrderNotFound | StatusUpdated(store: Store)

  /** `UpdateOrderStatus`: the first order with that id gets the new status,
      and the tracking number and shipping or delivery date that go with it. */
  function UpdateOrderStatus(s: Store, isAdmin: bool, id: int, status: string, trackingNumber: Option<string>, now: Instant)
    : (r: StatusOutcome)
    ensures !isAdmin <==> r.LoginRequired?
    ensures r.OrderNotFound? <==> isAdmin && forall o :: o in s.orders ==> o.id != id
    ensures r.StatusUpdated? ==>
              exists k :: 0 <= k < |s.orders| && s.orders[k].id == id
                && (forall j :: 0 <= j < k ==> s.orders[j].id != id)
                && r.store == s.(orders := s.orders[k := WithStatus(s.orders[k], status, trackingNumber, now)])
  {
    if !isAdmin then LoginRequired
    else
      match Seqs.FindFirst(s.orders, OrderIdIs(id))
      case None => OrderNotFound
      case Some(k) => StatusUpdated(s.(orders := s.orders[k := WithStatus(s.orders[k], status, trackingNumber, now)]))
  }

  /** Posting the same update twice leaves the store as one post does. */
  lemma UpdateOrderStatusTwice(s: Store, id: int, status: string, trackingNumber: Option<string>, now: Instant)
    requires UpdateOrderStatus(s, true, id, status, trackingNumber, now).StatusUpdated?
    ensures var once := UpdateOrderStatus(s, true, id, status, trackingNumber, now).store;
            UpdateOrderStatus(once, true, id, status, trackingNumber, now) == StatusUpdated(once)
  {
    var k := Seqs.FindFirst(s.orders, OrderIdIs(id)).value;
    var once := UpdateOrderStatus(s, true, id, status, trackingNumber, now).store;
    assert Seqs.FindFirst(once.orders, OrderIdIs(id)) == Some(k) by {
      assert forall j :: 0 <= j < k ==> once.orders[j] == s.orders[j];
      FindFirstAt(once.orders, OrderIdIs(id), k);
    }
    var o := WithStatus(s.orders[k], status, trackingNumber, now);
    assert WithStatus(o, status, trackingNumber, now) == o;
    assert once.orders[k := o] == once.orders;
  }

  /** `FindFirst` stops at the first position that satisfies `p`. */
  lemma FindFirstAt(s: seq<Order>, p: Order -> bool, k: nat)
    requires k < |s| && p(s[k]) && forall j :: 0 <= j < k ==> !p(s[j])
    ensures Seqs.FindFirst(s, p) == Some(k)
  {
    var r := Seqs.FindFirst(s, p);
    assert r.Some?;
  }

  /** A status update changes no total, so the dashboard revenue stays. */
  lemma UpdateKeepsRevenue(s: Store, id: int, status: string, trackingNumber: Option<string>, now: Instant)
    requires UpdateOrderStatus(s, true, id, status, trackingNumber, now).StatusUpdated?
    ensures Revenue(UpdateOrderStatus(s, true, id, status, trackingNumber, now).store.orders) == Revenue(s.orders)
  {
    var after := UpdateOrderStatus(s, true, id, status, trackingNumber, now).store.orders;
    Seqs.SumByPointwise(after, s.orders, OrderTotal);
  }

  // ---------------------------------------------------------------------
  // Reports
  // ---------------------------------------------------------------------

  /** One group of a report: its key (a month, or a day number), the
      revenue of its orders and how many there are. */
  datatype Row = Row(key: int, revenue: real, orderCount: nat)

  function KeyIs(key: Order -> int, k: int): Order -> bool
  {
    (o: Order) => key(o) == k
  }

  function KeyIn(key: Order -> int, lo: int, hi: int): Order -> bool
  {
    (o: Order) => lo <= key(o) < hi
  }

  /** The orders of group `k`. */
  function Group(orders: seq<Order>, key: Order -> int, k: int): seq<Order>
  {
    Seqs.Filter(orders, KeyIs(key, k))
  }

  /** The row of group `k`. */
  function GroupRow(orders: seq<Order>, key: Order -> int, k: int): Row
  {
    var g := Group(orders, key, k);
    Row(k, Revenue(g), |g|)
  }

  function GroupRows(orders: seq<Order>, key: Order -> int): int -> Row
  {
    k => GroupRow(orders, key, k)
  }

  /** The rows `row(k)` for `k` in `[lo, hi)` ascending, empty ones left out. */
  function RowsOf(row: int -> Row, lo: int, hi: int): (r: seq<Row>)
    requires forall k :: row(k).key == k
    ensures forall i :: 0 <= i < |r| ==> lo <= r[i].key < hi && r[i] == row(r[i].key) && r[i].orderCount > 0
    ensures forall i, j :: 0 <= i < j < |r| ==> r[i].key < r[j].key
    decreases hi - lo
  {
    if lo >= hi then []
    else
      var rest := RowsOf(row, lo + 1, hi);
      if row(lo).orderCount == 0 then rest
      else
        var r := [row(lo)] + rest;
        assert forall i :: 1 <= i < |r| ==> r[i] == rest[i - 1];
        r
  }

  /** No key with orders is missing. */
  lemma {:induction false} RowsOfComplete(row: int -> Row, lo: int, hi: int, k: int)
    requires forall k :: row(k).key == k
    requires lo <= k < hi && row(k).orderCount > 0
    ensures exists i :: 0 <= i < |RowsOf(row, lo, hi)| && RowsOf(row, lo, hi)[i].key == k
    decreases hi - lo
  {
    var r := RowsOf(row, lo, hi);
    if k == lo {
      assert r[0].key == k;
    } else {
      RowsOfComplete(row, lo + 1, hi, k);
      var rest := RowsOf(row, lo + 1, hi);
      var i :| 0 <= i < |rest| && rest[i].key == k;
      if row(lo).orderCount == 0 {
        assert r == rest;
      } else {
        assert r[i + 1] == rest[i];
      }
    }
  }

  function RowRevenue(x: Row): real { x.revenue }
  function RowCount(x: Row): int { x.orderCount }

  /** The revenues and counts of `row(k)` over `[lo, hi)`. */
  function RangeRevenue(row: int -> Row, lo: int, hi: int): real
    decreases hi - lo
  {
    if lo >= hi then 0.0 else row(lo).revenue + RangeRevenue(row, lo + 1, hi)
  }

  function RangeCount(row: int -> Row, lo: int, hi: int): int
    decreases hi - lo
  {
    if lo >= hi then 0 else row(lo).orderCount + RangeCount(row, lo + 1, hi)
  }

  /** Leaving out the empty rows changes no total. */
  lemma {:induction false} RowsOfSums(row: int -> Row, lo: int, hi: int)
    requires forall k :: row(k).key == k
    requires forall k :: row(k).orderCount == 0 ==> row(k).revenue == 0.0
    ensures Seqs.SumBy(RowsOf(row, lo, hi), RowRevenue) == RangeRevenue(row, lo, hi)
    ensures Seqs.SumIntBy(RowsOf(row, lo, hi), RowCount) == RangeCount(row, lo, hi)
    decreases hi - lo
  {
    if lo < hi {
      RowsOfSums(row, lo + 1, hi);
    }
  }

  /** `GroupBy(key).Select(...).OrderBy(x => x.key)` over orders whose key
      lies in `[lo, hi)`: one row per key that has orders, keys ascending,
      each with the revenue and the count of its group. */
  function Rows(orders: seq<Order>, key: Order -> int, lo: int, hi: int): (r: seq<Row>)
    ensures forall i :: 0 <= i < |r| ==>
              && lo <= r[i].key < hi && r[i].orderCount > 0
              && r[i].revenue == Revenue(Group(orders, key, r[i].key))
              && r[i].orderCount == |Group(orders, key, r[i].key)|
    ensures forall i, j :: 0 <= i < j < |r| ==> r[i].key < r[j].key
  {
    RowsOf(GroupRows(orders, key), lo, hi)
  }

  /** Every order with a key in `[lo, hi)` has the row of its key. */
  lemma RowsComplete(orders: seq<Order>, key: Order -> int, lo: int, hi: int, o: Order)
    requires o in orders && lo <= key(o) < hi
    ensures exists i :: 0 <= i < |Rows(orders, key, lo, hi)| && Rows(orders, key, lo, hi)[i].key == key(o)
  {
    var row := GroupRows(orders, key);
    assert o in Group(orders, key, key(o));
    assert row(key(o)).orderCount > 0;
    RowsOfComplete(row, lo, hi, key(o));
    assert Rows(orders, key, lo, hi) == RowsOf(row, lo, hi);
  }

  /** The rows split the orders with a key in `[lo, hi)`: their counts and
      revenues add up to those of all such orders. */
  lemma RowsPartition(orders: seq<Order>, key: Order -> int, lo: int, hi: int)
    ensures Seqs.SumBy(Rows(orders, key, lo, hi), RowRevenue) == Revenue(Seqs.Filter(orders, KeyIn(key, lo, hi)))
    ensures Seqs.SumIntBy(Rows(orders, key, lo, hi), RowCount) == |Seqs.Filter(orders, KeyIn(key, lo, hi))|
  {
    var row := GroupRows(orders, key);
    forall k | row(k).orderCount == 0
      ensures row(k).revenue == 0.0
    {
      assert Group(orders, key, k) == [];
    }
    RowsOfSums(row, lo, hi);
    RangeIsFilter(orders, key, lo, hi);
  }

  lemma {:induction false} RangeIsFilter(orders: seq<Order>, key: Order -> int, lo: int, hi: int)
    ensures RangeRevenue(GroupRows(orders, key), lo, hi) == Revenue(Seqs.Filter(orders, KeyIn(key, lo, hi)))
    ensures RangeCount(GroupRows(orders, key), lo, hi) == |Seqs.Filter(orders, KeyIn(key, lo, hi))|
    decreases hi - lo
  {
    var all := Seqs.Filter(orders, KeyIn(key, lo, hi));
    if lo >= hi {
      Seqs.EmptyWhenNoMember(all);
    } else {
      RangeIsFilter(orders, key, lo + 1, hi);
      Seqs.FilterSplit(orders, KeyIn(key, lo, hi), KeyIs(key, lo), KeyIn(key, lo + 1, hi), OrderTotal);
    }
  }

  function MonthOf(o: Order): int { DateParts(o.orderDate).month }

  function YearIs(year: int): Order -> bool
  {
    (o: Order) => DateParts(o.orderDate).year == year
  }

  function DayOf(o: Order): int { DayNumber(o.orderDate) }

  function Between(start: Instant, end: Instant): Order -> bool
  {
    (o: Order) => start <= o.orderDate < end
  }

  function NotCancelled(o: Order): bool { o.status != CancelledStatus }

  datatype CustomerTotal = CustomerTotal(userId: int, totalSpent: real, orderCount: nat)
  datatype TopCustomer = TopCustomer(customer: User, totalSpent: real, orderCount: nat)

  const TopCustomerLimit: nat := 10

  function HasUser(o: Order): bool { o.userId.Some? }

  /** The total a customer spent over `orders`. */
  function Spent(orders: seq<Order>, id: int): real
  {
    Revenue(Seqs.Filter(orders, ByUser(id)))
  }

  /** `o.UserId!.Value` of each order that has a user. */
  function UserIds(withUser: seq<Order>): (r: seq<int>)
    requires forall i :: 0 <= i < |withUser| ==> HasUser(withUser[i])
    ensures |r| == |withUser| && forall i :: 0 <= i < |r| ==> withUser[i].userId == Some(r[i])
  {
    seq(|withUser|, i requires 0 <= i < |withUser| && HasUser(withUser[i]) => withUser[i].userId.value)
  }

  /** One row per user id: what the group spent and how many orders it has. */
  function CustomerTotals(orders: seq<Order>, ids: seq<int>): (r: seq<CustomerTotal>)
    ensures |r| == |ids|
    ensures forall i :: 0 <= i < |r| ==>
              r[i] == CustomerTotal(ids[i], Spent(orders, ids[i]), |Seqs.Filter(orders, ByUser(ids[i]))|)
  {
    seq(|ids|, i requires 0 <= i < |ids| =>
      CustomerTotal(ids[i], Spent(orders, ids[i]), |Seqs.Filter(orders, ByUser(ids[i]))|))
  }

  /** Within the orders that have a user, the group of a user is all of
      that user's orders. */
  lemma {:induction false} GroupOfUser(orders: seq<Order>, id: int)
    ensures Seqs.Filter(Seqs.Filter(orders, HasUser), ByUser(id)) == Seqs.Filter(orders, ByUser(id))
  {
    if |orders| > 0 {
      GroupOfUser(orders[1..], id);
    }
  }

  /** `orders.Where(o => o.UserId != null).GroupBy(o => o.UserId!.Value)`,
      groups in order of first appearance. */
  function SpendingByUser(orders: seq<Order>): (r: seq<CustomerTotal>)
    ensures forall i, j :: 0 <= i < j < |r| ==> r[i].userId != r[j].userId
    ensures forall i :: 0 <= i < |r| ==>
              && r[i].totalSpent == Spent(orders, r[i].userId)
              && r[i].orderCount == |Seqs.Filter(orders, ByUser(r[i].userId))| > 0
  {
    var withUser := Seqs.Filter(orders, HasUser);
    var ids := Seqs.Distinct(UserIds(withUser));
    var r := CustomerTotals(withUser, ids);
    forall i | 0 <= i < |r|
      ensures r[i].totalSpent == Spent(orders, r[i].userId)
      ensures r[i].orderCount == |Seqs.Filter(orders, ByUser(r[i].userId))| > 0
    {
      var id := ids[i];
      assert id in UserIds(withUser);
      var k :| 0 <= k < |withUser| && UserIds(withUser)[k] == id;
      UserGroupRow(orders, withUser, k, id);
    }
    r
  }

  /** The group of a user who has an order is that user's orders, and is not empty. */
  lemma UserGroupRow(orders: seq<Order>, withUser: seq<Order>, k: nat, id: int)
    requires withUser == Seqs.Filter(orders, HasUser)
    requires k < |withUser| && withUser[k].userId == Some(id)
    ensures Spent(withUser, id) == Spent(orders, id)
    ensures |Seqs.Filter(withUser, ByUser(id))| == |Seqs.Filter(orders, ByUser(id))| > 0
  {
    GroupOfUser(orders, id);
    UserGroupNonEmpty(orders, withUser[k], id);
  }

  lemma UserGroupNonEmpty(orders: seq<Order>, o: Order, id: int)
    requires o in orders && o.userId == Some(id)
    ensures |Seqs.Filter(orders, ByUser(id))| > 0
  {
    assert o in Seqs.Filter(orders, ByUser(id));
  }

  /** Every user with an order has a group. */
  lemma SpendingByUserComplete(orders: seq<Order>, o: Order, id: int) returns (i: nat)
    requires o in orders && o.userId == Some(id)
    ensures i < |SpendingByUser(orders)| && SpendingByUser(orders)[i].userId == id
  {
    var withUser := Seqs.Filter(orders, HasUser);
    assert o in withUser;
    var k :| 0 <= k < |withUser| && withUser[k] == o;
    var uids := UserIds(withUser);
    assert uids[k] == id;
    var ids := Seqs.Distinct(uids);
    assert id in ids;
    i :| 0 <= i < |ids| && ids[i] == id;
    var r := CustomerTotals(withUser, ids);
    assert r[i].userId == id;
    assert SpendingByUser(orders) == r;
  }

  function MoreSpent(a: CustomerTotal, b: CustomerTotal): bool
  {
    a.totalSpent >= b.totalSpent
  }

  lemma MoreSpentPreorder()
    ensures Seqs.TotalPreorder(MoreSpent)
  {
  }

  function UserIdIs(id: int): User -> bool
  {
    (u: User) => u.id == id
  }

  function Unnamed(c: TopCustomer): CustomerTotal
  {
    CustomerTotal(c.customer.id, c.totalSpent, c.orderCount)
  }

  /** `topCustomers.Select(tc => new { Customer = users.FirstOrDefault(...),
      ... }).Where(x => x.Customer != null)`: the totals whose user is
      found, in the same order. */
  function Named(users: seq<User>, totals: seq<CustomerTotal>): (r: seq<TopCustomer>)
    ensures |r| <= |totals|
    ensures forall i :: 0 <= i < |r| ==> r[i].customer in users && Unnamed(r[i]) in totals
    ensures Seqs.SortedBy(totals, MoreSpent) ==>
              forall i, j :: 0 <= i < j < |r| ==> r[i].totalSpent >= r[j].totalSpent
    ensures (forall a, b :: 0 <= a < b < |totals| ==> totals[a].userId != totals[b].userId) ==>
              forall i, j :: 0 <= i < j < |r| ==> r[i].customer.id != r[j].customer.id
  {
    if |totals| == 0 then []
    else
      var rest := Named(users, totals[1..]);
      match Seqs.FindFirst(users, UserIdIs(totals[0].userId))
      case Some(k) =>
        var h := TopCustomer(users[k], totals[0].totalSpent, totals[0].orderCount);
        NamedHead(users, totals, h, rest);
        [h] + rest
      case None => rest
  }

  /** The row of the first total, put in front of the rows of the rest,
      keeps the facts `Named` states. */
  lemma NamedHead(users: seq<User>, totals: seq<CustomerTotal>, h: TopCustomer, rest: seq<TopCustomer>)
    requires |totals| > 0 && h.customer in users && Unnamed(h) == totals[0]
    requires forall i :: 0 <= i < |rest| ==> rest[i].customer in users && Unnamed(rest[i]) in totals[1..]
    requires Seqs.SortedBy(totals[1..], MoreSpent) ==>
               forall i, j :: 0 <= i < j < |rest| ==> rest[i].totalSpent >= rest[j].totalSpent
    requires (forall a, b :: 0 <= a < b < |totals[1..]| ==> totals[1..][a].userId != totals[1..][b].userId) ==>
               forall i, j :: 0 <= i < j < |rest| ==> rest[i].customer.id != rest[j].customer.id
    ensures var r := [h] + rest;
            && (forall i :: 0 <= i < |r| ==> r[i].customer in users && Unnamed(r[i]) in totals)
            && (Seqs.SortedBy(totals, MoreSpent) ==>
                  forall i, j :: 0 <= i < j < |r| ==> r[i].totalSpent >= r[j].totalSpent)
            && ((forall a, b :: 0 <= a < b < |totals| ==> totals[a].userId != totals[b].userId) ==>
                  forall i, j :: 0 <= i < j < |r| ==> r[i].customer.id != r[j].customer.id)
  {
    var r := [h] + rest;
    forall i | 0 <= i < |r|
      ensures r[i].customer in users && Unnamed(r[i]) in totals
    {
      if i > 0 {
        assert r[i] == rest[i - 1];
      }
    }
    if Seqs.SortedBy(totals, MoreSpent) {
      assert Seqs.SortedBy(totals[1..], MoreSpent);
      HeadSpendsMost(totals, rest);
      NamedHeadOrdered(h, rest);
    }
    if forall a, b :: 0 <= a < b < |totals| ==> totals[a].userId != totals[b].userId {
      assert forall a, b :: 0 <= a < b < |totals[1..]| ==> totals[1..][a].userId != totals[1..][b].userId;
      HeadDistinct(totals, rest);
      NamedHeadDistinct(h, rest);
    }
  }

  lemma NamedHeadOrdered(h: TopCustomer, rest: seq<TopCustomer>)
    requires forall j :: 0 <= j < |rest| ==> h.totalSpent >= rest[j].totalSpent
    requires forall i, j :: 0 <= i < j < |rest| ==> rest[i].totalSpent >= rest[j].totalSpent
    ensures var r := [h] + rest;
            forall i, j :: 0 <= i < j < |r| ==> r[i].totalSpent >= r[j].totalSpent
  {
    var r := [h] + rest;
    forall i, j | 0 <= i < j < |r|
      ensures r[i].totalSpent >= r[j].totalSpent
    {
      assert r[j] == rest[j - 1];
      if i > 0 {
        assert r[i] == rest[i - 1];
      }
    }
  }

  lemma NamedHeadDistinct(h: TopCustomer, rest: seq<TopCustomer>)
    requires forall j :: 0 <= j < |rest| ==> rest[j].customer.id != h.customer.id
    requires forall i, j :: 0 <= i < j < |rest| ==> rest[i].customer.id != rest[j].customer.id
    ensures var r := [h] + rest;
            forall i, j :: 0 <= i < j < |r| ==> r[i].customer.id != r[j].customer.id
  {
    var r := [h] + rest;
    forall i, j | 0 <= i < j < |r|
      ensures r[i].customer.id != r[j].customer.id
    {
      assert r[j] == rest[j - 1];
      if i > 0 {
        assert r[i] == rest[i - 1];
      }
    }
  }

  /** In totals sorted by spending, the first spends at least as much as any
      row drawn from the rest. */
  lemma HeadSpendsMost(totals: seq<CustomerTotal>, rest: seq<TopCustomer>)
    requires |totals| > 0 && Seqs.SortedBy(totals, MoreSpent)
    requires forall i :: 0 <= i < |rest| ==> Unnamed(rest[i]) in totals[1..]
    ensures forall j :: 0 <= j < |rest| ==> totals[0].totalSpent >= rest[j].totalSpent
  {
    forall j | 0 <= j < |rest|
      ensures totals[0].totalSpent >= rest[j].totalSpent
    {
      var b :| 0 <= b < |totals[1..]| && totals[1..][b] == Unnamed(rest[j]);
      assert MoreSpent(totals[0], totals[b + 1]);
    }
  }

  /** With distinct user ids, no row drawn from the rest carries the
      first total's user. */
  lemma HeadDistinct(totals: seq<CustomerTotal>, rest: seq<TopCustomer>)
    requires |totals| > 0
    requires forall i :: 0 <= i < |rest| ==> Unnamed(rest[i]) in totals[1..]
    ensures (forall a, b :: 0 <= a < b < |totals| ==> totals[a].userId != totals[b].userId) ==>
              forall j :: 0 <= j < |rest| ==> rest[j].customer.id != totals[0].userId
  {
    forall j | 0 <= j < |rest|
      ensures exists b :: 0 < b < |totals| && totals[b].userId == rest[j].customer.id
    {
      var b :| 0 <= b < |totals[1..]| && totals[1..][b] == Unnamed(rest[j]);
      assert totals[b + 1].userId == rest[j].customer.id;
    }
  }

  /** The first total contributes its row, when its user is found, ahead
      of the rows of the rest. */
  lemma NamedCons(users: seq<User>, totals: seq<CustomerTotal>)
    requires |totals| > 0
    ensures var found := Seqs.FindFirst(users, UserIdIs(totals[0].userId));
            Named(users, totals)
            == (if found.Some? then [TopCustomer(users[found.value], totals[0].totalSpent, totals[0].orderCount)] else [])
               + Named(users, totals[1..])
  {
  }

  /** A total whose user exists is named. */
  lemma {:induction false} NamedComplete(users: seq<User>, totals: seq<CustomerTotal>, a: nat, k: nat)
    requires a < |totals| && k < |users| && users[k].id == totals[a].userId
    ensures exists i :: 0 <= i < |Named(users, totals)| && Unnamed(Named(users, totals)[i]) == totals[a]
  {
    var r := Named(users, totals);
    var rest := Named(users, totals[1..]);
    var found := Seqs.FindFirst(users, UserIdIs(totals[0].userId));
    NamedCons(users, totals);
    if a == 0 {
      assert UserIdIs(totals[0].userId)(users[k]);
      assert found.Some?;
      assert Unnamed(r[0]) == totals[0];
    } else {
      NamedComplete(users, totals[1..], a - 1, k);
      var i :| 0 <= i < |rest| && Unnamed(rest[i]) == totals[1..][a - 1];
      if found.Some? {
        assert r[i + 1] == rest[i];
        assert Unnamed(r[i + 1]) == totals[a];
      } else {
        assert r == rest;
      }
    }
  }

  /** The best customers over `orders`: biggest spenders first, the first
      ten of those, then any whose user is not found dropped. */
  function TopCustomers(orders: seq<Order>, users: seq<User>): (r: seq<TopCustomer>)
    ensures |r| <= TopCustomerLimit
    ensures forall i :: 0 <= i < |r| ==>
              && r[i].customer in users
              && r[i].totalSpent == Spent(orders, r[i].customer.id)
              && r[i].orderCount == |Seqs.Filter(orders, ByUser(r[i].customer.id))| > 0
    ensures forall i, j :: 0 <= i < j < |r| ==> r[i].totalSpent >= r[j].totalSpent
    ensures forall i, j :: 0 <= i < j < |r| ==> r[i].customer.id != r[j].customer.id
  {
    var all := SpendingByUser(orders);
    var top := TopSpenders(all);
    var r := Named(users, top);
    forall i | 0 <= i < |r|
      ensures r[i].totalSpent == Spent(orders, r[i].customer.id)
      ensures r[i].orderCount == |Seqs.Filter(orders, ByUser(r[i].customer.id))| > 0
    {
      SpentGroup(orders, all, Unnamed(r[i]));
    }
    r
  }

  /** Each group `SpendingByUser` forms carries its user's totals. */
  lemma SpentGroup(orders: seq<Order>, all: seq<CustomerTotal>, t: CustomerTotal)
    requires all == SpendingByUser(orders) && t in all
    ensures t.totalSpent == Spent(orders, t.userId)
    ensures t.orderCount == |Seqs.Filter(orders, ByUser(t.userId))| > 0
  {
    var k :| 0 <= k < |all| && all[k] == t;
  }

  function TopSpenders(all: seq<CustomerTotal>): (r: seq<CustomerTotal>)
    ensures Seqs.SortedBy(r, MoreSpent)
    ensures |r| == if |all| < TopCustomerLimit then |all| else TopCustomerLimit
    ensures forall x :: x in r ==> x in all
    ensures multiset(r) <= multiset(all)
    ensures forall x, y :: x in r && y in all && y !in r ==> x.totalSpent >= y.totalSpent
    ensures forall z :: Seqs.EquivClass(r, MoreSpent, z) <= Seqs.EquivClass(all, MoreSpent, z)
    ensures (forall i, j :: 0 <= i < j < |all| ==> all[i].userId != all[j].userId) ==>
              forall i, j :: 0 <= i < j < |r| ==> r[i].userId != r[j].userId
  {
    MoreSpentPreorder();
    TopSpentOrder(all);
    var r := Seqs.Top(all, MoreSpent, TopCustomerLimit);
    Seqs.SubmultisetKeysDistinct(r, all, (t: CustomerTotal) => t.userId);
    r
  }

  /** `Seqs.Top` under `MoreSpent`, read as amounts spent. */
  lemma TopSpentOrder(all: seq<CustomerTotal>)
    requires Seqs.TotalPreorder(MoreSpent)
    ensures var r := Seqs.Top(all, MoreSpent, TopCustomerLimit);
            forall x, y :: x in r && y in all && y !in r ==> x.totalSpent >= y.totalSpent
  {
  }

  /** Of the groups `all`, a user that exists and is not named in the
      report spent no more than each one named. */
  lemma NamedTopComplete(users: seq<User>, all: seq<CustomerTotal>, a: nat, k: nat)
    requires a < |all| && k < |users| && users[k].id == all[a].userId
    ensures var r := Named(users, TopSpenders(all));
            (exists i :: 0 <= i < |r| && r[i].customer.id == users[k].id)
            || forall i :: 0 <= i < |r| ==> r[i].totalSpent >= all[a].totalSpent
  {
    var top := TopSpenders(all);
    var r := Named(users, top);
    var t := all[a];
    if t in top {
      var b :| 0 <= b < |top| && top[b] == t;
      NamedComplete(users, top, b, k);
      var i :| 0 <= i < |r| && Unnamed(r[i]) == t;
      assert r[i].customer.id == users[k].id;
    } else {
      forall i | 0 <= i < |r|
        ensures r[i].totalSpent >= t.totalSpent
      {
        assert Unnamed(r[i]) in top;
      }
    }
  }

  /** A customer left out of the report spent no more than each one shown
      (or was among the ten biggest spenders, and is then shown). */
  lemma TopCustomersComplete(orders: seq<Order>, users: seq<User>, o: Order, k: nat)
    requires o in orders && k < |users| && o.userId == Some(users[k].id)
    ensures var r := TopCustomers(orders, users);
            (exists i :: 0 <= i < |r| && r[i].customer.id == users[k].id)
            || forall i :: 0 <= i < |r| ==> r[i].totalSpent >= Spent(orders, users[k].id)
  {
    var all := SpendingByUser(orders);
    var a := SpendingByUserComplete(orders, o, users[k].id);
    assert all[a].totalSpent == Spent(orders, users[k].id);
    NamedTopComplete(users, all, a, k);
    assert TopCustomers(orders, users) == Named(users, TopSpenders(all));
  }

  datatype ReportOutcome =
    | InvalidMonth
    | Report(year: int, month: int, monthly: seq<Row>, daily: seq<Row>, topCustomers: seq<TopCustomer>)

  /** `Reports(year, month)`, both defaulting to those of `now`. Cancelled
      orders are left out everywhere. The monthly rows are keyed by month
      of `year`; the daily rows by day number, over the calendar month that
      starts on the first of `month`, up to but not including the first of
      the next. A month whose first day `new DateTime` rejects, or whose
      following first day `AddMonths(1)` cannot reach (December 9999), ends
      in `InvalidMonth`. */
  function Reports(s: Store, year: Option<int>, month: Option<int>, now: Instant): (r: ReportOutcome)
    ensures var y := year.GetOr(DateParts(now).year);
            var m := month.GetOr(DateParts(now).month);
            && (r.InvalidMonth? <==>
                  MakeInstant(y, m, 1).None? || MakeInstant(NextMonthYear(y, m), NextMonth(m), 1).None?)
            && (r.Report? ==> r.year == y && r.month == m)
    ensures r.Report? ==>
              var kept := Seqs.Filter(s.orders, NotCancelled);
              && MakeInstant(r.year, r.month, 1).Some?
              && var start := MakeInstant(r.year, r.month, 1).value;
              && r.monthly == Rows(Seqs.Filter(kept, YearIs(r.year)), MonthOf, 1, 13)
              && r.daily == Rows(Seqs.Filter(kept, Between(start, AddMonths(start, 1))), DayOf,
                                 DayNumber(start), DayNumber(AddMonths(start, 1)))
              && r.topCustomers == TopCustomers(kept, s.users)
  {
    var y := year.GetOr(DateParts(now).year);
    var m := month.GetOr(DateParts(now).month);
    var kept := Seqs.Filter(s.orders, NotCancelled);
    match MakeInstant(y, m, 1)
    case None => InvalidMonth
    case Some(start) =>
      if MakeInstant(NextMonthYear(y, m), NextMonth(m), 1).None? then InvalidMonth
      else
      var end := AddMonths(start, 1);
      Report(y, m,
             Rows(Seqs.Filter(kept, YearIs(y)), MonthOf, 1, 13),
             Rows(Seqs.Filter(kept, Between(start, end)), DayOf, DayNumber(start), DayNumber(end)),
             TopCustomers(kept, s.users))
  }

  /** Year and month of the month after month `m` of year `y`. */
  function NextMonthYear(y: int, m: int): int { if m == 12 then y + 1 else y }
  function NextMonth(m: int): int { if m == 12 then 1 else m + 1 }

  /** December 9999 is the one real month with no following month:
      `AddMonths(1)` from its first day leaves the range of `DateTime`. */
  lemma LastMonthRejected(s: Store, now: Instant)
    ensures Reports(s, Some(9999), Some(12), now) == InvalidMonth
  {
    assert MakeInstant(10000, 1, 1).None?;
  }

  /** Every other month of years 1 to 9999 gets a report. */
  lemma OtherMonthsReported(s: Store, y: int, m: int, now: Instant)
    requires 1 <= y <= 9999 && 1 <= m <= 12 && !(y == 9999 && m == 12)
    ensures Reports(s, Some(y), Some(m), now).Report?
  {
    MonthsRepresentable(y, m);
  }

  lemma MonthsRepresentable(y: int, m: int)
    requires 1 <= y <= 9999 && 1 <= m <= 12 && !(y == 9999 && m == 12)
    ensures MakeInstant(y, m, 1).Some? && MakeInstant(NextMonthYear(y, m), NextMonth(m), 1).Some?
  {
    assert ValidDate(Date(y, m, 1));
    assert ValidDate(Date(NextMonthYear(y, m), NextMonth(m), 1));
  }

  lemma MonthInRange(o: Order)
    ensures 1 <= MonthOf(o) <= 12
  {
    CivilRoundTrip(DayNumber(o.orderDate));
  }

  /** Every order of the year has the row of its month. */
  lemma MonthlyComplete(orders: seq<Order>, year: int, o: Order)
    requires o in Seqs.Filter(orders, YearIs(year))
    ensures var rows := Rows(Seqs.Filter(orders, YearIs(year)), MonthOf, 1, 13);
            exists i :: 0 <= i < |rows| && rows[i].key == MonthOf(o)
  {
    MonthInRange(o);
    RowsComplete(Seqs.Filter(orders, YearIs(year)), MonthOf, 1, 13, o);
  }

  /** The monthly rows add up to the year: as many orders, the same
      revenue. */
  lemma MonthlyAddsUp(orders: seq<Order>, year: int)
    ensures var inYear := Seqs.Filter(orders, YearIs(year));
            var rows := Rows(inYear, MonthOf, 1, 13);
            Seqs.SumBy(rows, RowRevenue) == Revenue(inYear) && Seqs.SumIntBy(rows, RowCount) == |inYear|
  {
    var inYear := Seqs.Filter(orders, YearIs(year));
    forall i | 0 <= i < |inYear|
      ensures KeyIn(MonthOf, 1, 13)(inYear[i])
    {
      MonthInRange(inYear[i]);
    }
    Seqs.FilterAll(inYear, KeyIn(MonthOf, 1, 13));
    RowsPartition(inYear, MonthOf, 1, 13);
  }

  /** Orders inside the month that starts at midnight `start` fall on the
      days of that month. */
  lemma DayInWindow(start: Instant, o: Order)
    requires start % MsPerDay == 0 && Between(start, AddMonths(start, 1))(o)
    ensures DayNumber(start) <= DayOf(o) < DayNumber(AddMonths(start, 1))
  {
    AddMonthsMidnight(start, 1);
    DayBetween(start, AddMonths(start, 1), o.orderDate);
  }

  /** Every order in the window has the row of its day. */
  lemma DailyComplete(orders: seq<Order>, start: Instant, o: Order)
    requires start % MsPerDay == 0
    requires o in Seqs.Filter(orders, Between(start, AddMonths(start, 1)))
    ensures var window := Seqs.Filter(orders, Between(start, AddMonths(start, 1)));
            var rows := Rows(window, DayOf, DayNumber(start), DayNumber(AddMonths(start, 1)));
            exists i :: 0 <= i < |rows| && rows[i].key == DayOf(o)
  {
    DayInWindow(start, o);
    RowsComplete(Seqs.Filter(orders, Between(start, AddMonths(start, 1))), DayOf,
                 DayNumber(start), DayNumber(AddMonths(start, 1)), o);
  }

  /** The daily rows add up to the window. */
  lemma DailyAddsUp(orders: seq<Order>, start: Instant)
    requires start % MsPerDay == 0
    ensures var window := Seqs.Filter(orders, Between(start, AddMonths(start, 1)));
            var rows := Rows(window, DayOf, DayNumber(start), DayNumber(AddMonths(start, 1)));
            Seqs.SumBy(rows, RowRevenue) == Revenue(window) && Seqs.SumIntBy(rows, RowCount) == |window|
  {
    var end := AddMonths(start, 1);
    var window := Seqs.Filter(orders, Between(start, end));
    forall i | 0 <= i < |window|
      ensures KeyIn(DayOf, DayNumber(start), DayNumber(end))(window[i])
    {
      DayInWindow(start, window[i]);
    }
    Seqs.FilterAll(window, KeyIn(DayOf, DayNumber(start), DayNumber(end)));
    RowsPartition(window, DayOf, DayNumber(start), DayNumber(end));
  }

  // ---------------------------------------------------------------------
  // Users (`Users`, `UserDetail`, `ToggleUserStatus`)
  // ---------------------------------------------------------------------

  function NewerUserFirst(a: User, b: User): bool
  {
    a.createdAt >= b.createdAt
  }

  /** `Users()`: every user, latest sign-up first. */
  function UserList(users: seq<User>): (r: seq<User>)
    ensures multiset(r) == multiset(users)
    ensures forall i, j :: 0 <= i < j < |r| ==> r[i].createdAt >= r[j].createdAt
    ensures forall z :: Seqs.EquivClass(r, NewerUserFirst, z) == Seqs.EquivClass(users, NewerUserFirst, z)
  {
    assert Seqs.TotalPreorder(NewerUserFirst);
    Seqs.SortBy(users, NewerUserFirst)
  }

  datatype UserSummary = UserSummary(user: User, orders: seq<Order>, totalOrders: nat, totalSpent: real)

  /** `UserDetail(id)`: the first user with that id, their orders latest
      first, how many there are and what they add up to. */
  function UserDetail(s: Store, id: int): (r: Option<UserSummary>)
    ensures r.None? <==> forall u :: u in s.users ==> u.id != id
    ensures r.Some? ==> r.value.user in s.users && r.value.user.id == id
    ensures r.Some? ==> forall j :: 0 <= j < |s.users| && s.users[j].id == id ==> r.value.user in s.users[..j + 1]
    ensures r.Some? ==> multiset(r.value.orders) == multiset(Seqs.Filter(s.orders, ByUser(id)))
    ensures r.Some? ==> Seqs.SortedBy(r.value.orders, NewerFirst)
    ensures r.Some? ==> forall z :: Seqs.EquivClass(r.value.orders, NewerFirst, z)
                                    == Seqs.EquivClass(Seqs.Filter(s.orders, ByUser(id)), NewerFirst, z)
    ensures r.Some? ==> r.value.totalOrders == |Seqs.Filter(s.orders, ByUser(id))|
    ensures r.Some? ==> r.value.totalSpent == Spent(s.orders, id)
  {
    match Seqs.FindFirst(s.users, UserIdIs(id))
    case None => None
    case Some(k) =>
      Seqs.FoundFirst(s.users, UserIdIs(id), k);
      NewerFirstPreorder();
      var mine := Seqs.SortBy(Seqs.Filter(s.orders, ByUser(id)), NewerFirst);
      Seqs.SumByPermutation(mine, Seqs.Filter(s.orders, ByUser(id)), OrderTotal);
      Some(UserSummary(s.users[k], mine, |mine|, Revenue(mine)))
  }

  /** `ToggleUserStatus(id)`: the first user with that id is locked or
      unlocked, unless they are an administrator. */
  function ToggleUserStatus(s: Store, isAdmin: bool, id: int): (r: Store)
    ensures r == s.(users := r.users) && |r.users| == |s.users|
    ensures forall i :: 0 <= i < |s.users| ==>
              r.users[i] == s.users[i]
              || (&& isAdmin && s.users[i].id == id && s.users[i].role != AdminRole
                  && (forall j :: 0 <= j < i ==> s.users[j].id != id)
                  && r.users[i] == s.users[i].(isActive := !s.users[i].isActive))
    ensures forall i :: (0 <= i < |s.users| && isAdmin && s.users[i].id == id && s.users[i].role != AdminRole
              && forall j :: 0 <= j < i ==> s.users[j].id != id) ==> r.users[i].isActive != s.users[i].isActive
  {
    if !isAdmin then s
    else
      match Seqs.FindFirst(s.users, UserIdIs(id))
      case Some(k) =>
        if s.users[k].role != AdminRole then
          s.(users := s.users[k := s.users[k].(isActive := !s.users[k].isActive)])
        else s
      case None => s
  }

  /** No toggle ever changes an administrator. */
  lemma ToggleSparesAdmins(s: Store, isAdmin: bool, id: int)
    ensures forall i :: 0 <= i < |s.users| && s.users[i].role == AdminRole ==>
              ToggleUserStatus(s, isAdmin, id).users[i] == s.users[i]
  {
  }

  /** Toggling twice restores the user. */
  lemma ToggleUserTwice(s: Store, id: int)
    ensures ToggleUserStatus(ToggleUserStatus(s, true, id), true, id) == s
  {
    var once := ToggleUserStatus(s, true, id);
    match Seqs.FindFirst(s.users, UserIdIs(id))
    case None =>
    case Some(k) =>
      assert forall j :: 0 <= j < |s.users| ==> once.users[j].id == s.users[j].id && once.users[j].role == s.users[j].role;
      FindFirstUser(once.users, UserIdIs(id), k);
      if s.users[k].role != AdminRole {
        assert once.users[k := once.users[k].(isActive := !once.users[k].isActive)] == s.users;
      }
  }

  lemma FindFirstUser(s: seq<User>, p: User -> bool, k: nat)
    requires k < |s| && p(s[k]) && forall j :: 0 <= j < k ==> !p(s[j])
    ensures Seqs.FindFirst(s, p) == Some(k)
  {
    var r := Seqs.FindFirst(s, p);
    assert r.Some?;
  }
}

=== FILE: calendar.dfy ===
/** `DateTime` arithmetic the source uses, on instants counted in
    milliseconds since 1970-01-01T00:00 UTC: the calendar date of an
    instant, its `.Date`, its `DayOfWeek`, `AddMonths`, `new DateTime(y, m, 1)`
    and the `yyyyMMdd` format. Dates are proleptic Gregorian, as in .NET. */
module Calendar {
  import opened Wrappers
  import Text

  type Instant = int

  const MsPerDay: int := 86_400_000

  /** Day numbers count days since 1970-01-01 (day 0). */
  function DayNumber(t: Instant): int { t / MsPerDay }

  /** `t.Date`: midnight at the start of the day of `t`. */
  function DateOf(t: Instant): Instant { DayNumber(t) * MsPerDay }

  /** `System.DayOfWeek` numbering: 0 = Sunday, ..., 6 = Saturday. */
  const Sunday: int := 0
  const Saturday: int := 6

  /** 1970-01-01 was a Thursday (4). */
  function Weekday(t: Instant): int { (DayNumber(t) + 4) % 7 }

  predicate IsWeekend(t: Instant)
  {
    Weekday(t) == Saturday || Weekday(t) == Sunday
  }

  datatype Date = Date(year: int, month: int, day: int)

  predicate IsLeapYear(y: int)
  {
    y % 4 == 0 && (y % 100 != 0 || y % 400 == 0)
  }

  function DaysInMonth(y: int, m: int): int
  {
    if m == 2 then (if IsLeapYear(y) then 29 else 28)
    else if m == 4 || m == 6 || m == 9 || m == 11 then 30
    else 31
  }

  predicate ValidDate(d: Date)
  {
    1 <= d.month <= 12 && 1 <= d.day <= DaysInMonth(d.year, d.month)
  }

  /** Day number of a civil date (years counted from March inside each
      400-year era, so that the leap day falls last). */
  function DaysFromCivil(d: Date): int
  {
    var y := if d.month <= 2 then d.year - 1 else d.year;
    var era := y / 400;
    var yoe := y - era * 400;
    var mp := if d.month > 2 then d.month - 3 else d.month + 9;
    var doy := (153 * mp + 2) / 5 + d.day - 1;
    var doe := yoe * 365 + yoe / 4 - yoe / 100 + doy;
    era * 146097 + doe - 719468
  }

  /** Civil date of a day number. */
  function CivilFromDays(z: int): Date
  {
    var z' := z + 719468;
    var era := z' / 146097;
    var doe := z' - era * 146097;
    var yoe := (doe - doe / 1460 + doe / 36524 - doe / 146096) / 365;
    var doy := doe - (365 * yoe + yoe / 4 - yoe / 100);
    var mp := (5 * doy + 2) / 153;
    var d := doy - (153 * mp + 2) / 5 + 1;
    var m := if mp < 10 then mp + 3 else mp - 9;
    var y := yoe + era * 400;
    Date(if m <= 2 then y + 1 else y, m, d)
  }

  /** The date of an instant (UTC). */
  function DateParts(t: Instant): Date { CivilFromDays(DayNumber(t)) }

  /** Midnight of a civil date; `None` where `new DateTime(y, m, d)` throws. */
  function MakeInstant(y: int, m: int, d: int): Option<Instant>
  {
    if 1 <= y <= 9999 && ValidDate(Date(y, m, d)) then Some(DaysFromCivil(Date(y, m, d)) * MsPerDay)
    else None
  }

  /** `new DateTime(t.Year, t.Month, 1)`: midnight on the first day of the
      month of `t`, which is `day - 1` days before the day of `t`. */
  function FirstOfMonth(t: Instant): (r: Instant)
    ensures r <= t && r % MsPerDay == 0
    ensures DayNumber(t) - DayNumber(r) == DateParts(t).day - 1
  {
    var c := DateParts(t);
    var first := DaysFromCivil(Date(c.year, c.month, 1));
    CivilRoundTrip(DayNumber(t));
    DayOffset(c.year, c.month, c.day);
    assert first == DayNumber(t) - (c.day - 1);
    MidnightDay(first);
    first * MsPerDay
  }

  /** Adding months to a midnight gives a midnight. */
  lemma AddMonthsMidnight(t: Instant, n: int)
    requires t % MsPerDay == 0
    ensures AddMonths(t, n) % MsPerDay == 0
  {
    MidnightDay(DaysFromCivil(AddMonthsToDate(DateParts(t), n)));
  }

  /** Between two midnights, day numbers stay between theirs. */
  lemma DayBetween(start: Instant, end: Instant, t: Instant)
    requires start % MsPerDay == 0 && end % MsPerDay == 0 && start <= t < end
    ensures DayNumber(start) <= DayNumber(t) < DayNumber(end)
  {
  }

  lemma MidnightDay(k: int)
    ensures DayNumber(k * MsPerDay) == k && (k * MsPerDay) % MsPerDay == 0
  {
  }

  /** `t.AddMonths(n)`: same day of month, clamped to the length of the
      target month; time of day kept. */
  function AddMonths(t: Instant, n: int): Instant
  {
    DaysFromCivil(AddMonthsToDate(DateParts(t), n)) * MsPerDay + t % MsPerDay
  }

  /** The calendar part of `AddMonths`. */
  function AddMonthsToDate(c: Date, n: int): Date
  {
    var total := c.year * 12 + (c.month - 1) + n;
    var y := total / 12;
    var m := total % 12 + 1;
    Date(y, m, if c.day > DaysInMonth(y, m) then DaysInMonth(y, m) else c.day)
  }

  /** `t.AddYears(n)`: the same month and day `n` years on, 29 February
      becoming 28 February in a common year, which is `AddMonths(t, 12 * n)`. */
  function AddYears(t: Instant, n: int): Instant
  {
    AddMonths(t, 12 * n)
  }

  /** `t.ToString("yyyyMMdd")` for the years `DateTime` can hold. */
  function FormatYyyyMmDd(t: Instant): string
  {
    var c := DateParts(t);
    Text.FormatPadded(if c.year < 0 then 0 else c.year, 4)
      + Text.FormatPadded(if c.month < 0 then 0 else c.month, 2)
      + Text.FormatPadded(if c.day < 0 then 0 else c.day, 2)
  }

  // ---------------------------------------------------------------------
  // Properties
  // ---------------------------------------------------------------------

  // The steps below split a day of a 400-year era (counted from 1 March of
  // its first year) into centuries, four-year cycles and years.

  lemma EraSplit(doe: int) returns (c: int, q: int, rq: int)
    requires 0 <= doe < 146096
    ensures 0 <= c <= 3 && 0 <= q <= 24 && 0 <= rq <= 1460
    ensures doe == 36524 * c + 1461 * q + rq
    ensures q == 24 ==> rq <= 1459
  {
    c := doe / 36524;
    var rc := doe % 36524;
    q := rc / 1461;
    rq := rc % 1461;
  }

  lemma EraQuotients(doe: int, c: int, q: int, rq: int)
    requires 0 <= c <= 3 && 0 <= q <= 24 && 0 <= rq <= 1460
    requires doe == 36524 * c + 1461 * q + rq
    requires q == 24 ==> rq <= 1459
    ensures doe / 1460 == 25 * c + q + (if 24 * c + q + rq >= 1460 then 1 else 0)
    ensures doe / 36524 == c
    ensures doe / 146096 == 0
  {
  }

  lemma CycleYear(c: int, q: int, rq: int)
    requires 0 <= c <= 3 && 0 <= q <= 24 && 0 <= rq <= 1460
    requires q == 24 ==> rq <= 1459
    ensures var b := if 24 * c + q + rq >= 1460 then 1 else 0;
            (rq - b) / 365 == (if rq / 365 > 3 then 3 else rq / 365)
  {
  }

  lemma DivideOutYears(a: int, b: int)
    requires 0 <= b
    ensures (365 * a + b) / 365 == a + b / 365
  {
  }

  lemma LeapCounts(c: int, q: int, k: int)
    requires 0 <= c <= 3 && 0 <= q <= 24 && 0 <= k <= 3
    ensures (100 * c + 4 * q + k) / 4 == 25 * c + q
    ensures (100 * c + 4 * q + k) / 100 == c
  {
  }

  lemma CycleDay(c: int, q: int, rq: int)
    requires 0 <= c <= 3 && 0 <= q <= 24 && 0 <= rq <= 1460
    requires q == 24 ==> rq <= 1459
    ensures var k := if rq / 365 > 3 then 3 else rq / 365;
            && 0 <= rq - 365 * k <= 365
            && (rq - 365 * k == 365 ==> IsLeapYear(100 * c + 4 * q + k + 1))
  {
  }

  /** The year of a four-year cycle that day `rq` of the cycle falls in. */
  function CycleYears(rq: int): int { if rq / 365 > 3 then 3 else rq / 365 }

  /** The year of the era `CivilFromDays` computes from a split day of era. */
  lemma YearOfSplit(doe: int, c: int, q: int, rq: int)
    requires 0 <= c <= 3 && 0 <= q <= 24 && 0 <= rq <= 1460
    requires doe == 36524 * c + 1461 * q + rq
    requires q == 24 ==> rq <= 1459
    ensures (doe - doe / 1460 + doe / 36524 - doe / 146096) / 365 == 100 * c + 4 * q + CycleYears(rq)
  {
    EraQuotients(doe, c, q, rq);
    CycleYear(c, q, rq);
    var b := if 24 * c + q + rq >= 1460 then 1 else 0;
    var num := doe - doe / 1460 + doe / 36524 - doe / 146096;
    assert num == 365 * (100 * c + 4 * q) + (rq - b);
    DivideOutYears(100 * c + 4 * q, rq - b);
  }

  /** The days before year `100 * c + 4 * q + k` of an era. */
  lemma DaysBeforeYear(c: int, q: int, k: int)
    requires 0 <= c <= 3 && 0 <= q <= 24 && 0 <= k <= 3
    ensures var y := 100 * c + 4 * q + k;
            365 * y + y / 4 - y / 100 == 36524 * c + 1461 * q + 365 * k
  {
    LeapCounts(c, q, k);
  }

  /** The day of the year, counted from the split of the day of the era. */
  lemma DayOfCycleYear(doe: int, c: int, q: int, rq: int, yoe: int)
    requires 0 <= c <= 3 && 0 <= q <= 24 && 0 <= rq <= 1460
    requires q == 24 ==> rq <= 1459
    requires doe == 36524 * c + 1461 * q + rq
    requires yoe == 100 * c + 4 * q + CycleYears(rq)
    ensures 0 <= yoe <= 399
    ensures var doy := doe - (365 * yoe + yoe / 4 - yoe / 100);
            && 0 <= doy <= 365
            && (doy == 365 ==> IsLeapYear(yoe + 1))
  {
    var k := CycleYears(rq);
    DaysBeforeYear(c, q, k);
    CycleDay(c, q, rq);
    assert doe - (365 * yoe + yoe / 4 - yoe / 100) == rq - 365 * k;
  }

  /** The year of the era and the day of that year that `CivilFromDays`
      computes are in range, and day 365 only occurs in a leap year. */
  lemma YearOfEra(doe: int)
    requires 0 <= doe <= 146096
    ensures var yoe := (doe - doe / 1460 + doe / 36524 - doe / 146096) / 365;
            var doy := doe - (365 * yoe + yoe / 4 - yoe / 100);
            && 0 <= yoe <= 399
            && 0 <= doy <= 365
            && (doy == 365 ==> IsLeapYear(yoe + 1))
  {
    if doe < 146096 {
      var c, q, rq := EraSplit(doe);
      YearOfSplit(doe, c, q, rq);
      var yoe := (doe - doe / 1460 + doe / 36524 - doe / 146096) / 365;
      DayOfCycleYear(doe, c, q, rq, yoe);
    } else {
      assert (doe - doe / 1460 + doe / 36524 - doe / 146096) / 365 == 399;
      assert IsLeapYear(400);
    }
  }

  /** Splitting a day of a March-based year into month and day of month. */
  lemma MonthOfYear(doy: int, leap: bool)
    requires 0 <= doy <= 365
    requires doy == 365 ==> leap
    ensures var mp := (5 * doy + 2) / 153;
            var d := doy - (153 * mp + 2) / 5 + 1;
            var m := if mp < 10 then mp + 3 else mp - 9;
            && 0 <= mp <= 11
            && 1 <= d
            && d <= (if m == 2 then (if leap then 29 else 28)
                     else if m == 4 || m == 6 || m == 9 || m == 11 then 30
                     else 31)
  {
  }

  lemma EraOfYear(yoe: int, era: int)
    requires 0 <= yoe <= 399
    ensures (yoe + era * 400) / 400 == era
    ensures (yoe + era * 400) - (yoe + era * 400) / 400 * 400 == yoe
  {
    assert yoe + era * 400 == era * 400 + yoe;
  }

  lemma DayOfEra(z: int)
    ensures var era := (z + 719468) / 146097;
            var doe := (z + 719468) - era * 146097;
            0 <= doe <= 146096 && era * 146097 + doe - 719468 == z
  {
  }

  lemma MonthOfYearBack(doy: int)
    requires 0 <= doy <= 365
    ensures var mp := (5 * doy + 2) / 153;
            var d := doy - (153 * mp + 2) / 5 + 1;
            var m := if mp < 10 then mp + 3 else mp - 9;
            && (if m > 2 then m - 3 else m + 9) == mp
            && (153 * mp + 2) / 5 + d - 1 == doy
  {
  }

  /** `DaysFromCivil` of a date given by its era, year of era, and March-based
      month and day of year. */
  lemma FromCivilParts(era: int, yoe: int, mp: int, doy: int, d: int)
    requires 0 <= yoe <= 399 && 0 <= mp <= 11
    requires (153 * mp + 2) / 5 + d - 1 == doy
    ensures var m := if mp < 10 then mp + 3 else mp - 9;
            var y := yoe + era * 400;
            DaysFromCivil(Date(if m <= 2 then y + 1 else y, m, d))
              == era * 146097 + (yoe * 365 + yoe / 4 - yoe / 100 + doy) - 719468
  {
    EraOfYear(yoe, era);
  }

  /** `CivilFromDays` unfolded into its era, year of era and day of year. */
  lemma ToCivilParts(z: int) returns (era: int, doe: int, yoe: int, doy: int, mp: int, d: int)
    ensures 0 <= doe <= 146096 && era * 146097 + doe - 719468 == z
    ensures yoe == (doe - doe / 1460 + doe / 36524 - doe / 146096) / 365
    ensures doy == doe - (365 * yoe + yoe / 4 - yoe / 100)
    ensures mp == (5 * doy + 2) / 153 && d == doy - (153 * mp + 2) / 5 + 1
    ensures var m := if mp < 10 then mp + 3 else mp - 9;
            var y := yoe + era * 400;
            CivilFromDays(z) == Date(if m <= 2 then y + 1 else y, m, d)
  {
    era := (z + 719468) / 146097;
    doe := (z + 719468) - era * 146097;
    DayOfEra(z);
    yoe := (doe - doe / 1460 + doe / 36524 - doe / 146096) / 365;
    doy := doe - (365 * yoe + yoe / 4 - yoe / 100);
    mp := (5 * doy + 2) / 153;
    d := doy - (153 * mp + 2) / 5 + 1;
    var m := if mp < 10 then mp + 3 else mp - 9;
    var y := yoe + era * 400;
    assert CivilFromDays(z) == Date(if m <= 2 then y + 1 else y, m, d);
  }

  lemma Shift4(a: int, k: int) ensures (a + 4 * k) % 4 == a % 4 {}
  lemma Shift100(a: int, k: int) ensures (a + 100 * k) % 100 == a % 100 {}
  lemma Shift400(a: int, k: int) ensures (a + 400 * k) % 400 == a % 400 {}

  /** Leap years repeat every 400 years. */
  lemma LeapShift(yoe: int, era: int)
    ensures IsLeapYear(yoe + era * 400) == IsLeapYear(yoe)
  {
    Shift4(yoe, 100 * era);
    Shift100(yoe, 4 * era);
    Shift400(yoe, era);
  }

  /** Converting a day number to a date and back returns the day number,
      and the date is a real calendar date. */
  lemma CivilRoundTrip(z: int)
    ensures DaysFromCivil(CivilFromDays(z)) == z
    ensures ValidDate(CivilFromDays(z))
  {
    var era, doe, yoe, doy, mp, d := ToCivilParts(z);
    YearOfEra(doe);
    MonthOfYearBack(doy);
    FromCivilParts(era, yoe, mp, doy, d);
    CivilValid(z);
  }

  lemma CivilValid(z: int)
    ensures ValidDate(CivilFromDays(z))
  {
    var era, doe, yoe, doy, mp, d := ToCivilParts(z);
    YearOfEra(doe);
    var leap := IsLeapYear(yoe + 1);
    MonthOfYear(doy, leap);
    LeapShift(yoe + 1, era);
    assert yoe + 1 + era * 400 == yoe + era * 400 + 1;
    var m := if mp < 10 then mp + 3 else mp - 9;
    var y := yoe + era * 400;
    assert m == 2 ==> IsLeapYear(y + 1) == leap;
  }

  // ---------------------------------------------------------------------
  // Adding months never goes back in time
  // ---------------------------------------------------------------------

  /** The day number of the first day of month `k`, counting months from
      January of year 0 (`k = 12 * year + month - 1`). */
  function MonthStart(k: int): int
  {
    DaysFromCivil(Date(k / 12, k % 12 + 1, 1))
  }

  function MonthLength(k: int): int
  {
    DaysInMonth(k / 12, k % 12 + 1)
  }

  /** Within a month the day number grows with the day of month. */
  lemma DayOffset(y: int, m: int, d: int)
    ensures DaysFromCivil(Date(y, m, d)) == DaysFromCivil(Date(y, m, 1)) + d - 1
  {
  }

  /** How many leap days one more year of an era adds. */
  lemma LeapStep(a: int)
    requires 1 <= a <= 399
    ensures a / 4 - (a - 1) / 4 - (a / 100 - (a - 1) / 100) == if IsLeapYear(a) then 1 else 0
  {
  }

  /** Day of the epoch-shifted count at which the March-based year `y`
      begins; `DaysFromCivil` adds the day of that year. */
  function YearStart(y: int): int
  {
    var era := y / 400;
    var yoe := y - era * 400;
    era * 146097 + yoe * 365 + yoe / 4 - yoe / 100
  }

  /** The year counted from 1 March that contains the date. */
  function MarchYear(d: Date): int { if d.month <= 2 then d.year - 1 else d.year }

  /** The day of that March-based year. */
  function MarchDay(d: Date): int
  {
    var mp := if d.month > 2 then d.month - 3 else d.month + 9;
    (153 * mp + 2) / 5 + d.day - 1
  }

  lemma Decompose(d: Date)
    ensures DaysFromCivil(d) == YearStart(MarchYear(d)) + MarchDay(d) - 719468
  {
  }

  /** A March-based year has 366 days when the following February has a
      29th, and 365 otherwise. */
  lemma YearStartStep(y: int)
    ensures YearStart(y + 1) == YearStart(y) + 365 + (if IsLeapYear(y + 1) then 1 else 0)
  {
    var era := y / 400;
    var yoe := y - era * 400;
    assert 0 <= yoe <= 399;
    if yoe < 399 {
      EraOfYear(yoe + 1, era);
      assert y + 1 == yoe + 1 + era * 400;
      LeapShift(yoe + 1, era);
      LeapStep(yoe + 1);
    } else {
      EraOfYear(0, era + 1);
      assert y + 1 == 0 + (era + 1) * 400;
      LeapShift(0, era + 1);
    }
  }

  /** From 1 February to 1 March of year `y`. */
  lemma FebruaryLength(y: int)
    ensures DaysFromCivil(Date(y, 3, 1)) == DaysFromCivil(Date(y, 2, 1)) + DaysInMonth(y, 2)
  {
    Decompose(Date(y, 2, 1));
    Decompose(Date(y, 3, 1));
    assert MarchYear(Date(y, 2, 1)) == y - 1 && MarchDay(Date(y, 2, 1)) == 337;
    assert MarchYear(Date(y, 3, 1)) == y && MarchDay(Date(y, 3, 1)) == 0;
    YearStartStep(y - 1);
    assert y - 1 + 1 == y;
  }

  /** The first of the next month is the first of this month plus its length. */
  lemma MonthStep(y: int, m: int)
    requires 1 <= m <= 12
    ensures var next := if m == 12 then Date(y + 1, 1, 1) else Date(y, m + 1, 1);
            DaysFromCivil(next) == DaysFromCivil(Date(y, m, 1)) + DaysInMonth(y, m)
  {
    if m == 2 {
      FebruaryLength(y);
    } else {
      var next := if m == 12 then Date(y + 1, 1, 1) else Date(y, m + 1, 1);
      Decompose(next);
      Decompose(Date(y, m, 1));
      assert MarchYear(next) == MarchYear(Date(y, m, 1));
      MarchDayStep(m);
    }
  }

  /** Month by month, the day of the March-based year moves on by the
      month's length (February aside, whose length depends on the year). */
  lemma MarchDayStep(m: int)
    requires 1 <= m <= 12 && m != 2
    ensures var next := if m == 12 then 1 else m + 1;
            var mp := if m > 2 then m - 3 else m + 9;
            var np := if next > 2 then next - 3 else next + 9;
            (153 * np + 2) / 5 == (153 * mp + 2) / 5 + DaysInMonth(0, m)
  {
    if m == 1 {
    } else if m == 3 {
    } else if m == 4 {
    } else if m == 5 {
    } else if m == 6 {
    } else if m == 7 {
    } else if m == 8 {
    } else if m == 9 {
    } else if m == 10 {
    } else if m == 11 {
    } else {
    }
  }

  /** Each month starts where the previous one ends. */
  lemma NextMonthStart(k: int)
    ensures MonthStart(k + 1) == MonthStart(k) + MonthLength(k)
  {
    var y, m := k / 12, k % 12 + 1;
    MonthStep(y, m);
    if m == 12 {
      assert (k + 1) / 12 == y + 1 && (k + 1) % 12 + 1 == 1;
    } else {
      assert (k + 1) / 12 == y && (k + 1) % 12 + 1 == m + 1;
    }
  }

  /** A sequence of starts in which each start is the previous one plus a
      positive length: a later start lies at or after the end of an
      earlier span. */
  lemma {:induction false} Climb(start: int -> int, len: int -> int, k: int, n: nat)
    requires n >= 1
    requires forall j {:trigger len(j)} :: start(j + 1) == start(j) + len(j) && len(j) > 0
    decreases n
    ensures start(k + n) >= start(k) + len(k)
  {
    if n > 1 {
      Climb(start, len, k, n - 1);
      assert start(k + (n - 1) + 1) == start(k + (n - 1)) + len(k + (n - 1));
    }
  }

  /** Months have at least 28 days, so each start comes after the
      previous one. */
  lemma MonthsAdvance()
    ensures forall j {:trigger MonthLength(j)} :: MonthStart(j + 1) == MonthStart(j) + MonthLength(j) && MonthLength(j) > 0
  {
    forall j | true
      ensures MonthStart(j + 1) == MonthStart(j) + MonthLength(j) && MonthLength(j) > 0
    {
      NextMonthStart(j);
      MonthLengthPositive(j);
    }
  }

  lemma MonthLengthPositive(k: int)
    ensures MonthLength(k) >= 28
  {
  }

  /** A later month starts after an earlier month ends. */
  lemma LaterMonthStart(k: int, kr: int)
    requires kr > k
    ensures MonthStart(kr) >= MonthStart(k) + MonthLength(k)
  {
    var n := kr - k;
    MonthsLater(k, n);
    assert k + n == kr;
  }

  lemma MonthsLater(k: int, n: nat)
    requires n >= 1
    ensures MonthStart(k + n) >= MonthStart(k) + MonthLength(k)
  {
    MonthsAdvance();
    Climb(MonthStart, MonthLength, k, n);
  }

  lemma MonthIndex(y: int, m: int)
    requires 1 <= m <= 12
    ensures (y * 12 + (m - 1)) / 12 == y && (y * 12 + (m - 1)) % 12 + 1 == m
  {
  }

  /** A date's day number, counted from the start of its month `k`. */
  lemma StartOfDate(c: Date, k: int)
    requires 1 <= c.month <= 12 && k == c.year * 12 + (c.month - 1)
    ensures DaysFromCivil(c) == MonthStart(k) + c.day - 1
    ensures MonthLength(k) == DaysInMonth(c.year, c.month)
  {
    MonthIndex(c.year, c.month);
    assert Date(k / 12, k % 12 + 1, 1) == Date(c.year, c.month, 1);
    DayOffset(c.year, c.month, c.day);
    assert c == Date(c.year, c.month, c.day);
  }

  /** The date `AddMonthsToDate` gives lies in month `k + n`, counting as
      `MonthStart` does. */
  lemma TargetMonth(c: Date, n: int)
    requires c.day >= 1
    ensures var r := AddMonthsToDate(c, n);
            && 1 <= r.month <= 12 && 1 <= r.day
            && r.year * 12 + (r.month - 1) == c.year * 12 + (c.month - 1) + n
  {
  }

  /** A valid date lies before every day of any later month. */
  lemma LaterMonthLaterDay(c: Date, r: Date, n: int)
    requires ValidDate(c) && n >= 1
    requires 1 <= r.month <= 12 && r.day >= 1
    requires r.year * 12 + (r.month - 1) == c.year * 12 + (c.month - 1) + n
    ensures DaysFromCivil(r) > DaysFromCivil(c)
  {
    var k := c.year * 12 + (c.month - 1);
    var kr := r.year * 12 + (r.month - 1);
    StartOfDate(c, k);
    StartOfDate(r, kr);
    LaterMonthStart(k, kr);
    DayAfter(DaysFromCivil(c), DaysFromCivil(r), MonthStart(k), MonthLength(k), MonthStart(kr), c.day, r.day);
  }

  /** Adding a positive number of months to a date gives a later day,
      adding none gives the same day. */
  lemma AddMonthsToDateForward(c: Date, n: int)
    requires ValidDate(c) && n >= 0
    ensures n == 0 ==> DaysFromCivil(AddMonthsToDate(c, n)) == DaysFromCivil(c)
    ensures n > 0 ==> DaysFromCivil(AddMonthsToDate(c, n)) > DaysFromCivil(c)
  {
    if n > 0 {
      TargetMonth(c, n);
      LaterMonthLaterDay(c, AddMonthsToDate(c, n), n);
    } else {
      AddNoMonths(c);
    }
  }

  /** The arithmetic step of `AddMonthsToDateForward`: a day in a month
      that starts after an earlier month ends comes after every day of the
      earlier month. */
  lemma DayAfter(dc: int, dr: int, startC: int, lengthC: int, startR: int, dayC: int, dayR: int)
    requires dc == startC + dayC - 1
    requires dayC <= lengthC
    requires dr == startR + dayR - 1
    requires dayR >= 1
    requires startR >= startC + lengthC
    ensures dr > dc
  {
  }

  lemma AddNoMonths(c: Date)
    requires ValidDate(c)
    ensures AddMonthsToDate(c, 0) == c
  {
    MonthIndex(c.year, c.month);
  }

  /** `AddMonths` by a positive number of months moves strictly forward,
      and by zero months changes nothing. */
  lemma AddMonthsForward(t: Instant, n: int)
    requires n >= 0
    ensures n == 0 ==> AddMonths(t, n) == t
    ensures n > 0 ==> AddMonths(t, n) > t
  {
    CivilRoundTrip(DayNumber(t));
    AddMonthsToDateForward(DateParts(t), n);
  }
}

=== FILE: cart.dfy ===
/** The shopping cart (`CartController`): the list of product ids kept in
    the session, each id at most once. */
module Cart {
  import opened Models
  import Seqs

  /** `Index()` and the checkout's product list: the catalog products whose
      id is in the cart, in catalog order; an id with no product is
      skipped. */
  function Products(catalog: seq<Product>, cart: seq<int>): (r: seq<Product>)
    ensures forall p :: p in r <==> p in catalog && p.id in cart
    ensures |r| <= |catalog|
    ensures Seqs.Subsequence(r, catalog)
  {
    Seqs.FilterSubsequence(catalog, (p: Product) => p.id in cart);
    Seqs.Filter(catalog, (p: Product) => p.id in cart)
  }

  predicate Known(catalog: seq<Product>, id: int)
  {
    exists p :: p in catalog && p.id == id
  }

  /** `Add(id)`: an id no product has is refused; a known id is appended
      unless already there. */
  function Add(catalog: seq<Product>, cart: seq<int>, id: int): (r: seq<int>)
    ensures !Known(catalog, id) ==> r == cart
    ensures Known(catalog, id) && id in cart ==> r == cart
    ensures Known(catalog, id) && id !in cart ==> r == cart + [id]
  {
    if !Known(catalog, id) then cart
    else if id in cart then cart
    else cart + [id]
  }

  /** Adding keeps the cart free of duplicates, adds exactly the id (when
      the catalog has it), and adding twice is adding once. */
  lemma AddProperties(catalog: seq<Product>, cart: seq<int>, id: int)
    requires Seqs.NoDuplicates(cart)
    ensures Seqs.NoDuplicates(Add(catalog, cart, id))
    ensures forall x :: x in Add(catalog, cart, id) <==> x in cart || (x == id && Known(catalog, id))
    ensures Add(catalog, Add(catalog, cart, id), id) == Add(catalog, cart, id)
  {
  }

  /** `Remove(id)`: `List.Remove`, the first occurrence only; the other
      ids keep their order. */
  function Remove(cart: seq<int>, id: int): (r: seq<int>)
    ensures id !in cart ==> r == cart
    ensures id in cart ==> |r| == |cart| - 1
    ensures id in cart ==> var k := Seqs.FirstIndex(cart, id);
                           r == cart[..k] + cart[k + 1..]
  {
    Seqs.RemoveFirst(cart, id)
  }

  /** In a cart without duplicates, removing an id takes it out entirely
      and keeps every other id. */
  lemma RemoveProperties(cart: seq<int>, id: int)
    requires Seqs.NoDuplicates(cart)
    ensures Seqs.NoDuplicates(Remove(cart, id))
    ensures forall x :: x in Remove(cart, id) <==> x in cart && x != id
  {
    Seqs.RemoveFirstNoDuplicates(cart, id);
  }

  /** A product added to the cart shows in the cart page; after removing
      its id it no longer does. */
  lemma AddThenShow(catalog: seq<Product>, cart: seq<int>, p: Product)
    requires p in catalog && Seqs.NoDuplicates(cart)
    ensures p in Products(catalog, Add(catalog, cart, p.id))
    ensures p !in Products(catalog, Remove(Add(catalog, cart, p.id), p.id))
  {
    RemoveProperties(Add(catalog, cart, p.id), p.id);
  }
}

=== FILE: catalog.dfy ===
/** The storefront catalog (`HomeController`): the filtered and sorted
    product list, the brand list and the related products of a product
    page. String order is ordinal (`Text.StrLe`). */
module Catalog {
  import opened Wrappers
  import opened Models
  import Seqs
  import Text

  /** The query-string parameters of `Index`. */
  datatype Query = Query(
    brand: Option<string>,
    q: Option<string>,
    categoryId: Option<int>,
    minPrice: Option<real>,
    maxPrice: Option<real>,
    sortBy: Option<string>)

  /** A text parameter counts only when it is not blank. */
  predicate Given(s: Option<string>)
  {
    s.Some? && !Text.IsBlank(s.value)
  }

  // ---------------------------------------------------------------------
  // Filters
  // ---------------------------------------------------------------------

  predicate BrandOk(p: Product, brand: Option<string>)
  {
    Given(brand) ==> Text.EqualsIgnoreCase(p.brand, brand.value)
  }

  /** The lower-cased query occurs in the lower-cased name or description. */
  predicate TextOk(p: Product, q: Option<string>)
  {
    Given(q) ==>
      || Text.Contains(Text.ToLower(p.name), Text.ToLower(q.value))
      || (p.description.Some? && Text.Contains(Text.ToLower(p.description.value), Text.ToLower(q.value)))
  }

  predicate CategoryOk(p: Product, categoryId: Option<int>)
  {
    categoryId.Some? ==> p.categoryId == categoryId
  }

  predicate PriceOk(p: Product, minPrice: Option<real>, maxPrice: Option<real>)
  {
    (minPrice.Some? ==> p.price >= minPrice.value) && (maxPrice.Some? ==> p.price <= maxPrice.value)
  }

  /** Every supplied filter holds. */
  predicate Matches(p: Product, query: Query)
  {
    BrandOk(p, query.brand) && TextOk(p, query.q) && CategoryOk(p, query.categoryId)
    && PriceOk(p, query.minPrice, query.maxPrice)
  }

  /** A `Where` applied only when its parameter was supplied. */
  function WhereIf(ps: seq<Product>, given: bool, keep: Product -> bool): seq<Product>
  {
    if given then Seqs.Filter(ps, keep) else ps
  }

  function BrandFilter(query: Query): Product -> bool { p => BrandOk(p, query.brand) }
  function TextFilter(query: Query): Product -> bool { p => TextOk(p, query.q) }
  function CategoryFilter(query: Query): Product -> bool { p => CategoryOk(p, query.categoryId) }
  function MinFilter(query: Query): Product -> bool { p => PriceOk(p, query.minPrice, None) }
  function MaxFilter(query: Query): Product -> bool { p => PriceOk(p, None, query.maxPrice) }

  /** The filters of `Index`, one `Where` after another, as the source
      chains them. */
  function Filtered(catalog: seq<Product>, query: Query): seq<Product>
  {
    var byBrand := WhereIf(catalog, Given(query.brand), BrandFilter(query));
    var byText := WhereIf(byBrand, Given(query.q), TextFilter(query));
    var byCategory := WhereIf(byText, query.categoryId.Some?, CategoryFilter(query));
    var byMin := WhereIf(byCategory, query.minPrice.Some?, MinFilter(query));
    WhereIf(byMin, query.maxPrice.Some?, MaxFilter(query))
  }

  /** Skipping a filter whose condition always holds is filtering with it,
      and filtering twice is filtering once on both conditions. */
  lemma WhereIfStep(catalog: seq<Product>, acc: Product -> bool, given: bool, keep: Product -> bool)
    requires !given ==> forall p :: keep(p)
    ensures WhereIf(Seqs.Filter(catalog, acc), given, keep) == Seqs.Filter(catalog, Seqs.Both(acc, keep))
  {
    if !given {
      Seqs.FilterAll(Seqs.Filter(catalog, acc), keep);
    }
    Seqs.FilterFilter(catalog, acc, keep);
  }

  function MatchFilter(query: Query): Product -> bool { p => Matches(p, query) }

  function Chained(query: Query): Product -> bool
  {
    Seqs.Both(Seqs.Both(Seqs.Both(Seqs.Both(BrandFilter(query), TextFilter(query)), CategoryFilter(query)), MinFilter(query)), MaxFilter(query))
  }

  lemma ChainedConditions(query: Query)
    ensures forall p :: Chained(query)(p) == MatchFilter(query)(p)
  {
  }

  /** The chained filters keep exactly the products matching every
      supplied filter, in catalog order: one `Where` on the conjunction. */
  lemma FilteredIsConjunction(catalog: seq<Product>, query: Query)
    ensures Filtered(catalog, query) == Seqs.Filter(catalog, MatchFilter(query))
  {
    var b, t, c, lo, hi := BrandFilter(query), TextFilter(query), CategoryFilter(query), MinFilter(query), MaxFilter(query);
    var s1 := WhereIf(catalog, Given(query.brand), b);
    assert s1 == Seqs.Filter(catalog, b) by {
      if !Given(query.brand) {
        Seqs.FilterAll(catalog, b);
      }
    }
    var s2 := WhereIf(s1, Given(query.q), t);
    assert s2 == Seqs.Filter(catalog, Seqs.Both(b, t)) by {
      WhereIfStep(catalog, b, Given(query.q), t);
    }
    var s3 := WhereIf(s2, query.categoryId.Some?, c);
    assert s3 == Seqs.Filter(catalog, Seqs.Both(Seqs.Both(b, t), c)) by {
      WhereIfStep(catalog, Seqs.Both(b, t), query.categoryId.Some?, c);
    }
    var s4 := WhereIf(s3, query.minPrice.Some?, lo);
    assert s4 == Seqs.Filter(catalog, Seqs.Both(Seqs.Both(Seqs.Both(b, t), c), lo)) by {
      WhereIfStep(catalog, Seqs.Both(Seqs.Both(b, t), c), query.minPrice.Some?, lo);
    }
    var s5 := WhereIf(s4, query.maxPrice.Some?, hi);
    assert s5 == Seqs.Filter(catalog, Seqs.Both(Seqs.Both(Seqs.Both(Seqs.Both(b, t), c), lo), hi)) by {
      WhereIfStep(catalog, Seqs.Both(Seqs.Both(Seqs.Both(b, t), c), lo), query.maxPrice.Some?, hi);
    }
    assert Filtered(catalog, query) == s5;
    ChainedConditions(query);
    Seqs.FilterSame(catalog, Seqs.Both(Seqs.Both(Seqs.Both(Seqs.Both(b, t), c), lo), hi), MatchFilter(query));
  }

  // ---------------------------------------------------------------------
  // Sorting
  // ---------------------------------------------------------------------

  /** `OrderBy(Brand).ThenBy(Name)`. */
  predicate BrandThenName(a: Product, b: Product)
  {
    Text.StrLe(a.brand, b.brand) && (Text.StrLe(b.brand, a.brand) ==> Text.StrLe(a.name, b.name))
  }

  /** The order a `sortBy` value asks for; an unknown or missing value
      gives brand then name. */
  function Order(sortBy: Option<string>): (Product, Product) -> bool
  {
    match sortBy
    case Some("price_asc") => (a: Product, b: Product) => a.price <= b.price
    case Some("price_desc") => (a: Product, b: Product) => a.price >= b.price
    case Some("name") => (a: Product, b: Product) => Text.StrLe(a.name, b.name)
    case Some("rating") => (a: Product, b: Product) => a.rating >= b.rating
    case _ => BrandThenName
  }

  lemma StrLePreorder()
    ensures forall a, b :: Text.StrLe(a, b) || Text.StrLe(b, a)
    ensures forall a, b, c :: Text.StrLe(a, b) && Text.StrLe(b, c) ==> Text.StrLe(a, c)
  {
    forall a, b ensures Text.StrLe(a, b) || Text.StrLe(b, a) {
      Text.StrLeTotal(a, b);
    }
    forall a, b, c | Text.StrLe(a, b) && Text.StrLe(b, c) ensures Text.StrLe(a, c) {
      Text.StrLeTransitive(a, b, c);
    }
  }

  lemma BrandThenNamePreorder()
    ensures Seqs.TotalPreorder(BrandThenName)
  {
    StrLePreorder();
    forall x: Product, y: Product, z: Product | BrandThenName(x, y) && BrandThenName(y, z)
      ensures BrandThenName(x, z)
    {
      if Text.StrLe(z.brand, x.brand) {
        Text.StrLeAntisymmetric(x.brand, y.brand);
        Text.StrLeAntisymmetric(y.brand, z.brand);
      }
    }
  }

  lemma OrderPreorder(sortBy: Option<string>)
    ensures Seqs.TotalPreorder(Order(sortBy))
  {
    StrLePreorder();
    BrandThenNamePreorder();
  }

  /** The `sortBy` values with an order of their own; any other value,
      a missing one included, falls to the default. */
  predicate NamedSort(sortBy: Option<string>)
  {
    sortBy == Some("price_asc") || sortBy == Some("price_desc") || sortBy == Some("rating") || sortBy == Some("name")
  }

  /** The sort of `Index`: a stable sort by the requested key. */
  function Sorted(ps: seq<Product>, sortBy: Option<string>): (r: seq<Product>)
    ensures multiset(r) == multiset(ps)
    ensures Seqs.SortedBy(r, Order(sortBy))
    ensures forall z :: Seqs.EquivClass(r, Order(sortBy), z) == Seqs.EquivClass(ps, Order(sortBy), z)
  {
    OrderPreorder(sortBy);
    Seqs.SortBy(ps, Order(sortBy))
  }

  /** `Index(brand, q, categoryId, minPrice, maxPrice, sortBy)`: the
      matching products, each once, in the requested order, products with
      equal keys keeping their catalog order. */
  function Index(catalog: seq<Product>, query: Query): (r: seq<Product>)
    ensures forall p :: p in r <==> p in catalog && Matches(p, query)
    ensures multiset(r) <= multiset(catalog)
    ensures query.sortBy == Some("price_asc") ==> forall i, j :: 0 <= i < j < |r| ==> r[i].price <= r[j].price
    ensures query.sortBy == Some("price_desc") ==> forall i, j :: 0 <= i < j < |r| ==> r[i].price >= r[j].price
    ensures query.sortBy == Some("rating") ==> forall i, j :: 0 <= i < j < |r| ==> r[i].rating >= r[j].rating
    ensures query.sortBy == Some("name") ==> forall i, j :: 0 <= i < j < |r| ==> Text.StrLe(r[i].name, r[j].name)
    ensures !NamedSort(query.sortBy) ==> forall i, j :: 0 <= i < j < |r| ==> BrandThenName(r[i], r[j])
    ensures forall z :: Seqs.EquivClass(r, Order(query.sortBy), z)
                        == Seqs.EquivClass(Seqs.Filter(catalog, MatchFilter(query)), Order(query.sortBy), z)
  {
    var ps := Filtered(catalog, query);
    FilteredIsConjunction(catalog, query);
    var r := Sorted(ps, query.sortBy);
    SortedMeaning(ps, query.sortBy);
    r
  }

  /** What each `sortBy` value guarantees of the sorted list, and that
      sorting keeps exactly the same products. */
  lemma SortedMeaning(ps: seq<Product>, sortBy: Option<string>)
    ensures var r := Sorted(ps, sortBy);
            && (forall p :: p in r <==> p in ps)
            && (sortBy == Some("price_asc") ==> forall i, j :: 0 <= i < j < |r| ==> r[i].price <= r[j].price)
            && (sortBy == Some("price_desc") ==> forall i, j :: 0 <= i < j < |r| ==> r[i].price >= r[j].price)
            && (sortBy == Some("rating") ==> forall i, j :: 0 <= i < j < |r| ==> r[i].rating >= r[j].rating)
            && (sortBy == Some("name") ==> forall i, j :: 0 <= i < j < |r| ==> Text.StrLe(r[i].name, r[j].name))
            && (!NamedSort(sortBy) ==> forall i, j :: 0 <= i < j < |r| ==> BrandThenName(r[i], r[j]))
    ensures var r := Sorted(ps, sortBy);
            && multiset(r) == multiset(ps)
            && forall z :: Seqs.EquivClass(r, Order(sortBy), z) == Seqs.EquivClass(ps, Order(sortBy), z)
  {
    var r := Sorted(ps, sortBy);
    forall p
      ensures p in r <==> p in ps
    {
      assert p in r <==> p in multiset(r);
      assert p in ps <==> p in multiset(ps);
    }
  }

  // ---------------------------------------------------------------------
  // Brand list and related products
  // ---------------------------------------------------------------------

  function BrandsOf(catalog: seq<Product>): (r: seq<string>)
    ensures |r| == |catalog| && forall i :: 0 <= i < |catalog| ==> r[i] == catalog[i].brand
  {
    seq(|catalog|, i requires 0 <= i < |catalog| => catalog[i].brand)
  }

  /** `Select(Brand).Distinct().OrderBy(b => b)`: every brand of the
      catalog exactly once, in strictly increasing order. */
  function Brands(catalog: seq<Product>): (r: seq<string>)
    ensures forall b :: b in r <==> exists p :: p in catalog && p.brand == b
    ensures forall i, j :: 0 <= i < j < |r| ==> Text.StrLe(r[i], r[j]) && r[i] != r[j]
  {
    StrLePreorder();
    var distinct := Seqs.Distinct(BrandsOf(catalog));
    var r := Seqs.SortBy(distinct, Text.StrLe);
    Seqs.NoDuplicatesPermutation(distinct, r);
    Seqs.SortedMembers(distinct, Text.StrLe);
    forall b | b in distinct
      ensures exists p :: p in catalog && p.brand == b
    {
      var i :| 0 <= i < |BrandsOf(catalog)| && BrandsOf(catalog)[i] == b;
      assert catalog[i] in catalog;
    }
    forall p | p in catalog
      ensures p.brand in distinct
    {
      var i :| 0 <= i < |catalog| && catalog[i] == p;
      assert BrandsOf(catalog)[i] == p.brand;
    }
    r
  }

  predicate Related(p: Product, product: Product)
  {
    p.id != product.id && (p.brand == product.brand || p.categoryId == product.categoryId)
  }

  function RelatedTo(product: Product): Product -> bool
  {
    (p: Product) => Related(p, product)
  }

  datatype DetailPage = DetailPage(product: Product, related: seq<Product>)

  const RelatedLimit: nat := 4

  /** The first product with the id comes no later than any product with it. */
  lemma FirstWithId(catalog: seq<Product>, id: int, k: nat)
    requires k < |catalog| && catalog[k].id == id
    requires forall j :: 0 <= j < k ==> catalog[j].id != id
    ensures forall j :: 0 <= j < |catalog| && catalog[j].id == id ==> catalog[k] in catalog[..j + 1]
  {
    forall j | 0 <= j < |catalog| && catalog[j].id == id
      ensures catalog[k] in catalog[..j + 1]
    {
      assert catalog[..j + 1][k] == catalog[k];
    }
  }

  /** `Detail(id)`: nothing for an unknown id; otherwise the first product
      with the id and up to four other products of the same brand or
      category, in catalog order. When fewer than four are shown, every
      such product is shown. */
  function Detail(catalog: seq<Product>, id: int): (r: Option<DetailPage>)
    ensures r.None? <==> forall p :: p in catalog ==> p.id != id
    ensures r.Some? ==> r.value.product in catalog && r.value.product.id == id
    ensures r.Some? ==> forall j :: 0 <= j < |catalog| && catalog[j].id == id ==> r.value.product in catalog[..j + 1]
    ensures r.Some? ==> Seqs.Subsequence(r.value.related, catalog)
    ensures r.Some? ==> |r.value.related| <= RelatedLimit
    ensures r.Some? ==> forall p :: p in r.value.related ==> p in catalog && Related(p, r.value.product)
    ensures r.Some? && |r.value.related| < RelatedLimit ==>
              forall p :: p in catalog && Related(p, r.value.product) ==> p in r.value.related
    ensures r.Some? ==>
              forall i :: 0 <= i < |catalog| && Related(catalog[i], r.value.product)
                          && |Seqs.Filter(catalog[..i], RelatedTo(r.value.product))| < RelatedLimit
                          ==> catalog[i] in r.value.related
  {
    match Seqs.FindFirst(catalog, (p: Product) => p.id == id)
    case None => None
    case Some(k) =>
      var product := catalog[k];
      var shown := Seqs.Take(Seqs.Filter(catalog, RelatedTo(product)), RelatedLimit);
      FirstWithId(catalog, id, k);
      ShownRelated(catalog, product, shown);
      Some(DetailPage(product, shown))
  }

  /** `Where(related).Take(4)`: at most four related products, in catalog
      order; all of them when fewer; and a related product with fewer than
      four related products before it in the catalog is shown. */
  lemma ShownRelated(catalog: seq<Product>, product: Product, shown: seq<Product>)
    requires shown == Seqs.Take(Seqs.Filter(catalog, RelatedTo(product)), RelatedLimit)
    ensures Seqs.Subsequence(shown, catalog) && |shown| <= RelatedLimit
    ensures forall p :: p in shown ==> p in catalog && Related(p, product)
    ensures |shown| < RelatedLimit ==> forall p :: p in catalog && Related(p, product) ==> p in shown
    ensures forall i :: 0 <= i < |catalog| && Related(catalog[i], product)
                        && |Seqs.Filter(catalog[..i], RelatedTo(product))| < RelatedLimit
                        ==> catalog[i] in shown
  {
    var all := Seqs.Filter(catalog, RelatedTo(product));
    assert forall p :: p in shown ==> p in all;
    Seqs.TakeFilterSubsequence(catalog, RelatedTo(product), RelatedLimit);
    forall i | 0 <= i < |catalog| && Related(catalog[i], product)
                && |Seqs.Filter(catalog[..i], RelatedTo(product))| < RelatedLimit
      ensures catalog[i] in shown
    {
      Seqs.TakeFilterEarly(catalog, RelatedTo(product), RelatedLimit, i);
    }
  }
}

=== FILE: checkout.dfy ===
/** Placing an order (`OrdersController.Checkout`, POST) and finding it
    again (`Track`). The cart is the list of product ids held in the
    session; the signed-in user, if any, is a parameter. */
module Checkout {
  import opened Wrappers
  import opened Calendar
  import opened Models
  import opened DataStore
  import opened Coupons
  import Seqs
  import Cart
  import Text

  const FreeShippingThreshold: real := 5_000_000.0
  const StandardShippingFee: real := 150_000.0

  function Subtotal(ps: seq<Product>): real
  {
    Seqs.SumBy(ps, (p: Product) => p.price)
  }

  /** Free from 5,000,000 up, 150,000 below. */
  function ShippingFee(subtotal: real): (r: real)
    ensures r == 0.0 <==> subtotal >= FreeShippingThreshold
    ensures r == 0.0 || r == StandardShippingFee
  {
    if subtotal >= FreeShippingThreshold then 0.0 else StandardShippingFee
  }

  datatype FormError = NameRequired | PhoneRequired | PhoneFormat | AddressRequired | PaymentRequired

  /** The field checks of the posted order, all of them, in form order; a
      phone is either missing or malformed, not both. */
  function FormErrors(o: Order): (r: seq<FormError>)
    ensures r == [] <==>
              && !Text.IsBlank(o.customerName) && !Text.IsBlank(o.phone) && Text.MatchesPhonePattern(o.phone)
              && !Text.IsBlank(o.address) && !Text.IsBlank(o.paymentMethod)
    ensures NameRequired in r <==> Text.IsBlank(o.customerName)
    ensures PhoneRequired in r <==> Text.IsBlank(o.phone)
    ensures PhoneFormat in r <==> !Text.IsBlank(o.phone) && !Text.MatchesPhonePattern(o.phone)
    ensures AddressRequired in r <==> Text.IsBlank(o.address)
    ensures PaymentRequired in r <==> Text.IsBlank(o.paymentMethod)
  {
    (if Text.IsBlank(o.customerName) then [NameRequired] else [])
    + (if Text.IsBlank(o.phone) then [PhoneRequired]
       else if !Text.MatchesPhonePattern(o.phone) then [PhoneFormat] else [])
    + (if Text.IsBlank(o.address) then [AddressRequired] else [])
    + (if Text.IsBlank(o.paymentMethod) then [PaymentRequired] else [])
  }

  const OrderCodePrefix: string := "MB-"

  /** `MB-{yyyyMMdd}-{id:D4}`. */
  function OrderCode(now: Instant, id: nat): string
  {
    OrderCodePrefix + FormatYyyyMmDd(now) + "-" + Text.FormatPadded(id, 4)
  }

  /** One line per product, quantity 1 at the catalog price, numbered from
      `firstId`. */
  function OrderLines(ps: seq<Product>, orderId: int, firstId: int): (r: seq<OrderDetail>)
    ensures |r| == |ps|
    ensures forall i :: 0 <= i < |ps| ==> r[i] == OrderDetail(firstId + i, orderId, ps[i].id, 1, ps[i].price)
  {
    seq(|ps|, i requires 0 <= i < |ps| => OrderDetail(firstId + i, orderId, ps[i].id, 1, ps[i].price))
  }

  function LineTotal(d: OrderDetail): real
  {
    d.quantity as real * d.unitPrice
  }

  datatype CheckoutOutcome = EmptyCart | InvalidForm(errors: seq<FormError>) | Placed(order: Order)

  /** The coupon the checkout applies, as a position in the coupon table. */
  function AppliedCoupon(s: Store, cart: seq<int>, couponCode: string, now: Instant): Option<nat>
  {
    SelectCoupon(s.coupons, couponCode, Subtotal(Cart.Products(s.products, cart)), now)
  }

  /** The coupon table after the checkout: one more use of the applied
      coupon, nothing else. */
  function CouponsAfter(cs: seq<Coupon>, applied: Option<nat>): (r: seq<Coupon>)
    requires applied.Some? ==> applied.value < |cs|
    ensures |r| == |cs|
    ensures forall i :: 0 <= i < |cs| ==> r[i] == if applied == Some(i) then Use(cs[i]) else cs[i]
  {
    if applied.Some? then cs[applied.value := Use(cs[applied.value])] else cs
  }

  /** The order a successful checkout stores: the posted order with the
      next order id, a code, one line per cart product (numbered from the
      detail counter), the money fields, the applied coupon's id (the
      posted one when no coupon applies), the date, the status "Pending"
      and the signed-in user. Every other field keeps its posted value. */
  function PlacedOrder(s: Store, cart: seq<int>, posted: Order, couponCode: string, now: Instant, sessionUser: Option<int>)
    : (o: Order)
    ensures var ps := Cart.Products(s.products, cart);
            var applied := AppliedCoupon(s, cart, couponCode, now);
            && o.id == s.nextOrderId
            && o.orderCode == OrderCode(now, s.nextOrderId)
            && o.details == OrderLines(ps, o.id, s.nextOrderDetailId)
            && o.subtotal == Subtotal(ps)
            && o.shippingFee == ShippingFee(o.subtotal)
            && o.discountAmount == (if applied.Some? then Discount(s.coupons[applied.value], o.subtotal) else 0.0)
            && o.total == o.subtotal + o.shippingFee - o.discountAmount
            && o.couponId == (if applied.Some? then Some(s.coupons[applied.value].id) else posted.couponId)
            && o.orderDate == now && o.status == PendingStatus
            && o.userId == (if sessionUser.Some? then sessionUser else posted.userId)
    ensures o.customerName == posted.customerName && o.phone == posted.phone && o.address == posted.address
    ensures o.email == posted.email && o.notes == posted.notes && o.paymentMethod == posted.paymentMethod
    ensures o.trackingNumber == posted.trackingNumber && o.shippedDate == posted.shippedDate
    ensures o.deliveredDate == posted.deliveredDate
  {
    var ps := Cart.Products(s.products, cart);
    var orderId := TakeId(s, OrderIds).0;
    var subtotal := Subtotal(ps);
    var shipping := ShippingFee(subtotal);
    var applied := AppliedCoupon(s, cart, couponCode, now);
    var discount := if applied.Some? then Discount(s.coupons[applied.value], subtotal) else 0.0;
    posted.(
      id := orderId,
      orderCode := OrderCode(now, orderId),
      details := OrderLines(ps, orderId, s.nextOrderDetailId),
      subtotal := subtotal,
      shippingFee := shipping,
      discountAmount := discount,
      couponId := if applied.Some? then Some(s.coupons[applied.value].id) else posted.couponId,
      total := subtotal + shipping - discount,
      orderDate := now,
      status := PendingStatus,
      userId := if sessionUser.Some? then sessionUser else posted.userId)
  }

  /** The store after a successful checkout: both id counters advanced, the
      order appended, the applied coupon used once more. The lines are not
      added to the detail table. */
  function StoreAfter(s: Store, cart: seq<int>, o: Order, couponCode: string, now: Instant): (r: Store)
    ensures r.orders == s.orders + [o]
    ensures r.coupons == CouponsAfter(s.coupons, AppliedCoupon(s, cart, couponCode, now))
    ensures r.nextOrderId == s.nextOrderId + 1
    ensures r.nextOrderDetailId == s.nextOrderDetailId + |Cart.Products(s.products, cart)|
    ensures r.products == s.products && r.orderDetails == s.orderDetails && r.users == s.users
    ensures r.categories == s.categories
    ensures r.nextProductId == s.nextProductId && r.nextUserId == s.nextUserId
    ensures r.nextCategoryId == s.nextCategoryId && r.nextCouponId == s.nextCouponId
  {
    s.(orders := s.orders + [o],
       coupons := CouponsAfter(s.coupons, AppliedCoupon(s, cart, couponCode, now)),
       nextOrderId := s.nextOrderId + 1,
       nextOrderDetailId := s.nextOrderDetailId + |Cart.Products(s.products, cart)|)
  }

  /** `Checkout(order, couponCode)`. A missing code is "". An empty cart
      or a failed field check changes nothing; otherwise the placed order
      is stored and the session cart is emptied. The result is the
      outcome, the store and the session cart afterwards. */
  function Checkout(s: Store, cart: seq<int>, posted: Order, couponCode: string, now: Instant, sessionUser: Option<int>)
    : (r: (CheckoutOutcome, Store, seq<int>))
    ensures |cart| == 0 ==> r == (EmptyCart, s, cart)
    ensures r.0.Placed? ==> r.2 == []
    ensures !r.0.Placed? ==> r.2 == cart
    ensures r.0.InvalidForm? <==> |cart| > 0 && FormErrors(posted) != []
    ensures r.0.InvalidForm? ==> r.0.errors == FormErrors(posted)
    ensures !r.0.Placed? ==> r.1 == s
    ensures r.0.Placed? <==> |cart| > 0 && FormErrors(posted) == []
    ensures r.0.Placed? ==> r.0.order == PlacedOrder(s, cart, posted, couponCode, now, sessionUser)
    ensures r.0.Placed? ==> r.1 == StoreAfter(s, cart, r.0.order, couponCode, now)
  {
    if |cart| == 0 then (EmptyCart, s, cart)
    else if FormErrors(posted) != [] then (InvalidForm(FormErrors(posted)), s, cart)
    else
      var order := PlacedOrder(s, cart, posted, couponCode, now, sessionUser);
      (Placed(order), StoreAfter(s, cart, order, couponCode, now), [])
  }

  // ---------------------------------------------------------------------
  // Properties of a placed order
  // ---------------------------------------------------------------------

  lemma {:induction false} LinesSum(ps: seq<Product>, orderId: int, firstId: int)
    ensures Seqs.SumBy(OrderLines(ps, orderId, firstId), LineTotal) == Subtotal(ps)
  {
    if |ps| > 0 {
      LinesSum(ps[1..], orderId, firstId + 1);
      assert OrderLines(ps, orderId, firstId)[1..] == OrderLines(ps[1..], orderId, firstId + 1);
    }
  }

  /** The lines of a placed order add up to its subtotal, and each line
      is for one cart product at its catalog price. */
  lemma PlacedLinesAddUp(s: Store, cart: seq<int>, posted: Order, couponCode: string, now: Instant, user: Option<int>)
    requires Checkout(s, cart, posted, couponCode, now, user).0.Placed?
    ensures var o := Checkout(s, cart, posted, couponCode, now, user).0.order;
            && Seqs.SumBy(o.details, LineTotal) == o.subtotal
            && forall d :: d in o.details ==>
                 && d.quantity == 1 && d.orderId == o.id
                 && exists p :: p in s.products && p.id in cart && p.id == d.productId && p.price == d.unitPrice
  {
    var o := Checkout(s, cart, posted, couponCode, now, user).0.order;
    var ps := Cart.Products(s.products, cart);
    LinesSum(ps, o.id, s.nextOrderDetailId);
    forall d | d in o.details
      ensures d.quantity == 1 && d.orderId == o.id
      ensures exists p :: p in s.products && p.id in cart && p.id == d.productId && p.price == d.unitPrice
    {
      var i :| 0 <= i < |o.details| && o.details[i] == d;
      assert ps[i] in ps;
    }
  }

  /** Exactly the applied coupon gains one use and its id goes on the
      order; with no coupon applied every coupon is unchanged. */
  lemma CouponAccounting(s: Store, cart: seq<int>, posted: Order, couponCode: string, now: Instant, user: Option<int>)
    requires Checkout(s, cart, posted, couponCode, now, user).0.Placed?
    ensures var r := Checkout(s, cart, posted, couponCode, now, user);
            var applied := AppliedCoupon(s, cart, couponCode, now);
            && |r.1.coupons| == |s.coupons|
            && (applied.None? ==> r.1.coupons == s.coupons)
            && (applied.Some? ==>
                  && r.1.coupons[applied.value].usedCount == s.coupons[applied.value].usedCount + 1
                  && r.0.order.couponId == Some(s.coupons[applied.value].id)
                  && Eligible(s.coupons[applied.value], r.0.order.subtotal, now)
                  && forall i :: 0 <= i < |s.coupons| && i != applied.value ==> r.1.coupons[i] == s.coupons[i])
  {
  }

  /** A checkout keeps the coupon codes distinct and the coupon ids
      ordered, and never lets a limited coupon's use count pass its limit. */
  lemma CheckoutKeepsCouponInvariants(s: Store, cart: seq<int>, posted: Order, couponCode: string, now: Instant, user: Option<int>)
    requires UniqueCodes(s.coupons) && CouponIdsOrdered(s)
    requires forall i :: 0 <= i < |s.coupons| && s.coupons[i].usageLimit > 0 ==> s.coupons[i].usedCount <= s.coupons[i].usageLimit
    ensures var r := Checkout(s, cart, posted, couponCode, now, user).1;
            && UniqueCodes(r.coupons) && CouponIdsOrdered(r)
            && forall i :: 0 <= i < |r.coupons| && r.coupons[i].usageLimit > 0 ==> r.coupons[i].usedCount <= r.coupons[i].usageLimit
  {
    var out := Checkout(s, cart, posted, couponCode, now, user);
    if out.0.Placed? {
      var applied := AppliedCoupon(s, cart, couponCode, now);
      assert out.1 == StoreAfter(s, cart, out.0.order, couponCode, now);
      UsedCouponKeepsInvariants(s, out.1, applied, Subtotal(Cart.Products(s.products, cart)), now);
    }
  }

  /** Charging one use to an eligible coupon keeps codes, ids and the usage
      bound. */
  lemma UsedCouponKeepsInvariants(s: Store, t: Store, applied: Option<nat>, subtotal: real, now: Instant)
    requires applied.Some? ==> applied.value < |s.coupons| && Eligible(s.coupons[applied.value], subtotal, now)
    requires UniqueCodes(s.coupons) && CouponIdsOrdered(s)
    requires forall i :: 0 <= i < |s.coupons| && s.coupons[i].usageLimit > 0 ==> s.coupons[i].usedCount <= s.coupons[i].usageLimit
    requires t.coupons == CouponsAfter(s.coupons, applied) && t.nextCouponId == s.nextCouponId
    ensures UniqueCodes(t.coupons) && CouponIdsOrdered(t)
    ensures forall i :: 0 <= i < |t.coupons| && t.coupons[i].usageLimit > 0 ==> t.coupons[i].usedCount <= t.coupons[i].usageLimit
  {
    var cs := t.coupons;
    assert forall i :: 0 <= i < |cs| ==> cs[i].code == s.coupons[i].code && cs[i].id == s.coupons[i].id;
  }

  /** The money fields of a placed order, once its subtotal and the
      applied coupon are known. */
  lemma PlacedTotals(s: Store, cart: seq<int>, posted: Order, couponCode: string, now: Instant, user: Option<int>, k: nat, sub: real)
    requires |cart| > 0 && FormErrors(posted) == []
    requires Subtotal(Cart.Products(s.products, cart)) == sub
    requires AppliedCoupon(s, cart, couponCode, now) == Some(k)
    ensures k < |s.coupons|
    ensures var r := Checkout(s, cart, posted, couponCode, now, user);
            && r.0.Placed?
            && r.0.order.subtotal == sub && r.0.order.shippingFee == ShippingFee(sub)
            && r.0.order.discountAmount == Discount(s.coupons[k], sub)
            && r.0.order.total == sub + ShippingFee(sub) - Discount(s.coupons[k], sub)
            && r.0.order.couponId == Some(s.coupons[k].id)
            && r.1.coupons[k] == Use(s.coupons[k])
  {
    var r := Checkout(s, cart, posted, couponCode, now, user);
    var o := PlacedOrder(s, cart, posted, couponCode, now, user);
    assert r.0 == Placed(o);
    assert r.1 == StoreAfter(s, cart, o, couponCode, now);
  }

  /** The checkout never adds detail rows to the detail table, so linking
      the navigation properties afterwards would leave the new order with
      no lines when the table had none with its id. */
  lemma LinesNotStored(s: Store, cart: seq<int>, posted: Order, couponCode: string, now: Instant, user: Option<int>)
    requires Checkout(s, cart, posted, couponCode, now, user).0.Placed?
    requires forall d :: d in s.orderDetails ==> d.orderId != s.nextOrderId
    ensures var r := Checkout(s, cart, posted, couponCode, now, user).1;
            && r.orderDetails == s.orderDetails
            && PopulateNavigation(r).orders[|r.orders| - 1].details == []
  {
    var r := Checkout(s, cart, posted, couponCode, now, user).1;
    var lines := PopulateNavigation(r).orders[|r.orders| - 1].details;
    Seqs.EmptyWhenNoMember(lines);
  }

  /** The total is not clamped: a fixed discount larger than a small
      order makes the total negative. */
  lemma TotalCanBeNegative(posted: Order, now: Instant)
    requires FormErrors(posted) == []
    ensures var r := Checkout(OverrunStore(now), [1], posted, "", now, None);
            r.0.Placed? && r.0.order.total == 185_000.0 + 150_000.0 - 10_000_000.0 && r.0.order.total < 0.0
  {
    var s := OverrunStore(now);
    OverrunStoreFacts(now);
    DiscountOverrun(s, posted, now);
  }

  /** One 185,000 product and one live coupon taking off a fixed 10,000,000. */
  function OverrunStore(now: Instant): Store
  {
    var c := Coupon(1, "BIG", "", 0.0, Some(10_000_000.0), 0.0, None, now, now, 0, 0, true);
    var p := Product(1, "Oil", "Castrol", "1L", "N/A", 4.8, 185_000.0, None, "", None, None, None, None, None, None, None);
    Empty.(products := [p], coupons := [c])
  }

  lemma OverrunStoreFacts(now: Instant)
    ensures var s := OverrunStore(now);
            && Subtotal(Cart.Products(s.products, [1])) == 185_000.0
            && AppliedCoupon(s, [1], "", now) == Some(0)
            && |s.coupons| > 0 && Discount(s.coupons[0], 185_000.0) == 10_000_000.0
  {
    var s := OverrunStore(now);
    var c := s.coupons[0];
    var p := s.products[0];
    assert Cart.Products(s.products, [1]) == [p];
    assert Subtotal([p]) == p.price + Subtotal([]);
    assert Eligible(c, 185_000.0, now) && Discount(c, 185_000.0) == 10_000_000.0;
    assert BestFrom(s.coupons, 185_000.0, now, 1, Some(0), 10_000_000.0) == Some(0);
  }

  /** A cart of 185,000 whose applied coupon takes off 10,000,000 is placed
      with a negative total. */
  lemma DiscountOverrun(s: Store, posted: Order, now: Instant)
    requires FormErrors(posted) == []
    requires Subtotal(Cart.Products(s.products, [1])) == 185_000.0
    requires AppliedCoupon(s, [1], "", now) == Some(0)
    requires |s.coupons| > 0 && Discount(s.coupons[0], 185_000.0) == 10_000_000.0
    ensures var r := Checkout(s, [1], posted, "", now, None);
            r.0.Placed? && r.0.order.total == 185_000.0 + 150_000.0 - 10_000_000.0 && r.0.order.total < 0.0
  {
    PlacedTotals(s, [1], posted, "", now, None, 0, 185_000.0);
  }

  /** The seeded catalog has exactly one product with id 1, the Air
      Blade 160 at 48,990,000. */
  lemma SeedCart(s: Store, now: Instant)
    ensures var ps := Cart.Products(Reset(s, now).products, [1]);
            ps == [AirBlade160.(id := 1)] && Subtotal(ps) == 48_990_000.0
  {
    var ps := Reset(s, now).products;
    ResetNumbering(s, s, now);
    assert ps[0] == AirBlade160.(id := 1);
    Seqs.FilterOnly(ps, (p: Product) => p.id in [1], 0);
    assert Subtotal([ps[0]]) == ps[0].price + Subtotal([]);
  }

  /** The seeded coupons are all live when seeded; for a 48,990,000 order
      they take off 2,000,000, 1,000,000 and 5,000,000, so the automatic
      choice is VIP15, the third. */
  lemma SeedCouponChoice(s: Store, now: Instant)
    ensures var cs := Reset(s, now).coupons;
            && |cs| == 3 && cs[2].id == 3 && cs[2].code == "VIP15"
            && (forall i :: 0 <= i < 3 ==> Available(cs[i], now))
            && BestCoupon(cs, 48_990_000.0, now) == Some(2)
            && Discount(cs[2], 48_990_000.0) == 5_000_000.0
  {
    ResetCoupons(s, now);
    SeededCouponChoice(now);
  }

  lemma ResetCoupons(s: Store, now: Instant)
    ensures Reset(s, now).coupons == SeedCoupons(1, now)
  {
  }

  lemma SeededCouponChoice(now: Instant)
    ensures var cs := SeedCoupons(1, now);
            && |cs| == 3 && cs[2].id == 3 && cs[2].code == "VIP15"
            && (forall i :: 0 <= i < 3 ==> Available(cs[i], now))
            && BestCoupon(cs, 48_990_000.0, now) == Some(2)
            && Discount(cs[2], 48_990_000.0) == 5_000_000.0
  {
    var sub := 48_990_000.0;
    AddMonthsForward(now, 3);
    AddMonthsForward(now, 2);
    AddMonthsForward(now, 12);
    var cs := SeedCoupons(1, now);
    assert Eligible(cs[0], sub, now) && Discount(cs[0], sub) == 2_000_000.0;
    assert Eligible(cs[1], sub, now) && Discount(cs[1], sub) == 1_000_000.0;
    assert Eligible(cs[2], sub, now) && Discount(cs[2], sub) == 5_000_000.0;
    assert BestFrom(cs, sub, now, 3, Some(2), 5_000_000.0) == Some(2);
    assert BestFrom(cs, sub, now, 1, Some(0), 2_000_000.0) == Some(2);
  }

  /** On a freshly seeded store, a cart holding the Air Blade 160 with no
      code typed gets VIP15 rather than WELCOME10 or SUMMER2024, ships
      free, and totals 43,990,000. */
  lemma SeedCheckoutPicksVip(s: Store, posted: Order, now: Instant)
    requires FormErrors(posted) == []
    ensures var seeded := Reset(s, now);
            var r := Checkout(seeded, [1], posted, "", now, None);
            && r.0.Placed?
            && r.0.order.subtotal == 48_990_000.0 && r.0.order.shippingFee == 0.0
            && r.0.order.discountAmount == 5_000_000.0 && r.0.order.total == 43_990_000.0
            && r.0.order.couponId == Some(3)
            && r.1.coupons[2] == Use(seeded.coupons[2])
  {
    SeedCart(s, now);
    SeedCouponChoice(s, now);
    CartPicksBest(Reset(s, now), posted, now);
  }

  /** A one-product cart of 48,990,000 whose best coupon is the third, at
      5,000,000 off, ships free and totals 43,990,000 with that coupon. */
  lemma CartPicksBest(t: Store, posted: Order, now: Instant)
    requires FormErrors(posted) == []
    requires Subtotal(Cart.Products(t.products, [1])) == 48_990_000.0
    requires |t.coupons| == 3 && t.coupons[2].id == 3
    requires BestCoupon(t.coupons, 48_990_000.0, now) == Some(2)
    requires Discount(t.coupons[2], 48_990_000.0) == 5_000_000.0
    ensures var r := Checkout(t, [1], posted, "", now, None);
            && r.0.Placed?
            && r.0.order.subtotal == 48_990_000.0 && r.0.order.shippingFee == 0.0
            && r.0.order.discountAmount == 5_000_000.0 && r.0.order.total == 43_990_000.0
            && r.0.order.couponId == Some(3)
            && r.1.coupons[2] == Use(t.coupons[2])
  {
    assert Text.IsBlank("");
    assert AppliedCoupon(t, [1], "", now) == Some(2);
    PlacedTotals(t, [1], posted, "", now, None, 2, 48_990_000.0);
  }

  // ---------------------------------------------------------------------
  // Tracking (`Track`)
  // ---------------------------------------------------------------------

  /** The order's code equals `id` ignoring case. */
  function CodeIs(id: string): Order -> bool
  {
    (o: Order) => Text.EqualsIgnoreCase(o.orderCode, id)
  }

  /** The order's id is `n`. */
  function NumberIs(n: int): Order -> bool
  {
    (o: Order) => o.id == n
  }

  /** `Track(id)`: nothing for a blank id; otherwise the first order whose
      code equals the text ignoring case, or else, when the text parses as
      an integer (`parsedId`), the first order with that id. */
  function Track(s: Store, id: string, parsedId: Option<int>): (r: Option<Order>)
    ensures Text.IsBlank(id) ==> r.None?
    ensures r.Some? ==> r.value in s.orders
    ensures r.Some? ==> Text.EqualsIgnoreCase(r.value.orderCode, id) || Some(r.value.id) == parsedId
    ensures !Text.IsBlank(id) && (exists o :: o in s.orders && Text.EqualsIgnoreCase(o.orderCode, id)) ==>
              r.Some? && Text.EqualsIgnoreCase(r.value.orderCode, id)
    ensures r.None? && !Text.IsBlank(id) ==>
              forall o :: o in s.orders ==> !Text.EqualsIgnoreCase(o.orderCode, id) && Some(o.id) != parsedId
    ensures r.Some? && Text.EqualsIgnoreCase(r.value.orderCode, id) ==>
              forall j :: 0 <= j < |s.orders| && Text.EqualsIgnoreCase(s.orders[j].orderCode, id) ==>
                r.value in s.orders[..j + 1]
    ensures r.Some? && !Text.EqualsIgnoreCase(r.value.orderCode, id) ==>
              && Some(r.value.id) == parsedId
              && (forall o :: o in s.orders ==> !Text.EqualsIgnoreCase(o.orderCode, id))
              && forall j :: 0 <= j < |s.orders| && s.orders[j].id == r.value.id ==> r.value in s.orders[..j + 1]
  {
    if Text.IsBlank(id) then None
    else
      match Seqs.FindFirst(s.orders, CodeIs(id))
      case Some(i) =>
        Seqs.FoundFirst(s.orders, CodeIs(id), i);
        Some(s.orders[i])
      case None =>
        if parsedId.None? then None
        else
          match Seqs.FindFirst(s.orders, NumberIs(parsedId.value))
          case Some(i) =>
            Seqs.FoundFirst(s.orders, NumberIs(parsedId.value), i);
            Some(s.orders[i])
          case None => None
  }

  /** A placed order can be found again by its code. */
  lemma PlacedOrderTrackable(s: Store, cart: seq<int>, posted: Order, couponCode: string, now: Instant, user: Option<int>, parsedId: Option<int>)
    requires Checkout(s, cart, posted, couponCode, now, user).0.Placed?
    ensures var r := Checkout(s, cart, posted, couponCode, now, user);
            var t := Track(r.1, r.0.order.orderCode, parsedId);
            t.Some? && Text.EqualsIgnoreCase(t.value.orderCode, r.0.order.orderCode)
  {
    var r := Checkout(s, cart, posted, couponCode, now, user);
    var o := r.0.order;
    assert o in r.1.orders;
    assert o.orderCode[0] == 'M';
    assert !Text.IsBlank(o.orderCode) by {
      assert !Text.IsWhiteSpace(o.orderCode[0]);
    }
  }
}

=== FILE: client.dfy ===
/** The pure logic of the storefront script (`wwwroot/js/site.js`): the
    compare and wishlist toggles kept in the browser's local storage, the
    compare badge, the quantity buttons, the flash-sale countdown and the
    rating stars. Toasts, animations and storage writes are effects and are
    left out; the lists are the values the script stores. Product ids are
    the `data-product-id` strings. */
module Client {
  import opened Wrappers
  import Seqs
  import Text

  // ---------------------------------------------------------------------
  // Compare list
  // ---------------------------------------------------------------------

  /** Most products the browser-side compare list takes. */
  const CompareCap: nat := 4

  /** What a click on a compare button did. */
  datatype CompareAction = CompareRemoved | CompareFull | CompareAdded

  /** `compareList.filter(id => id !== productId)`: every occurrence gone,
      every other id kept as often as it was listed and in its order. */
  function Without(list: seq<string>, id: string): (r: seq<string>)
    ensures id !in r
    ensures forall x :: x != id ==> (x in r <==> x in list)
    ensures |r| <= |list|
    ensures Seqs.Subsequence(r, list)
    ensures forall x :: x != id ==> multiset(r)[x] == multiset(list)[x]
  {
    Seqs.FilterSubsequence(list, (x: string) => x != id);
    Seqs.FilterCounts(list, (x: string) => x != id);
    Seqs.Filter(list, (x: string) => x != id)
  }

  /** The compare button: a listed id is removed; an absent one is added
      unless the list already holds four, in which case nothing changes. */
  function CompareToggle(list: seq<string>, id: string): (r: (seq<string>, CompareAction))
    ensures id in list ==> r.1 == CompareRemoved && id !in r.0
    ensures id in list ==> Seqs.Subsequence(r.0, list) && forall x :: x != id ==> multiset(r.0)[x] == multiset(list)[x]
    ensures id !in list && |list| >= CompareCap ==> r == (list, CompareFull)
    ensures id !in list && |list| < CompareCap ==> r == (list + [id], CompareAdded)
    ensures forall x :: x != id ==> (x in r.0 <==> x in list)
    ensures |r.0| <= |list| || |r.0| <= CompareCap
  {
    if id in list then (Without(list, id), CompareRemoved)
    else if |list| >= CompareCap then (list, CompareFull)
    else (list + [id], CompareAdded)
  }

  /** A compare list the script itself built: at most four ids, none twice. */
  predicate CompareListOk(list: seq<string>)
  {
    |list| <= CompareCap && Seqs.NoDuplicates(list)
  }

  lemma {:induction false} WithoutNoDuplicates(list: seq<string>, id: string)
    requires Seqs.NoDuplicates(list)
    ensures Seqs.NoDuplicates(Without(list, id))
  {
    if |list| > 0 {
      WithoutNoDuplicates(list[1..], id);
      assert Seqs.NoDuplicates(list[1..]) by {
        forall i, j | 0 <= i < j < |list[1..]|
          ensures list[1..][i] != list[1..][j]
        {
          assert list[1..][i] == list[i + 1] && list[1..][j] == list[j + 1];
        }
      }
      var rest := Without(list[1..], id);
      if list[0] != id {
        assert Without(list, id) == [list[0]] + rest;
        forall j | 0 <= j < |list[1..]|
          ensures list[1..][j] != list[0]
        {
          assert list[1..][j] == list[j + 1];
        }
        assert list[0] !in rest;
      }
    }
  }

  /** The toggle keeps the list within four ids and free of repeats. */
  lemma CompareToggleKeepsOk(list: seq<string>, id: string)
    requires CompareListOk(list)
    ensures CompareListOk(CompareToggle(list, id).0)
  {
    WithoutNoDuplicates(list, id);
    if id !in list && |list| < CompareCap {
      assert forall i :: 0 <= i < |list| ==> list[i] != id;
    }
  }

  /** Adding and then removing the same id gives back the list. */
  lemma CompareToggleTwice(list: seq<string>, id: string)
    requires id !in list && |list| < CompareCap
    ensures CompareToggle(CompareToggle(list, id).0, id).0 == list
  {
    Seqs.FilterAppend(list, [id], (x: string) => x != id);
    Seqs.FilterAll(list, (x: string) => x != id);
  }

  /** The compare-count badge: the list length, shown only when non-zero. */
  datatype Badge = Badge(count: nat, visible: bool)

  function CompareBadge(list: seq<string>): (b: Badge)
    ensures b.count == |list|
    ensures b.visible <==> list != []
  {
    Badge(|list|, |list| > 0)
  }

  /** After a successful add the badge is shown; after a refused add it is
      unchanged. */
  lemma BadgeAfterToggle(list: seq<string>, id: string)
    ensures var r := CompareToggle(list, id);
            && (r.1 == CompareAdded ==> CompareBadge(r.0) == Badge(|list| + 1, true))
            && (r.1 == CompareFull ==> CompareBadge(r.0) == CompareBadge(list))
  {
  }

  // ---------------------------------------------------------------------
  // Wishlist
  // ---------------------------------------------------------------------

  /** The wishlist heart: a listed id is removed everywhere, an absent one
      is appended; there is no cap. */
  function WishlistToggle(list: seq<string>, id: string): (r: seq<string>)
    ensures id in list ==> id !in r
    ensures id in list ==> Seqs.Subsequence(r, list) && forall x :: x != id ==> multiset(r)[x] == multiset(list)[x]
    ensures id !in list ==> r == list + [id]
    ensures forall x :: x != id ==> (x in r <==> x in list)
  {
    if id in list then Without(list, id) else list + [id]
  }

  /** Toggling twice restores whether the id is listed, and every other
      id's membership; from an unlisted id it restores the list itself. */
  lemma WishlistToggleTwice(list: seq<string>, id: string)
    ensures var r := WishlistToggle(WishlistToggle(list, id), id);
            && (forall x :: x in r <==> x in list)
            && (id !in list ==> r == list)
  {
    if id !in list {
      Seqs.FilterAppend(list, [id], (x: string) => x != id);
      Seqs.FilterAll(list, (x: string) => x != id);
    }
  }

  // ---------------------------------------------------------------------
  // Quantity buttons
  // ---------------------------------------------------------------------

  /** Which quantity button was pressed. */
  datatype QuantityButton = Plus | Minus | OtherButton

  /** `parseInt(input.value) || 1`: `None` stands for NaN; NaN and 0 are
      both falsy and become 1. */
  function StartQuantity(parsed: Option<int>): (v: int)
    ensures parsed.None? || parsed.value == 0 ==> v == 1
    ensures parsed.Some? && parsed.value != 0 ==> v == parsed.value
  {
    if parsed.None? || parsed.value == 0 then 1 else parsed.value
  }

  /** The value written back to the input after a click. */
  function QuantityClick(parsed: Option<int>, button: QuantityButton): (r: int)
    ensures var v := StartQuantity(parsed);
            && (button == Plus ==> r == v + 1)
            && (button == Minus && v > 1 ==> r == v - 1)
            && (button == Minus && v <= 1 ==> r == v)
            && (button == OtherButton ==> r == v)
    ensures StartQuantity(parsed) >= 1 ==> r >= 1
  {
    var v := StartQuantity(parsed);
    match button
    case Plus => v + 1
    case Minus => if v > 1 then v - 1 else v
    case OtherButton => v
  }

  /** Minus never takes a positive quantity to zero, and plus followed by
      minus is back where it started. */
  lemma PlusThenMinus(parsed: Option<int>)
    requires StartQuantity(parsed) >= 1
    ensures QuantityClick(Some(QuantityClick(parsed, Plus)), Minus) == StartQuantity(parsed)
    ensures QuantityClick(Some(1), Minus) == 1
  {
  }

  // ---------------------------------------------------------------------
  // Countdown
  // ---------------------------------------------------------------------

  // The unit lengths in milliseconds are written as literals (1000 a
  // second, 60000 a minute, 3600000 an hour, 86400000 a day) so that the
  // arithmetic below stays linear for the solver.

  datatype Countdown = Ended | Remaining(days: nat, hours: nat, minutes: nat, seconds: nat)

  /** The time left until the end of a sale, `distance` milliseconds away:
      ended when negative; otherwise whole days, then hours, minutes and
      seconds of the rest, rounded down. */
  function CountdownOf(distance: int): (r: Countdown)
    ensures r.Ended? <==> distance < 0
    ensures r.Remaining? ==>
      && r.hours < 24 && r.minutes < 60 && r.seconds < 60
      && var whole := r.days * 86400000 + r.hours * 3600000 + r.minutes * 60000 + r.seconds * 1000;
         whole <= distance < whole + 1000
  {
    if distance < 0 then Ended
    else
      var days := distance / 86400000;
      var hours := (distance % 86400000) / 3600000;
      var minutes := (distance % 3600000) / 60000;
      var seconds := (distance % 60000) / 1000;
      Split(distance);
      Remaining(days, hours, minutes, seconds)
  }

  /** The remainders nest: what is left of a day splits into hours and what
      is left of an hour, and so on down to seconds. */
  lemma Split(d: nat)
    ensures d % 86400000 == (d % 86400000) / 3600000 * 3600000 + d % 3600000
    ensures (d % 86400000) / 3600000 < 24
    ensures d % 3600000 == (d % 3600000) / 60000 * 60000 + d % 60000
    ensures (d % 3600000) / 60000 < 60
    ensures d % 60000 == (d % 60000) / 1000 * 1000 + d % 1000
    ensures (d % 60000) / 1000 < 60
  {
    var r1 := d % 86400000;
    assert d == d / 86400000 * 86400000 + r1;
    assert r1 == r1 / 3600000 * 3600000 + r1 % 3600000;
    assert d == (d / 86400000 * 24 + r1 / 3600000) * 3600000 + r1 % 3600000;
    assert d % 3600000 == r1 % 3600000;
    var r2 := d % 3600000;
    assert d == d / 3600000 * 3600000 + r2;
    assert r2 == r2 / 60000 * 60000 + r2 % 60000;
    assert d == (d / 3600000 * 60 + r2 / 60000) * 60000 + r2 % 60000;
    assert d % 60000 == r2 % 60000;
    var r3 := d % 60000;
    assert d == d / 60000 * 60000 + r3;
    assert r3 == r3 / 1000 * 1000 + r3 % 1000;
    assert d == (d / 60000 * 60 + r3 / 1000) * 1000 + r3 % 1000;
    assert d % 1000 == r3 % 1000;
  }

  /** The decomposition is the only one with those bounds: any days, hours,
      minutes and seconds in range whose total is within a second below the
      distance are the ones shown. */
  lemma {:induction false} CountdownUnique(distance: int, days: nat, hours: nat, minutes: nat, seconds: nat)
    requires hours < 24 && minutes < 60 && seconds < 60
    requires var whole := days * 86400000 + hours * 3600000 + minutes * 60000 + seconds * 1000;
             whole <= distance < whole + 1000
    ensures CountdownOf(distance) == Remaining(days, hours, minutes, seconds)
  {
    var r := CountdownOf(distance);
    var secs := days * 86400 + hours * 3600 + minutes * 60 + seconds;
    var secs' := r.days * 86400 + r.hours * 3600 + r.minutes * 60 + r.seconds;
    assert secs * 1000 <= distance < secs * 1000 + 1000;
    assert secs' * 1000 <= distance < secs' * 1000 + 1000;
    assert secs == secs';
    MixedRadixUnique(days, hours, minutes, seconds, r.days, r.hours, r.minutes, r.seconds);
  }

  lemma MixedRadixUnique(d: nat, h: nat, m: nat, s: nat, d': nat, h': nat, m': nat, s': nat)
    requires h < 24 && m < 60 && s < 60 && h' < 24 && m' < 60 && s' < 60
    requires d * 86400 + h * 3600 + m * 60 + s == d' * 86400 + h' * 3600 + m' * 60 + s'
    ensures d == d' && h == h' && m == m' && s == s'
  {
    DigitUnique(d * 1440 + h * 60 + m, s, d' * 1440 + h' * 60 + m', s', 60);
    DigitUnique(d * 24 + h, m, d' * 24 + h', m', 60);
    DigitUnique(d, h, d', h', 24);
  }

  /** The last digit in base `b` and the number above it are unique. */
  lemma DigitUnique(q: int, r: int, q': int, r': int, b: int)
    requires 0 <= r < b && 0 <= r' < b
    requires q * b + r == q' * b + r'
    ensures q == q' && r == r'
  {
    StepApart(q, q', b);
    StepApart(q', q, b);
  }

  lemma StepApart(q: int, q': int, b: int)
    requires b > 0
    ensures q < q' ==> q * b + b <= q' * b
  {
    if q < q' {
      var d := q' - q - 1;
      assert d * b >= 0;
      assert q' * b == q * b + b + d * b;
    }
  }

  /** The countdown as shown: days as they are, the other three padded to
      two digits. */
  datatype CountdownText = EndedText | Clock(days: string, hours: string, minutes: string, seconds: string)

  predicate AllDigits(s: string)
  {
    forall i :: 0 <= i < |s| ==> Text.IsAsciiDigit(s[i])
  }

  function CountdownDisplay(distance: int): (r: CountdownText)
    ensures r.EndedText? <==> distance < 0
    ensures r.Clock? ==> AllDigits(r.days) && AllDigits(r.hours) && AllDigits(r.minutes) && AllDigits(r.seconds)
  {
    match CountdownOf(distance)
    case Ended => EndedText
    case Remaining(d, h, m, s) =>
      Clock(Text.NatToString(d), Text.FormatPadded(h, 2), Text.FormatPadded(m, 2), Text.FormatPadded(s, 2))
  }

  /** Hours, minutes and seconds always show exactly two digits, and every
      field reads back as the number it shows. */
  lemma CountdownDisplayReadsBack(distance: int)
    requires distance >= 0
    ensures var r := CountdownDisplay(distance);
            var c := CountdownOf(distance);
            && r.Clock? && |r.hours| == 2 && |r.minutes| == 2 && |r.seconds| == 2
            && Text.ParseDigits(r.days) == c.days
            && Text.ParseDigits(r.hours) == c.hours
            && Text.ParseDigits(r.minutes) == c.minutes
            && Text.ParseDigits(r.seconds) == c.seconds
  {
    var c := CountdownOf(distance);
    ClockReadsBack(c.days, c.hours, c.minutes, c.seconds);
  }

  lemma ClockReadsBack(d: nat, h: nat, m: nat, s: nat)
    requires h < 24 && m < 60 && s < 60
    ensures var r := Clock(Text.NatToString(d), Text.FormatPadded(h, 2), Text.FormatPadded(m, 2), Text.FormatPadded(s, 2));
            && |r.hours| == 2 && |r.minutes| == 2 && |r.seconds| == 2
            && Text.ParseDigits(r.days) == d
            && Text.ParseDigits(r.hours) == h
            && Text.ParseDigits(r.minutes) == m
            && Text.ParseDigits(r.seconds) == s
  {
    Text.ParseNatToString(d);
    TwoDigits(h);
    TwoDigits(m);
    TwoDigits(s);
  }

  lemma TwoDigits(n: nat)
    requires n < 100
    ensures |Text.FormatPadded(n, 2)| == 2
    ensures forall i :: 0 <= i < 2 ==> Text.IsAsciiDigit(Text.FormatPadded(n, 2)[i])
    ensures Text.ParseDigits(Text.FormatPadded(n, 2)) == n
  {
    assert |Text.NatToString(n)| <= 2 by {
      if n >= 10 {
        assert Text.NatToString(n) == Text.NatToString(n / 10) + [Text.DigitChar(n % 10)];
      }
    }
    Text.FormatPaddedRoundTrip(n, 2);
  }

  // ---------------------------------------------------------------------
  // Rating stars
  // ---------------------------------------------------------------------

  /** One star's classes: `active`, and `fas` (solid) as against `far`
      (outline); the script always sets one of `fas`/`far` and clears the
      other, so one flag stands for both. */
  datatype Star = Star(active: bool, solid: bool)

  /** Clicking star `k` (from 0): stars up to `k` become active and solid,
      the rest neither; the rating stored is `k + 1`. */
  function ClickStar(n: nat, k: nat): (r: (seq<Star>, nat))
    requires k < n
    ensures |r.0| == n && r.1 == k + 1
    ensures forall i :: 0 <= i < n ==> (r.0[i].active <==> i <= k) && (r.0[i].solid <==> i <= k)
  {
    (seq(n, i => Star(i <= k, i <= k)), k + 1)
  }

  /** Hovering over star `k` makes stars up to `k` solid and leaves
      everything else alone. */
  function HoverStar(stars: seq<Star>, k: nat): (r: seq<Star>)
    ensures |r| == |stars|
    ensures forall i :: 0 <= i < |stars| && i <= k ==> r[i] == stars[i].(solid := true)
    ensures forall i :: k < i < |stars| ==> r[i] == stars[i]
  {
    seq(|stars|, i requires 0 <= i < |stars| => if i <= k then stars[i].(solid := true) else stars[i])
  }

  /** Leaving the rating: exactly the stars below the stored rating (0
      when none is stored) are active and solid. */
  function LeaveStars(stars: seq<Star>, rating: Option<nat>): (r: seq<Star>)
    ensures |r| == |stars|
    ensures forall i :: 0 <= i < |stars| ==>
              (r[i].active <==> i < rating.GetOr(0)) && (r[i].solid <==> i < rating.GetOr(0))
  {
    var current := rating.GetOr(0);
    seq(|stars|, i requires 0 <= i < |stars| => Star(i < current, i < current))
  }

  /** After a click, any hovering followed by leaving shows the clicked
      stars again. */
  lemma LeaveRestoresClick(n: nat, k: nat, j: nat)
    requires k < n
    ensures var (clicked, rating) := ClickStar(n, k);
            LeaveStars(HoverStar(clicked, j), Some(rating)) == clicked
  {
  }

  /** With no rating stored, leaving clears every star. */
  lemma LeaveWithoutRating(stars: seq<Star>)
    ensures forall i :: 0 <= i < |stars| ==> LeaveStars(stars, None)[i] == Star(false, false)
  {
  }
}

=== FILE: compare.dfy ===
/** The product comparison list (`CompareController`): at most four
    product ids kept in the session. */
module Compare {
  import opened Models
  import Seqs
  import Cart

  const MaxCompare: nat := 4

  datatype AddOutcome = ListFull | AlreadyListed | Listed

  /** `Add(id)`: refused when the list already holds four ids, even when
      the id is one of them; otherwise an absent id is appended. The id is
      not checked against the catalog. */
  function Add(items: seq<int>, id: int): (r: (AddOutcome, seq<int>))
    ensures |items| >= MaxCompare ==> r == (ListFull, items)
    ensures |items| < MaxCompare && id in items ==> r == (AlreadyListed, items)
    ensures |items| < MaxCompare && id !in items ==> r == (Listed, items + [id])
  {
    if |items| >= MaxCompare then (ListFull, items)
    else if id in items then (AlreadyListed, items)
    else (Listed, items + [id])
  }

  /** The list stays within four ids and free of duplicates. */
  predicate Valid(items: seq<int>)
  {
    |items| <= MaxCompare && Seqs.NoDuplicates(items)
  }

  lemma AddKeepsValid(items: seq<int>, id: int)
    requires Valid(items)
    ensures Valid(Add(items, id).1)
    ensures id in Add(items, id).1 <==> id in items || |items| < MaxCompare
  {
  }

  /** `Remove(id)`: the first occurrence goes, and only it. */
  function Remove(items: seq<int>, id: int): (r: seq<int>)
    ensures id !in items ==> r == items
    ensures id in items ==> exists k :: 0 <= k < |items| && items[k] == id && id !in items[..k]
                                        && r == items[..k] + items[k + 1..]
  {
    Seqs.RemoveFirst(items, id)
  }

  lemma RemoveKeepsValid(items: seq<int>, id: int)
    requires Valid(items)
    ensures Valid(Remove(items, id)) && id !in Remove(items, id)
  {
    Seqs.RemoveFirstNoDuplicates(items, id);
  }

  /** `Clear()`: the session entry is dropped, which reads back as the
      empty list. */
  function Clear(items: seq<int>): (r: seq<int>)
    ensures r == [] && Valid(r)
  {
    []
  }

  /** `Count()`: the number of listed ids; never more than four for a
      list built by these actions. */
  function Count(items: seq<int>): (r: nat)
    ensures r == |items|
    ensures Valid(items) ==> r <= MaxCompare
    ensures r == 0 <==> items == []
  {
    |items|
  }

  /** A fifth product never gets in: after a refused `Add` the count is
      still four, and removing one makes room again. */
  lemma FullListRefuses(items: seq<int>, id: int, other: int)
    requires Valid(items) && |items| == MaxCompare && other in items
    ensures Add(items, id).0 == ListFull && Count(Add(items, id).1) == MaxCompare
    ensures Add(Remove(items, other), id).0 != ListFull
  {
  }

  /** `Index()`: the listed products, in catalog order. */
  function Products(catalog: seq<Product>, items: seq<int>): (r: seq<Product>)
    ensures forall p :: p in r <==> p in catalog && p.id in items
    ensures Seqs.Subsequence(r, catalog)
  {
    Cart.Products(catalog, items)
  }
}

=== FILE: coupons.dfy ===
/** The coupon engine: when a coupon may be used, how much it takes off
    an amount, which coupon the checkout picks by itself, the list the
    checkout page offers, the `Validate` API, and the admin operations
    (create, edit, toggle, delete). */
module Coupons {
  import opened Wrappers
  import opened Calendar
  import opened Models
  import opened DataStore
  import Seqs
  import Text

  // ---------------------------------------------------------------------
  // Eligibility
  // ---------------------------------------------------------------------

  /** The window is inclusive at both ends. */
  predicate InWindow(c: Coupon, now: Instant)
  {
    c.startDate <= now && c.endDate >= now
  }

  /** Active, in its window and not used up; no minimum order yet. This is
      the filter of the available-coupon list and of `Validate`'s lookup. */
  predicate Available(c: Coupon, now: Instant)
  {
    c.isActive && InWindow(c, now) && UsageAvailable(c)
  }

  /** What the checkout requires of a coupon for an order of `subtotal`. */
  predicate Eligible(c: Coupon, subtotal: real, now: Instant)
  {
    Available(c, now) && subtotal >= c.minOrderAmount
  }

  // ---------------------------------------------------------------------
  // The discount formula
  // ---------------------------------------------------------------------

  /** The amount a coupon takes off `amount`: a positive percentage of it,
      capped by `maxDiscountAmount` when that is set; otherwise the fixed
      `discountAmount`, or nothing. */
  function Discount(c: Coupon, amount: real): real
  {
    if c.discountPercent > 0.0 then
      var raw := amount * c.discountPercent / 100.0;
      if c.maxDiscountAmount.Some? && raw > c.maxDiscountAmount.value then c.maxDiscountAmount.value else raw
    else c.discountAmount.GetOr(0.0)
  }

  /** A capped percentage coupon never takes off more than its cap; an
      uncapped one takes exactly its share; a coupon without a positive
      percentage takes its fixed amount whatever the order is worth. */
  lemma DiscountShape(c: Coupon, amount: real)
    ensures c.discountPercent > 0.0 && c.maxDiscountAmount.Some? ==>
              Discount(c, amount) <= c.maxDiscountAmount.value
              && (Discount(c, amount) == c.maxDiscountAmount.value || Discount(c, amount) == amount * c.discountPercent / 100.0)
    ensures c.discountPercent > 0.0 && c.maxDiscountAmount.None? ==> Discount(c, amount) == amount * c.discountPercent / 100.0
    ensures c.discountPercent <= 0.0 ==> forall other: real :: Discount(c, amount) == Discount(c, other)
  {
  }

  /** For a percentage in (0, 100] and a non-negative cap, the discount on
      a non-negative amount lies between 0 and the amount. */
  lemma DiscountWithinAmount(c: Coupon, amount: real)
    requires 0.0 < c.discountPercent <= 100.0
    requires c.maxDiscountAmount.Some? ==> c.maxDiscountAmount.value >= 0.0
    requires amount >= 0.0
    ensures 0.0 <= Discount(c, amount) <= amount
  {
    var raw := amount * c.discountPercent / 100.0;
    assert 0.0 <= amount * c.discountPercent <= amount * 100.0;
    assert 0.0 <= raw <= amount;
  }

  /** A larger amount never gets a smaller discount from the same coupon. */
  lemma DiscountMonotone(c: Coupon, a: real, b: real)
    requires a <= b
    ensures c.discountPercent > 0.0 ==> Discount(c, a) <= Discount(c, b)
    ensures c.discountPercent <= 0.0 ==> Discount(c, a) == Discount(c, b)
  {
    if c.discountPercent > 0.0 {
      assert a * c.discountPercent <= b * c.discountPercent;
    }
  }

  // The formula is written out four times in the source. Each method below
  // follows one copy statement by statement and is proved to compute
  // `Discount`.

  /** The sort key of the available-coupon list, with its early returns. */
  method AvailableSortKey(c: Coupon, orderAmount: real) returns (key: real)
    ensures key == Discount(c, orderAmount)
  {
    if c.discountPercent > 0.0 {
      var discount := orderAmount * c.discountPercent / 100.0;
      if c.maxDiscountAmount.Some? && discount > c.maxDiscountAmount.value {
        return c.maxDiscountAmount.value;
      }
      return discount;
    }
    return c.discountAmount.GetOr(0.0);
  }

  /** The discount as the controllers write it out, assignment by
      assignment: start from 0, take the percentage share capped by the
      maximum, or else the fixed amount. `Validate`, the checkout's scan for
      the best coupon and the checkout's apply step each carry this code. */
  method SiteDiscount(c: Coupon, amount: real) returns (discount: real)
    ensures discount == Discount(c, amount)
  {
    discount := 0.0;
    if c.discountPercent > 0.0 {
      discount := amount * c.discountPercent / 100.0;
      if c.maxDiscountAmount.Some? && discount > c.maxDiscountAmount.value {
        discount := c.maxDiscountAmount.value;
      }
    } else if c.discountAmount.Some? {
      discount := c.discountAmount.value;
    }
  }

  // ---------------------------------------------------------------------
  // Choosing a coupon at checkout
  // ---------------------------------------------------------------------

  /** Position of the first coupon whose code equals `code` ignoring case
      and that is eligible: the code the customer typed. */
  function TypedCoupon(cs: seq<Coupon>, code: string, subtotal: real, now: Instant): (r: Option<nat>)
    ensures r.Some? ==> r.value < |cs| && Text.EqualsIgnoreCase(cs[r.value].code, code)
                        && Eligible(cs[r.value], subtotal, now)
    ensures r.Some? ==> forall j :: 0 <= j < r.value ==>
                          !(Text.EqualsIgnoreCase(cs[j].code, code) && Eligible(cs[j], subtotal, now))
    ensures r.None? ==> forall j :: 0 <= j < |cs| ==>
                          !(Text.EqualsIgnoreCase(cs[j].code, code) && Eligible(cs[j], subtotal, now))
  {
    Seqs.FindFirst(cs, (c: Coupon) => Text.EqualsIgnoreCase(c.code, code) && Eligible(c, subtotal, now))
  }

  /** `k` is the coupon the automatic choice should make: eligible, with a
      positive discount no other eligible coupon beats, and strictly better
      than every eligible coupon before it. */
  predicate IsBestChoice(cs: seq<Coupon>, subtotal: real, now: Instant, k: nat)
  {
    && k < |cs| && Eligible(cs[k], subtotal, now) && Discount(cs[k], subtotal) > 0.0
    && (forall j :: 0 <= j < |cs| && Eligible(cs[j], subtotal, now) ==> Discount(cs[j], subtotal) <= Discount(cs[k], subtotal))
    && (forall j :: 0 <= j < k && Eligible(cs[j], subtotal, now) ==> Discount(cs[j], subtotal) < Discount(cs[k], subtotal))
  }

  /** At most one coupon is the best choice. */
  lemma BestChoiceUnique(cs: seq<Coupon>, subtotal: real, now: Instant, k1: nat, k2: nat)
    requires IsBestChoice(cs, subtotal, now, k1) && IsBestChoice(cs, subtotal, now, k2)
    ensures k1 == k2
  {
  }

  /** The checkout's scan from position `i`: `best` is the coupon kept so
      far and `max` its discount (0 before any); a coupon replaces it only
      with a strictly larger discount. */
  function BestFrom(cs: seq<Coupon>, subtotal: real, now: Instant, i: nat, best: Option<nat>, max: real): Option<nat>
    requires i <= |cs|
    decreases |cs| - i
  {
    if i == |cs| then best
    else if Eligible(cs[i], subtotal, now) && Discount(cs[i], subtotal) > max then
      BestFrom(cs, subtotal, now, i + 1, Some(i), Discount(cs[i], subtotal))
    else BestFrom(cs, subtotal, now, i + 1, best, max)
  }

  /** The automatic choice: the scan from the start with nothing kept. */
  function BestCoupon(cs: seq<Coupon>, subtotal: real, now: Instant): Option<nat>
  {
    BestFrom(cs, subtotal, now, 0, None, 0.0)
  }

  /** What the scan knows after looking at the first `i` coupons. */
  predicate ScanInvariant(cs: seq<Coupon>, subtotal: real, now: Instant, i: nat, best: Option<nat>, max: real)
    requires i <= |cs|
  {
    && (best.None? ==> max == 0.0 && forall j :: 0 <= j < i && Eligible(cs[j], subtotal, now) ==> Discount(cs[j], subtotal) <= 0.0)
    && (best.Some? ==>
          && best.value < i && Eligible(cs[best.value], subtotal, now)
          && max == Discount(cs[best.value], subtotal) && max > 0.0
          && (forall j :: 0 <= j < i && Eligible(cs[j], subtotal, now) ==> Discount(cs[j], subtotal) <= max)
          && (forall j :: 0 <= j < best.value && Eligible(cs[j], subtotal, now) ==> Discount(cs[j], subtotal) < max))
  }

  lemma {:induction false} BestFromCorrect(cs: seq<Coupon>, subtotal: real, now: Instant, i: nat, best: Option<nat>, max: real)
    requires i <= |cs|
    requires ScanInvariant(cs, subtotal, now, i, best, max)
    ensures var r := BestFrom(cs, subtotal, now, i, best, max);
            && (r.Some? ==> IsBestChoice(cs, subtotal, now, r.value))
            && (r.None? ==> forall j :: 0 <= j < |cs| && Eligible(cs[j], subtotal, now) ==> Discount(cs[j], subtotal) <= 0.0)
    decreases |cs| - i
  {
    if i < |cs| {
      if Eligible(cs[i], subtotal, now) && Discount(cs[i], subtotal) > max {
        BestFromCorrect(cs, subtotal, now, i + 1, Some(i), Discount(cs[i], subtotal));
      } else {
        BestFromCorrect(cs, subtotal, now, i + 1, best, max);
      }
    }
  }

  /** The automatic choice is the best choice, and it makes none exactly
      when no eligible coupon takes anything off. */
  lemma BestCouponCorrect(cs: seq<Coupon>, subtotal: real, now: Instant)
    ensures var r := BestCoupon(cs, subtotal, now);
            && (r.Some? ==> IsBestChoice(cs, subtotal, now, r.value))
            && (r.None? <==> forall j :: 0 <= j < |cs| && Eligible(cs[j], subtotal, now) ==> Discount(cs[j], subtotal) <= 0.0)
  {
    BestFromCorrect(cs, subtotal, now, 0, None, 0.0);
  }

  /** The scan as the source writes it: a loop over the coupons that keeps
      the first strictly largest discount, starting from 0. */
  method AutoSelect(cs: seq<Coupon>, subtotal: real, now: Instant) returns (applied: Option<nat>)
    ensures applied.Some? ==> IsBestChoice(cs, subtotal, now, applied.value)
    ensures applied.None? ==> forall j :: 0 <= j < |cs| && Eligible(cs[j], subtotal, now) ==> Discount(cs[j], subtotal) <= 0.0
    ensures applied == BestCoupon(cs, subtotal, now)
  {
    var maxDiscount := 0.0;
    applied := None;
    var i := 0;
    while i < |cs|
      invariant 0 <= i <= |cs|
      invariant ScanInvariant(cs, subtotal, now, i, applied, maxDiscount)
      invariant BestFrom(cs, subtotal, now, i, applied, maxDiscount) == BestCoupon(cs, subtotal, now)
    {
      if Eligible(cs[i], subtotal, now) {
        var discount := SiteDiscount(cs[i], subtotal);
        if discount > maxDiscount {
          maxDiscount := discount;
          applied := Some(i);
        }
      }
      i := i + 1;
    }
  }

  /** The coupon the checkout applies: the typed code when it names an
      eligible coupon, otherwise the automatic choice. A blank code is
      ignored; the code is matched as typed, without trimming. */
  function SelectCoupon(cs: seq<Coupon>, code: string, subtotal: real, now: Instant): (r: Option<nat>)
    ensures r.Some? ==> r.value < |cs| && Eligible(cs[r.value], subtotal, now)
  {
    var typed := if Text.IsBlank(code) then None else TypedCoupon(cs, code, subtotal, now);
    if typed.Some? then typed
    else
      BestCouponCorrect(cs, subtotal, now);
      BestCoupon(cs, subtotal, now)
  }

  /** A typed code that names an eligible coupon wins, even against a
      coupon with a larger discount; otherwise the choice is the automatic
      one. */
  lemma TypedCodeFirst(cs: seq<Coupon>, code: string, subtotal: real, now: Instant, k: nat)
    requires !Text.IsBlank(code)
    requires k < |cs| && Text.EqualsIgnoreCase(cs[k].code, code) && Eligible(cs[k], subtotal, now)
    ensures SelectCoupon(cs, code, subtotal, now).Some?
    ensures var r := SelectCoupon(cs, code, subtotal, now).value;
            r <= k && Text.EqualsIgnoreCase(cs[r].code, code)
  {
  }

  lemma FallbackIsBest(cs: seq<Coupon>, code: string, subtotal: real, now: Instant)
    requires Text.IsBlank(code) || forall j :: 0 <= j < |cs| ==>
               !(Text.EqualsIgnoreCase(cs[j].code, code) && Eligible(cs[j], subtotal, now))
    ensures SelectCoupon(cs, code, subtotal, now) == BestCoupon(cs, subtotal, now)
  {
  }

  // ---------------------------------------------------------------------
  // The list offered at checkout (`GetAvailableCoupons`)
  // ---------------------------------------------------------------------

  /** Larger discount first. */
  function ByDiscountDesc(amount: real): (Coupon, Coupon) -> bool
  {
    (a: Coupon, b: Coupon) => Discount(a, amount) >= Discount(b, amount)
  }

  lemma ByDiscountDescPreorder(amount: real)
    ensures Seqs.TotalPreorder(ByDiscountDesc(amount))
  {
  }

  /** The usable coupons, largest discount on `amount` first; coupons with
      the same discount keep their catalog order. */
  function AvailableCoupons(cs: seq<Coupon>, amount: real, now: Instant): (r: seq<Coupon>)
    ensures multiset(r) == multiset(Seqs.Filter(cs, (c: Coupon) => Available(c, now)))
    ensures forall c :: c in r <==> c in cs && Available(c, now)
    ensures forall i, j :: 0 <= i < j < |r| ==> Discount(r[i], amount) >= Discount(r[j], amount)
    ensures forall z :: Seqs.EquivClass(r, ByDiscountDesc(amount), z)
                     == Seqs.EquivClass(Seqs.Filter(cs, (c: Coupon) => Available(c, now)), ByDiscountDesc(amount), z)
  {
    var usable := Seqs.Filter(cs, (c: Coupon) => Available(c, now));
    ByDiscountDescPreorder(amount);
    Seqs.SortedMembers(usable, ByDiscountDesc(amount));
    Seqs.SortBy(usable, ByDiscountDesc(amount))
  }

  // ---------------------------------------------------------------------
  // The `Validate` API
  // ---------------------------------------------------------------------

  datatype ValidateError = EmptyCode | InvalidAmount | NotFoundOrExpired | BelowMinimum(minimum: real)

  datatype ValidateReply = Valid(discount: real, description: string) | Invalid(error: ValidateError)

  /** First coupon with the code (ignoring case) that is available; the
      minimum order is not part of the lookup. */
  function ValidateLookup(cs: seq<Coupon>, code: string, now: Instant): (r: Option<nat>)
    ensures r.Some? ==> r.value < |cs| && Text.EqualsIgnoreCase(cs[r.value].code, code) && Available(cs[r.value], now)
    ensures r.Some? ==> forall j :: 0 <= j < r.value ==> !(Text.EqualsIgnoreCase(cs[j].code, code) && Available(cs[j], now))
    ensures r.None? ==> forall j :: 0 <= j < |cs| ==> !(Text.EqualsIgnoreCase(cs[j].code, code) && Available(cs[j], now))
  {
    Seqs.FindFirst(cs, (c: Coupon) => Text.EqualsIgnoreCase(c.code, code) && Available(c, now))
  }

  /** `Validate(code, orderAmount)` (a missing request or code is ""):
      the trimmed code must not be blank and the amount must be positive
      before anything is looked up; a coupon found under its minimum is a
      separate answer; otherwise the reply carries the discount. */
  function Validate(cs: seq<Coupon>, rawCode: string, amount: real, now: Instant): (r: ValidateReply)
    ensures Text.IsBlank(rawCode) ==> r == Invalid(EmptyCode)
    ensures !Text.IsBlank(rawCode) && amount <= 0.0 ==> r == Invalid(InvalidAmount)
    ensures r.Valid? ==>
              && amount > 0.0
              && (exists k :: 0 <= k < |cs| && Text.EqualsIgnoreCase(cs[k].code, Text.Trim(rawCode))
                               && Eligible(cs[k], amount, now) && r.discount == Discount(cs[k], amount)
                               && r.description == cs[k].description)
    ensures r == Invalid(NotFoundOrExpired) <==>
              !Text.IsBlank(rawCode) && amount > 0.0 && ValidateLookup(cs, Text.Trim(rawCode), now).None?
    ensures !Text.IsBlank(rawCode) && amount > 0.0 && ValidateLookup(cs, Text.Trim(rawCode), now).Some? ==>
              var c := cs[ValidateLookup(cs, Text.Trim(rawCode), now).value];
              r == if amount < c.minOrderAmount then Invalid(BelowMinimum(c.minOrderAmount))
                   else Valid(Discount(c, amount), c.description)
  {
    var code := Text.Trim(rawCode);
    Text.TrimBlank(rawCode);
    if Text.IsBlank(code) then Invalid(EmptyCode)
    else if amount <= 0.0 then Invalid(InvalidAmount)
    else
      match ValidateLookup(cs, code, now)
      case None => Invalid(NotFoundOrExpired)
      case Some(k) =>
        if amount < cs[k].minOrderAmount then Invalid(BelowMinimum(cs[k].minOrderAmount))
        else Valid(Discount(cs[k], amount), cs[k].description)
  }

  /** A successful validation of a capped percentage coupon never reports
      more than the cap. */
  lemma ValidateRespectsCap(cs: seq<Coupon>, rawCode: string, amount: real, now: Instant)
    requires Validate(cs, rawCode, amount, now).Valid?
    ensures var k := ValidateLookup(cs, Text.Trim(rawCode), now).value;
            && cs[k].discountPercent > 0.0 && cs[k].maxDiscountAmount.Some? ==>
                 Validate(cs, rawCode, amount, now).discount <= cs[k].maxDiscountAmount.value
  {
    Text.TrimBlank(rawCode);
  }

  /** No two coupons share a code, ignoring case. */
  predicate UniqueCodes(cs: seq<Coupon>)
  {
    forall i, j :: 0 <= i < j < |cs| ==> !Text.EqualsIgnoreCase(cs[i].code, cs[j].code)
  }

  /** With unique codes, `Validate` on a trimmed code and a positive amount
      accepts exactly the coupon the checkout would apply for that typed
      code, with the same discount. */
  lemma ValidateAgreesWithCheckout(cs: seq<Coupon>, code: string, amount: real, now: Instant)
    requires UniqueCodes(cs)
    requires !Text.IsBlank(code) && Text.Trim(code) == code
    requires amount > 0.0
    ensures Validate(cs, code, amount, now).Valid? <==> TypedCoupon(cs, code, amount, now).Some?
    ensures Validate(cs, code, amount, now).Valid? ==>
              Validate(cs, code, amount, now).discount == Discount(cs[TypedCoupon(cs, code, amount, now).value], amount)
  {
    Text.TrimBlank(code);
    var v := ValidateLookup(cs, code, now);
    var t := TypedCoupon(cs, code, amount, now);
    if v.Some? && t.Some? && v.value != t.value {
      EqualsIgnoreCaseSymmetricTransitive(cs[v.value].code, cs[t.value].code, code);
    }
  }

  lemma EqualsIgnoreCaseSymmetricTransitive(a: string, b: string, code: string)
    requires Text.EqualsIgnoreCase(a, code) && Text.EqualsIgnoreCase(b, code)
    ensures Text.EqualsIgnoreCase(a, b)
  {
  }

  /** The checkout does not trim the typed code but `Validate` does, so a
      code with a trailing space is valid for `Validate` and ignored at
      checkout. */
  lemma UntrimmedCodeDiffers(now: Instant)
    ensures var c := Coupon(1, "VIP15", "", 15.0, None, 0.0, None, now, now, 0, 0, true);
            && Validate([c], "VIP15 ", 1000.0, now).Valid?
            && TypedCoupon([c], "VIP15 ", 1000.0, now).None?
  {
    var c := Coupon(1, "VIP15", "", 15.0, None, 0.0, None, now, now, 0, 0, true);
    PaddedCode();
    assert Eligible(c, 1000.0, now);
    assert ValidateLookup([c], "VIP15", now).Some?;
  }

  /** The string facts behind `UntrimmedCodeDiffers`. */
  lemma PaddedCode()
    ensures Text.Trim("VIP15 ") == "VIP15" && !Text.IsBlank("VIP15 ")
    ensures Text.EqualsIgnoreCase("VIP15", "VIP15") && !Text.EqualsIgnoreCase("VIP15", "VIP15 ")
  {
    assert Text.TrimStart("VIP15 ") == "VIP15 ";
    assert Text.TrimEnd("VIP15 ") == Text.TrimEnd("VIP15");
    assert !Text.IsWhiteSpace("VIP15 "[0]);
    assert |Text.ToUpper("VIP15")| != |Text.ToUpper("VIP15 ")|;
  }

  // ---------------------------------------------------------------------
  // Admin operations (`CreatePost`, `EditPost`, `ToggleStatus`,
  // `DeleteConfirmed`)
  // ---------------------------------------------------------------------

  /** Coupon ids increase along the list and stay below the counter, so
      an id names at most one coupon. */
  predicate CouponIdsOrdered(s: Store)
  {
    && (forall i, j :: 0 <= i < j < |s.coupons| ==> s.coupons[i].id < s.coupons[j].id)
    && (forall i :: 0 <= i < |s.coupons| ==> s.coupons[i].id < s.nextCouponId)
  }

  /** Position of the first coupon with the id (`FirstOrDefault(c => c.Id == id)`). */
  function FindCoupon(cs: seq<Coupon>, id: int): (r: Option<nat>)
    ensures r.Some? ==> r.value < |cs| && cs[r.value].id == id
    ensures r.Some? ==> forall j :: 0 <= j < r.value ==> cs[j].id != id
    ensures r.None? ==> forall j :: 0 <= j < |cs| ==> cs[j].id != id
  {
    Seqs.FindFirst(cs, (c: Coupon) => c.id == id)
  }

  /** The form fields: the code as typed, and the results of parsing the
      percentage and the end date (`None` when parsing fails). */
  datatype CouponForm = CouponForm(code: string, percent: Option<real>, endDate: Option<Instant>)

  datatype CreateError =
    | CodeRequired
    | CodeExists
    | CodeFormat
    | PercentOutOfRange
    | EndDateInvalid
    | EndDateNotAfterToday

  datatype CreateOutcome = CreateNotAuthorized | CreateRejected(error: CreateError) | Created(coupon: Coupon)

  const DescriptionPrefix: string := "Giảm "
  const DescriptionMiddle: string := "% - Mã "

  /** The generated description; `percentText` is the percentage as the
      server's culture prints it. */
  function CouponDescription(percentText: string, code: string): string
  {
    DescriptionPrefix + percentText + DescriptionMiddle + code
  }

  /** The code as `CreatePost` stores it: trimmed, then upper-cased. */
  function NormalizeCode(raw: string): string
  {
    Text.ToUpper(Text.Trim(raw))
  }

  predicate CodeTaken(cs: seq<Coupon>, code: string)
  {
    exists i :: 0 <= i < |cs| && Text.EqualsIgnoreCase(cs[i].code, code)
  }

  /** The first failing check of the create form, in the order the form is
      checked; `localNow` is the server's local clock (`DateTime.Now`). */
  function CreateCheck(cs: seq<Coupon>, code: string, percent: real, endDate: Option<Instant>, localNow: Instant)
    : (e: Option<CreateError>)
    ensures e.None? <==>
              && !Text.IsBlank(code) && !CodeTaken(cs, code) && Text.MatchesCodePattern(code)
              && 0.0 < percent <= 100.0
              && endDate.Some? && DateOf(endDate.value) > DateOf(localNow)
  {
    if Text.IsBlank(code) then Some(CodeRequired)
    else if CodeTaken(cs, code) then Some(CodeExists)
    else if !Text.MatchesCodePattern(code) then Some(CodeFormat)
    else if percent <= 0.0 || percent > 100.0 then Some(PercentOutOfRange)
    else if endDate.None? then Some(EndDateInvalid)
    else if DateOf(endDate.value) <= DateOf(localNow) then Some(EndDateNotAfterToday)
    else None
  }

  /** `CreatePost`: an unparseable percentage counts as 0. A new coupon gets
      the next coupon id, starts now, and has no minimum, cap, fixed amount
      or usage limit. */
  function CreatePost(s: Store, isAdmin: bool, form: CouponForm, fmt: real -> string, now: Instant, localNow: Instant)
    : (r: (CreateOutcome, Store))
    ensures !isAdmin ==> r == (CreateNotAuthorized, s)
    ensures !r.0.Created? ==> r.1 == s
    ensures isAdmin ==>
      var code := NormalizeCode(form.code);
      && (r.0 == CreateRejected(CodeRequired) <==> Text.Trim(form.code) == [])
      && (r.0 == CreateRejected(CodeExists) <==> Text.Trim(form.code) != [] && CodeTaken(s.coupons, code))
      && (r.0 == CreateRejected(CodeFormat) <==>
            Text.Trim(form.code) != [] && !CodeTaken(s.coupons, code) && !Text.CodeBody(code))
      && (r.0 == CreateRejected(PercentOutOfRange) <==>
            Text.Trim(form.code) != [] && !CodeTaken(s.coupons, code) && Text.CodeBody(code)
            && !(0.0 < form.percent.GetOr(0.0) <= 100.0))
    ensures isAdmin ==>
      var code := NormalizeCode(form.code);
      var early := Text.Trim(form.code) != [] && !CodeTaken(s.coupons, code) && Text.CodeBody(code)
                   && 0.0 < form.percent.GetOr(0.0) <= 100.0;
      && (r.0 == CreateRejected(EndDateInvalid) <==> early && form.endDate.None?)
      && (r.0 == CreateRejected(EndDateNotAfterToday) <==>
            early && form.endDate.Some? && DateOf(form.endDate.value) <= DateOf(localNow))
      && (r.0.Created? <==> early && form.endDate.Some? && DateOf(form.endDate.value) > DateOf(localNow))
    ensures r.0.Created? ==>
      var c := r.0.coupon;
      && r.1 == s.(coupons := s.coupons + [c], nextCouponId := s.nextCouponId + 1)
      && c.id == s.nextCouponId && c.code == NormalizeCode(form.code)
      && Text.CodeBody(c.code) && !CodeTaken(s.coupons, c.code)
      && 0.0 < c.discountPercent <= 100.0 && form.percent == Some(c.discountPercent)
      && form.endDate == Some(c.endDate) && DateOf(c.endDate) > DateOf(localNow)
      && c.startDate == now
      && c.minOrderAmount == 0.0 && c.usageLimit == 0 && c.usedCount == 0 && c.isActive
      && c.discountAmount.None? && c.maxDiscountAmount.None?
  {
    if !isAdmin then (CreateNotAuthorized, s)
    else
      var code := NormalizeCode(form.code);
      var percent := form.percent.GetOr(0.0);
      NormalizedCodeFacts(form.code);
      match CreateCheck(s.coupons, code, percent, form.endDate, localNow)
      case Some(e) => (CreateRejected(e), s)
      case None =>
        var c := NewCoupon(s.nextCouponId, code, CouponDescription(fmt(percent), code), now, form.endDate.value)
                   .(discountPercent := percent);
        (Created(c), s.(coupons := s.coupons + [c], nextCouponId := s.nextCouponId + 1))
  }

  /** The normalised code is blank exactly when the trimmed input is empty,
      and the line-feed allowance of the pattern never applies to it. */
  lemma NormalizedCodeFacts(raw: string)
    ensures Text.IsBlank(NormalizeCode(raw)) <==> Text.Trim(raw) == []
    ensures Text.MatchesCodePattern(NormalizeCode(raw)) <==> Text.CodeBody(NormalizeCode(raw))
  {
    var t := Text.Trim(raw);
    var u := NormalizeCode(raw);
    Text.TrimBlank(raw);
    if t != [] {
      assert !Text.IsWhiteSpace(u[0]) by {
        assert u[0] == Text.UpperChar(t[0]);
      }
      assert !Text.IsWhiteSpace(u[|u| - 1]) by {
        assert u[|u| - 1] == Text.UpperChar(t[|t| - 1]);
      }
    }
    Text.TrimmedCodePattern(u);
  }

  /** Creating a coupon keeps codes unique and ids ordered. */
  lemma CreateKeepsInvariants(s: Store, isAdmin: bool, form: CouponForm, fmt: real -> string, now: Instant, localNow: Instant)
    requires UniqueCodes(s.coupons) && CouponIdsOrdered(s)
    ensures var r := CreatePost(s, isAdmin, form, fmt, now, localNow).1;
            UniqueCodes(r.coupons) && CouponIdsOrdered(r)
  {
    var r := CreatePost(s, isAdmin, form, fmt, now, localNow);
    if r.0.Created? {
      var c := r.0.coupon;
      assert r.1 == s.(coupons := s.coupons + [c], nextCouponId := s.nextCouponId + 1);
      AppendKeepsInvariants(s, c);
    }
  }

  /** Appending a coupon whose code is not taken, under the next id, keeps
      codes unique and ids ordered. */
  lemma AppendKeepsInvariants(s: Store, c: Coupon)
    requires UniqueCodes(s.coupons) && CouponIdsOrdered(s)
    requires !CodeTaken(s.coupons, c.code) && c.id == s.nextCouponId
    ensures UniqueCodes(s.coupons + [c])
    ensures CouponIdsOrdered(s.(coupons := s.coupons + [c], nextCouponId := s.nextCouponId + 1))
  {
    forall i | 0 <= i < |s.coupons|
      ensures !Text.EqualsIgnoreCase(s.coupons[i].code, c.code)
    {
    }
  }

  /** The edit form: the parsed percentage and end date, and the raw
      "IsActive" field. */
  datatype EditForm = EditForm(percent: Option<real>, endDate: Option<Instant>, isActive: string)

  datatype EditOutcome = EditNotAuthorized | EditNotFound | EditRejected | Edited(coupon: Coupon)

  /** `EditPost`: an unparseable percentage keeps the old one, the active
      flag is on only for the exact text "true", and an unparseable end
      date rejects the edit. The percentage is not range-checked and the
      code never changes. */
  function EditPost(s: Store, isAdmin: bool, id: int, form: EditForm, fmt: real -> string): (r: (EditOutcome, Store))
    ensures !isAdmin ==> r == (EditNotAuthorized, s)
    ensures !r.0.Edited? ==> r.1 == s
    ensures isAdmin ==> (r.0 == EditNotFound <==> FindCoupon(s.coupons, id).None?)
    ensures isAdmin ==> (r.0 == EditRejected <==> FindCoupon(s.coupons, id).Some? && form.endDate.None?)
    ensures r.0.Edited? ==>
      var k := FindCoupon(s.coupons, id).value;
      var old_ := s.coupons[k];
      var pct := form.percent.GetOr(old_.discountPercent);
      && r.1 == s.(coupons := s.coupons[k := r.0.coupon])
      && r.0.coupon == old_.(discountPercent := pct, endDate := form.endDate.value,
                              isActive := form.isActive == "true",
                              description := CouponDescription(fmt(pct), old_.code))
  {
    if !isAdmin then (EditNotAuthorized, s)
    else
      match FindCoupon(s.coupons, id)
      case None => (EditNotFound, s)
      case Some(k) =>
        var existing := s.coupons[k];
        var pct := form.percent.GetOr(existing.discountPercent);
        if form.endDate.None? then (EditRejected, s)
        else
          var c := existing.(discountPercent := pct, endDate := form.endDate.value,
                             isActive := form.isActive == "true",
                             description := CouponDescription(fmt(pct), existing.code));
          (Edited(c), s.(coupons := s.coupons[k := c]))
  }

  /** Any percentage is stored by an edit, even one the create form rejects. */
  lemma EditSkipsPercentRange(s: Store, id: int, end: Instant, fmt: real -> string)
    requires FindCoupon(s.coupons, id).Some?
    ensures var r := EditPost(s, true, id, EditForm(Some(250.0), Some(end), "true"), fmt);
            r.0.Edited? && r.0.coupon.discountPercent == 250.0
  {
  }

  /** Editing keeps codes unique and ids ordered. */
  lemma EditKeepsInvariants(s: Store, isAdmin: bool, id: int, form: EditForm, fmt: real -> string)
    requires UniqueCodes(s.coupons) && CouponIdsOrdered(s)
    ensures var r := EditPost(s, isAdmin, id, form, fmt).1;
            UniqueCodes(r.coupons) && CouponIdsOrdered(r)
  {
  }

  /** `ToggleStatus`: flips the active flag of the coupon with the id;
      nothing happens for an unknown id. */
  function ToggleStatus(s: Store, isAdmin: bool, id: int): (r: Store)
    ensures !isAdmin || FindCoupon(s.coupons, id).None? ==> r == s
    ensures isAdmin && FindCoupon(s.coupons, id).Some? ==>
              var k := FindCoupon(s.coupons, id).value;
              r == s.(coupons := s.coupons[k := s.coupons[k].(isActive := !s.coupons[k].isActive)])
  {
    if !isAdmin then s
    else
      match FindCoupon(s.coupons, id)
      case None => s
      case Some(k) => s.(coupons := s.coupons[k := s.coupons[k].(isActive := !s.coupons[k].isActive)])
  }

  /** Toggling twice restores the store. */
  lemma ToggleTwice(s: Store, isAdmin: bool, id: int)
    ensures ToggleStatus(ToggleStatus(s, isAdmin, id), isAdmin, id) == s
  {
    var t := ToggleStatus(s, isAdmin, id);
    if isAdmin && FindCoupon(s.coupons, id).Some? {
      var k := FindCoupon(s.coupons, id).value;
      assert forall j :: 0 <= j < |s.coupons| ==> t.coupons[j].id == s.coupons[j].id;
      assert FindCoupon(t.coupons, id) == Some(k);
    }
  }

  /** `DeleteConfirmed`: removes the coupon with the id; nothing happens for
      an unknown id. */
  function DeleteConfirmed(s: Store, isAdmin: bool, id: int): (r: Store)
    ensures !isAdmin || FindCoupon(s.coupons, id).None? ==> r == s
    ensures isAdmin && FindCoupon(s.coupons, id).Some? ==>
              r == s.(coupons := Seqs.RemoveAt(s.coupons, FindCoupon(s.coupons, id).value))
  {
    if !isAdmin then s
    else
      match FindCoupon(s.coupons, id)
      case None => s
      case Some(k) => s.(coupons := Seqs.RemoveAt(s.coupons, k))
  }

  /** With ordered ids, no coupon with the id is left after a delete, and
      every other coupon is still there. */
  lemma DeleteRemovesId(s: Store, id: int)
    requires CouponIdsOrdered(s)
    ensures var r := DeleteConfirmed(s, true, id);
            && (forall c :: c in r.coupons ==> c.id != id)
            && (forall c :: c in s.coupons && c.id != id ==> c in r.coupons)
            && CouponIdsOrdered(r)
  {
    var r := DeleteConfirmed(s, true, id);
    match FindCoupon(s.coupons, id)
    case None =>
    case Some(k) =>
      assert r.coupons == Seqs.RemoveAt(s.coupons, k);
      Seqs.RemoveAtKeeps(s.coupons, k);
      Seqs.RemoveAtIncreasing(s.coupons, k, (c: Coupon) => c.id);
  }
}

=== FILE: datastore.dfy ===
/** The in-memory data store: six lists standing in for database tables,
    six auto-increment id counters, the idempotent seeding, `Reset`, and
    the navigation links `PopulateNavigationProperties` fills in. The
    static state of the source is an explicit `Store` value here. */
module DataStore {
  import opened Wrappers
  import opened Calendar
  import opened Models
  import Seqs

  datatype Store = Store(
    products: seq<Product>,
    orders: seq<Order>,
    orderDetails: seq<OrderDetail>,
    users: seq<User>,
    categories: seq<Category>,
    coupons: seq<Coupon>,
    nextProductId: nat,
    nextOrderId: nat,
    nextUserId: nat,
    nextCategoryId: nat,
    nextCouponId: nat,
    nextOrderDetailId: nat)

  /** The state before anything is seeded: empty tables, every counter at 1. */
  const Empty: Store := Store([], [], [], [], [], [], 1, 1, 1, 1, 1, 1)

  /** Same tables, whatever the counters. */
  predicate SameTables(a: Store, b: Store)
  {
    && a.products == b.products && a.orders == b.orders && a.orderDetails == b.orderDetails
    && a.users == b.users && a.categories == b.categories && a.coupons == b.coupons
  }

  // ---------------------------------------------------------------------
  // Id counters (`GetNextProductId`, ..., `GetNextOrderDetailId`)
  // ---------------------------------------------------------------------

  datatype IdKind = ProductIds | OrderIds | UserIds | CategoryIds | CouponIds | OrderDetailIds

  function NextId(s: Store, k: IdKind): nat
  {
    match k
    case ProductIds => s.nextProductId
    case OrderIds => s.nextOrderId
    case UserIds => s.nextUserId
    case CategoryIds => s.nextCategoryId
    case CouponIds => s.nextCouponId
    case OrderDetailIds => s.nextOrderDetailId
  }

  function SetNextId(s: Store, k: IdKind, v: nat): (r: Store)
    ensures NextId(r, k) == v
    ensures forall k' :: k' != k ==> NextId(r, k') == NextId(s, k')
    ensures SameTables(r, s)
  {
    match k
    case ProductIds => s.(nextProductId := v)
    case OrderIds => s.(nextOrderId := v)
    case UserIds => s.(nextUserId := v)
    case CategoryIds => s.(nextCategoryId := v)
    case CouponIds => s.(nextCouponId := v)
    case OrderDetailIds => s.(nextOrderDetailId := v)
  }

  /** `GetNext*Id()`: the counter's value, with the counter moved on by
      one; the tables and the other counters are untouched. */
  function TakeId(s: Store, k: IdKind): (r: (nat, Store))
    ensures r.0 == NextId(s, k) && NextId(r.1, k) == r.0 + 1
    ensures forall k' :: k' != k ==> NextId(r.1, k') == NextId(s, k')
    ensures SameTables(r.1, s)
  {
    (NextId(s, k), SetNextId(s, k, NextId(s, k) + 1))
  }

  /** `n` successive `GetNext*Id()` calls, in order. */
  function TakeIds(s: Store, k: IdKind, n: nat): (r: (seq<nat>, Store))
    decreases n
    ensures |r.0| == n
    ensures forall i :: 0 <= i < n ==> r.0[i] == NextId(s, k) + i
    ensures NextId(r.1, k) == NextId(s, k) + n
    ensures forall k' :: k' != k ==> NextId(r.1, k') == NextId(s, k')
    ensures SameTables(r.1, s)
  {
    if n == 0 then ([], s)
    else
      var (first, s1) := TakeId(s, k);
      var (rest, s2) := TakeIds(s1, k, n - 1);
      ([first] + rest, s2)
  }

  /** Two successive ids of a kind differ by exactly one. */
  lemma SuccessiveIds(s: Store, k: IdKind)
    ensures TakeId(TakeId(s, k).1, k).0 == TakeId(s, k).0 + 1
  {
  }

  // ---------------------------------------------------------------------
  // Seed data (`Initialize`)
  // ---------------------------------------------------------------------

  // Each seed row is a constant with a placeholder id (and, for coupons,
  // placeholder dates); `Initialize` numbers them from the counters.

  const TayGaCategory: Category := Category(0, "Xe Tay Ga", Some("Xe số tự động, tiện lợi đô thị"), None)
  const XeSoCategory: Category := Category(0, "Xe Số", Some("Xe số côn, tiết kiệm nhiên liệu"), None)
  const PhuTungCategory: Category := Category(0, "Phụ Tùng", Some("Phụ tùng chính hãng"), None)
  const PhanKhoiLonCategory: Category := Category(0, "Xe Phân Khối Lớn", Some("Xe PKL, mạnh mẽ"), None)

  function SeedCategories(first: int): (r: seq<Category>)
    ensures |r| == 4 && forall i :: 0 <= i < 4 ==> r[i].id == first + i
  {
    [ TayGaCategory.(id := first), XeSoCategory.(id := first + 1),
      PhuTungCategory.(id := first + 2), PhanKhoiLonCategory.(id := first + 3) ]
  }

  const AirBlade160: Product :=
    Product(0, "Honda Air Blade 160", "Honda", "160cc", "5.5L", 4.8, 48990000.0, Some(57500000.0),
            "/images/airblade160.jpg", Some(15), None, Some(1), Some("Thiết kế thể thao, động cơ eSP+"),
            Some(50), Some("Đỏ, Đen, Xám"), Some("3 năm"))
  const Exciter155: Product :=
    Product(0, "Yamaha Exciter 155 VVA", "Yamaha", "155cc", "5.0L", 4.9, 52490000.0, None,
            "/images/exciter155.jpg", None, Some("new"), Some(2), Some("Công nghệ VVA, phanh ABS"),
            Some(30), Some("Xanh GP, Đen, Đỏ"), Some("3 năm"))
  const Vision2024: Product :=
    Product(0, "Honda Vision 2024", "Honda", "110cc", "5.2L", 4.7, 32990000.0, None,
            "/images/vision2024.jpg", None, None, Some(1), Some("Sang trọng, tiết kiệm"),
            Some(80), Some("Bạc, Đen, Nâu"), Some("3 năm"))
  const JanusPremium: Product :=
    Product(0, "Yamaha Janus Premium", "Yamaha", "125cc", "5.5L", 4.6, 33500000.0, None,
            "/images/janus.jpg", None, Some("hot"), Some(1), Some("Thiết kế retro độc đáo"),
            Some(45), Some("Xanh Mint, Vàng, Hồng"), Some("3 năm"))
  const CastrolOil: Product :=
    Product(0, "Nhớt Castrol Power 1 10W-40", "Castrol", "1L", "N/A", 4.8, 185000.0, Some(220000.0),
            "/images/Spare/nhot-castrol.jpg", Some(16), None, Some(3),
            Some("Nhớt xe số 4 thì cao cấp, bảo vệ động cơ tối ưu"), Some(200), Some("N/A"), Some("12 tháng"))
  const MichelinTyre: Product :=
    Product(0, "Lốp Michelin City Grip 80/90-14", "Michelin", "80/90-14", "N/A", 4.9, 420000.0, None,
            "/images/Spare/lop-michelin.jpg", None, Some("hot"), Some(3),
            Some("Lốp xe tay ga, độ bám đường tốt, chống trơn trượt"), Some(150), Some("Đen"), Some("6 tháng"))
  const GsBattery: Product :=
    Product(0, "Ắc quy GS GTZ7V 12V-6Ah", "GS Battery", "12V-6Ah", "N/A", 4.7, 450000.0, None,
            "/images/Spare/acquy-gs.jpg", None, None, Some(3),
            Some("Ắc quy khô MF, không cần bảo dưỡng"), Some(100), Some("N/A"), Some("18 tháng"))
  const BremboBrake: Product :=
    Product(0, "Phanh ABS Brembo Z04 cho Exciter", "Brembo", "N/A", "N/A", 4.9, 1250000.0, None,
            "/images/Spare/phanh-brembo.jpg", None, Some("new"), Some(3),
            Some("Má phanh hiệu suất cao, độ bền vượt trội"), Some(80), Some("Đen"), Some("24 tháng"))
  const KyMirror: Product :=
    Product(0, "Gương chiếu hậu KY Universal", "KY", "8mm/10mm", "N/A", 4.5, 145000.0, Some(180000.0),
            "/images/Spare/guong-ky.jpg", Some(19), None, Some(3),
            Some("Gương tròn cao cấp, gắn được mọi loại xe"), Some(300), Some("Đen, Chrome"), Some("6 tháng"))
  const L4xLight: Product :=
    Product(0, "Đèn LED trợ sáng L4X 40W", "L4X", "40W", "N/A", 4.8, 380000.0, None,
            "/images/Spare/den-led-l4x.jpg", None, Some("hot"), Some(3),
            Some("Đèn LED siêu sáng, tiết kiệm điện"), Some(120), Some("Trắng, Vàng"), Some("12 tháng"))
  const GiviBox: Product :=
    Product(0, "Baga GIVI E230 cho SH/Vision", "GIVI", "N/A", "N/A", 4.9, 2850000.0, None,
            "/images/Spare/baga-givi.jpg", None, None, Some(3),
            Some("Thùng sau cao cấp, chứa được 1 nón bảo hiểm"), Some(50), Some("Đen, Bạc"), Some("24 tháng"))
  const TakanoSeat: Product :=
    Product(0, "Yên độ Takano cho Winner/Exciter", "Takano", "N/A", "N/A", 4.7, 950000.0, None,
            "/images/Spare/yen-takano.jpg", None, None, Some(3),
            Some("Yên cao su non, êm ái cho chặng đường dài"), Some(70), Some("Đen, Đỏ phối đen"), Some("12 tháng"))
  const KinbarLock: Product :=
    Product(0, "Khóa đĩa Kinbar chống trộm", "Kinbar", "N/A", "N/A", 4.6, 420000.0, Some(500000.0),
            "/images/Spare/khoa-kinbar.jpg", Some(16), None, Some(3),
            Some("Khóa đĩa cao cấp, chống cắt, chống phá"), Some(150), Some("Vàng, Đỏ"), Some("36 tháng"))
  const DnaFilter: Product :=
    Product(0, "Bộ lọc gió DNA cho Air Blade/Vision", "DNA", "N/A", "N/A", 4.8, 680000.0, None,
            "/images/Spare/loc-gio-dna.jpg", None, Some("new"), Some(3),
            Some("Lọc gió cao cấp, tăng công suất động cơ"), Some(90), Some("Đỏ, Xanh"),
            Some("Trọn đời (có thể giặt tái sử dụng)"))

  /** The seeded products in seeding order. */
  function SeedProduct(i: nat): Product
    requires i < 14
  {
    match i
    case 0 => AirBlade160
    case 1 => Exciter155
    case 2 => Vision2024
    case 3 => JanusPremium
    case 4 => CastrolOil
    case 5 => MichelinTyre
    case 6 => GsBattery
    case 7 => BremboBrake
    case 8 => KyMirror
    case 9 => L4xLight
    case 10 => GiviBox
    case 11 => TakanoSeat
    case 12 => KinbarLock
    case _ => DnaFilter
  }

  function SeedProducts(first: int): (r: seq<Product>)
    ensures |r| == 14 && forall i :: 0 <= i < 14 ==> r[i] == SeedProduct(i).(id := first + i)
  {
    seq(14, i requires 0 <= i < 14 => SeedProduct(i).(id := first + i))
  }

  const Welcome10: Coupon :=
    Coupon(0, "WELCOME10", "Giảm 10% cho đơn đầu tiên", 10.0, None, 5000000.0, Some(2000000.0), 0, 0, 100, 0, true)
  const Summer2024: Coupon :=
    Coupon(0, "SUMMER2024", "Khuyến mãi hè - Giảm 1 triệu", 0.0, Some(1000000.0), 30000000.0, None, 0, 0, 50, 0, true)
  const Vip15: Coupon :=
    Coupon(0, "VIP15", "Giảm 15% cho khách VIP", 15.0, None, 10000000.0, Some(5000000.0), 0, 0, 0, 0, true)

  /** WELCOME10 for three months, SUMMER2024 for two, VIP15 for a year, all
      starting at `now`. */
  function SeedCoupons(first: int, now: Instant): (r: seq<Coupon>)
    ensures |r| == 3 && forall i :: 0 <= i < 3 ==> r[i].id == first + i && r[i].startDate == now
  {
    [ Welcome10.(id := first, startDate := now, endDate := AddMonths(now, 3)),
      Summer2024.(id := first + 1, startDate := now, endDate := AddMonths(now, 2)),
      Vip15.(id := first + 2, startDate := now, endDate := AddYears(now, 1)) ]
  }

  function SeedUsers(first: int, now: Instant): (r: seq<User>)
    ensures |r| == 1 && r[0].id == first && r[0].role == AdminRole
  {
    [ User(first, "admin@motobike.vn", "Administrator", Some("0901234567"), None, AdminRole, now, true) ]
  }

  /** The seeding branch of `Initialize`. */
  function Seed(s: Store, now: Instant): (r: Store)
    ensures |r.categories| == 4 && |r.products| == 14 && |r.coupons| == 3 && |r.users| == 1
    ensures forall i :: 0 <= i < 4 ==> r.categories[i].id == s.nextCategoryId + i
    ensures forall i :: 0 <= i < 14 ==> r.products[i].id == s.nextProductId + i
    ensures forall i :: 0 <= i < 3 ==> r.coupons[i].id == s.nextCouponId + i
    ensures r.users[0].id == s.nextUserId
    ensures r.nextCategoryId == s.nextCategoryId + 4 && r.nextProductId == s.nextProductId + 14
    ensures r.nextCouponId == s.nextCouponId + 3 && r.nextUserId == s.nextUserId + 1
    ensures r.nextOrderId == s.nextOrderId && r.nextOrderDetailId == s.nextOrderDetailId
    ensures r.orders == s.orders && r.orderDetails == s.orderDetails
  {
    var cs := SeedCategories(s.nextCategoryId);
    var ps := SeedProducts(s.nextProductId);
    var ks := SeedCoupons(s.nextCouponId, now);
    var us := SeedUsers(s.nextUserId, now);
    Store(ps, s.orders, s.orderDetails, us, cs, ks,
          s.nextProductId + 14, s.nextOrderId, s.nextUserId + 1,
          s.nextCategoryId + 4, s.nextCouponId + 3, s.nextOrderDetailId)
  }

  /** `Initialize()`: nothing when there are products already; otherwise
      the category, product, coupon and user tables are replaced by the
      seed data, numbered from the current counters. Orders are kept. */
  function Initialize(s: Store, now: Instant): (r: Store)
    ensures |s.products| > 0 ==> r == s
    ensures |s.products| == 0 ==> r == Seed(s, now) && |r.products| == 14
  {
    if |s.products| > 0 then s else Seed(s, now)
  }

  /** A second `Initialize` changes nothing, whenever it runs. */
  lemma InitializeIdempotent(s: Store, now: Instant, later: Instant)
    ensures Initialize(Initialize(s, now), later) == Initialize(s, now)
  {
  }

  /** `Reset()`: every table emptied, every counter back to 1, then seeded. */
  function Reset(s: Store, now: Instant): (r: Store)
    ensures r == Initialize(Empty, now)
  {
    var cleared := s.(products := [], orders := [], orderDetails := [], users := [], categories := [], coupons := [],
                      nextProductId := 1, nextOrderId := 1, nextUserId := 1, nextCategoryId := 1,
                      nextCouponId := 1, nextOrderDetailId := 1);
    Initialize(cleared, now)
  }

  /** After `Reset` the seed rows are numbered from 1, nothing else exists,
      and the next coupon id is 4, whatever the store held before. */
  lemma ResetNumbering(s: Store, t: Store, now: Instant)
    ensures Reset(s, now) == Reset(t, now)
    ensures var r := Reset(s, now);
            && (forall i :: 0 <= i < |r.products| ==> r.products[i].id == i + 1)
            && (forall i :: 0 <= i < |r.categories| ==> r.categories[i].id == i + 1)
            && (forall i :: 0 <= i < |r.coupons| ==> r.coupons[i].id == i + 1)
            && |r.products| == 14 && |r.coupons| == 3 && |r.users| == 1 && r.users[0].id == 1
            && r.orders == [] && r.orderDetails == []
            && r.nextCouponId == 4 && r.nextProductId == 15 && r.nextCategoryId == 5
            && r.nextUserId == 2 && r.nextOrderId == 1 && r.nextOrderDetailId == 1
  {
  }

  // ---------------------------------------------------------------------
  // Navigation links (`PopulateNavigationProperties`)
  // ---------------------------------------------------------------------

  /** `product.Category`: the first category with the product's category id,
      none when the product has no category id. */
  function CategoryOf(s: Store, p: Product): (r: Option<Category>)
    ensures r.Some? ==> r.value in s.categories && p.categoryId == Some(r.value.id)
    ensures r.None? ==> forall c :: c in s.categories ==> p.categoryId != Some(c.id)
  {
    match Seqs.FindFirst(s.categories, (c: Category) => p.categoryId == Some(c.id))
    case Some(i) => Some(s.categories[i])
    case None => None
  }

  /** `order.User`. */
  function UserOf(s: Store, o: Order): (r: Option<User>)
    ensures r.Some? ==> r.value in s.users && o.userId == Some(r.value.id)
    ensures r.None? ==> forall u :: u in s.users ==> o.userId != Some(u.id)
  {
    match Seqs.FindFirst(s.users, (u: User) => o.userId == Some(u.id))
    case Some(i) => Some(s.users[i])
    case None => None
  }

  /** `order.Coupon`. */
  function CouponOf(s: Store, o: Order): (r: Option<Coupon>)
    ensures r.Some? ==> r.value in s.coupons && o.couponId == Some(r.value.id)
    ensures r.None? ==> forall c :: c in s.coupons ==> o.couponId != Some(c.id)
  {
    match Seqs.FindFirst(s.coupons, (c: Coupon) => o.couponId == Some(c.id))
    case Some(i) => Some(s.coupons[i])
    case None => None
  }

  /** `detail.Product`. */
  function ProductOf(s: Store, d: OrderDetail): (r: Option<Product>)
    ensures r.Some? ==> r.value in s.products && r.value.id == d.productId
    ensures r.None? ==> forall p :: p in s.products ==> p.id != d.productId
  {
    match Seqs.FindFirst(s.products, (p: Product) => p.id == d.productId)
    case Some(i) => Some(s.products[i])
    case None => None
  }

  function DetailsOf(s: Store, orderId: int): seq<OrderDetail>
  {
    Seqs.Filter(s.orderDetails, (d: OrderDetail) => d.orderId == orderId)
  }

  /** The one stored navigation field: each order's `Details` replaced by the
      rows of the detail table carrying its id, in table order. */
  function PopulateNavigation(s: Store): (r: Store)
    ensures |r.orders| == |s.orders|
    ensures forall i :: 0 <= i < |s.orders| ==> r.orders[i] == s.orders[i].(details := r.orders[i].details)
    ensures forall i, d :: 0 <= i < |s.orders| ==>
              (d in r.orders[i].details <==> d in s.orderDetails && d.orderId == s.orders[i].id)
    ensures r == s.(orders := r.orders)
  {
    s.(orders := seq(|s.orders|, i requires 0 <= i < |s.orders| => s.orders[i].(details := DetailsOf(s, s.orders[i].id))))
  }
}

=== FILE: models.dfy ===
/** The entities of the store: categories, products, coupons, orders with
    their detail lines, and users. Money (`decimal`) is an exact `real`;
    `DateTime` is a `Calendar.Instant`; a nullable field is an `Option`.
    Navigation properties (`Product.Category`, `Order.Details`, ...) are
    computed by `Store.Navigation` instead of being stored. */
module Models {
  import opened Wrappers
  import opened Calendar

  datatype Category = Category(
    id: int,
    name: string,
    description: Option<string>,
    imageUrl: Option<string>)

  /** `Product.Stock` when the form or the seed gives none. */
  const DefaultStock: int := 100

  datatype Product = Product(
    id: int,
    name: string,
    brand: string,
    engine: string,
    fuel: string,
    rating: real,
    price: real,
    oldPrice: Option<real>,
    imageUrl: string,
    discountPercent: Option<int>,
    badge: Option<string>,
    categoryId: Option<int>,
    description: Option<string>,
    stock: Option<int>,
    color: Option<string>,
    warranty: Option<string>)

  /** A discount code. `discountPercent` is used when positive, otherwise
      the fixed `discountAmount`; `maxDiscountAmount` caps a percentage.
      The window `[startDate, endDate]` is inclusive at both ends, and a
      `usageLimit` of 0 means the code can be used any number of times. */
  datatype Coupon = Coupon(
    id: int,
    code: string,
    description: string,
    discountPercent: real,
    discountAmount: Option<real>,
    minOrderAmount: real,
    maxDiscountAmount: Option<real>,
    startDate: Instant,
    endDate: Instant,
    usageLimit: int,
    usedCount: int,
    isActive: bool)

  /** The defaults of a `new Coupon { Id, Code, Description, StartDate,
      EndDate }`: no discount yet, no minimum, no cap, unlimited, unused,
      active. */
  function NewCoupon(id: int, code: string, description: string, start: Instant, end: Instant): (c: Coupon)
    ensures c.minOrderAmount == 0.0 && c.usageLimit == 0 && c.usedCount == 0 && c.isActive
    ensures c.discountPercent == 0.0 && c.discountAmount.None? && c.maxDiscountAmount.None?
  {
    Coupon(id, code, description, 0.0, None, 0.0, None, start, end, 0, 0, true)
  }

  /** A coupon can still be used: 0 means no limit. */
  predicate UsageAvailable(c: Coupon)
  {
    c.usageLimit == 0 || c.usedCount < c.usageLimit
  }

  /** One more use of the coupon (`UsedCount++`). */
  function Use(c: Coupon): (r: Coupon)
    ensures r.usedCount == c.usedCount + 1
    ensures r == c.(usedCount := r.usedCount)
  {
    c.(usedCount := c.usedCount + 1)
  }

  function UseTimes(c: Coupon, k: nat): Coupon
  {
    if k == 0 then c else Use(UseTimes(c, k - 1))
  }

  /** An unlimited coupon stays usable whatever it has been used for; a
      limited one stays usable for exactly the uses left below its limit. */
  lemma {:induction false} UsageAfterUses(c: Coupon, k: nat)
    ensures UseTimes(c, k) == c.(usedCount := c.usedCount + k)
    ensures UsageAvailable(UseTimes(c, k)) <==> c.usageLimit == 0 || c.usedCount + k < c.usageLimit
  {
    if k > 0 {
      UsageAfterUses(c, k - 1);
    }
  }

  const PendingStatus: string := "Pending"
  const ShippingStatus: string := "Shipping"
  const DeliveredStatus: string := "Delivered"
  const CancelledStatus: string := "Cancelled"

  datatype OrderDetail = OrderDetail(
    id: int,
    orderId: int,
    productId: int,
    quantity: int,
    unitPrice: real)

  datatype Order = Order(
    id: int,
    userId: Option<int>,
    customerName: string,
    phone: string,
    address: string,
    email: Option<string>,
    notes: Option<string>,
    orderDate: Instant,
    status: string,
    paymentMethod: string,
    orderCode: string,
    trackingNumber: Option<string>,
    shippedDate: Option<Instant>,
    deliveredDate: Option<Instant>,
    couponId: Option<int>,
    discountAmount: real,
    subtotal: real,
    shippingFee: real,
    total: real,
    details: seq<OrderDetail>)

  /** `new Order()` at time `now`: pending, nothing charged, no coupon. */
  function NewOrder(now: Instant): (o: Order)
    ensures o.status == PendingStatus && o.orderDate == now
    ensures o.discountAmount == 0.0 && o.shippingFee == 0.0 && o.couponId.None?
    ensures o.details == [] && o.userId.None?
  {
    Order(0, None, "", "", "", None, None, now, PendingStatus, "", "",
          None, None, None, None, 0.0, 0.0, 0.0, 0.0, [])
  }

  /** The user fields the model uses; the password hash is not modelled. */
  datatype User = User(
    id: int,
    email: string,
    fullName: string,
    phone: Option<string>,
    address: Option<string>,
    role: string,
    createdAt: Instant,
    isActive: bool)

  const AdminRole: string := "Admin"
  const CustomerRole: string := "Customer"
}

=== FILE: products.dfy ===
/** The admin product pages (`ProductsController`): the create form's
    normalisation and validation, the edit form that writes before it
    validates, the copy list of the edit page, and deletion. Saving and
    deleting image files is I/O and is left out; the uploaded file is its
    name and length, and the fresh GUID that names the saved copy is a
    parameter. */
module Products {
  import opened Wrappers
  import opened Models
  import opened DataStore
  import Seqs
  import Text

  // ---------------------------------------------------------------------
  // Form fields and the uploaded image
  // ---------------------------------------------------------------------

  /** The posted form: the text fields as sent (`Request.Form[...]` gives
      "" for a missing field) and the results of `decimal.TryParse` /
      `int.TryParse` on the numeric ones (`None` when parsing fails). */
  datatype ProductForm = ProductForm(
    name: string,
    brand: string,
    engine: string,
    fuel: string,
    badge: string,
    color: string,
    warranty: string,
    description: string,
    price: Option<real>,
    oldPrice: Option<real>,
    discountPercent: Option<int>,
    rating: Option<real>,
    stock: Option<int>,
    categoryId: Option<int>)

  /** An uploaded file (`IFormFile`): the client's file name and the size in bytes. */
  datatype Upload = Upload(fileName: string, length: nat)

  /** The rating a new product gets when the form gives none. */
  const DefaultRating: real := 4.5

  /** The largest image accepted on create: 5 MB. */
  const MaxImageBytes: nat := 5 * 1024 * 1024

  const AllowedExtensions: seq<string> := [".jpg", ".jpeg", ".png", ".webp"]

  /** Folder prefix of a saved image's URL. */
  const ImageFolder: string := "/images/products/"

  datatype ProductError =
    | NameRequired
    | PriceInvalid
    | BrandRequired
    | EngineRequired
    | FuelRequired
    | ImageRequired
    | ImageType
    | ImageTooLarge

  // ---------------------------------------------------------------------
  // `Path.GetExtension`
  // ---------------------------------------------------------------------

  /** The directory separators of the host (Windows accepts both). */
  predicate IsSeparator(c: char)
  {
    c == '/' || c == '\\'
  }

  /** Position of the last '.' in `s[..i]` that comes after the last separator. */
  function LastDot(s: string, i: nat): (r: Option<nat>)
    requires i <= |s|
    decreases i
    ensures r.Some? ==> r.value < i && s[r.value] == '.'
    ensures r.Some? ==> forall j :: r.value < j < i ==> s[j] != '.' && !IsSeparator(s[j])
    ensures r.None? ==> forall j :: 0 <= j < i && s[j] == '.' ==> exists k :: j < k < i && IsSeparator(s[k])
  {
    if i == 0 then None
    else if s[i - 1] == '.' then Some(i - 1)
    else if IsSeparator(s[i - 1]) then None
    else LastDot(s, i - 1)
  }

  /** `Path.GetExtension`: from the last '.' of the file name part to the
      end, or "" when there is no such '.' or it is the last character. */
  function Extension(fileName: string): (r: string)
    ensures r == [] || (2 <= |r| <= |fileName| && r[0] == '.' && r == fileName[|fileName| - |r|..])
    ensures forall j :: 1 <= j < |r| ==> r[j] != '.' && !IsSeparator(r[j])
  {
    match LastDot(fileName, |fileName|)
    case None => ""
    case Some(k) => if k == |fileName| - 1 then "" else fileName[k..]
  }

  /** A name ending in a dot and at least one ordinary character has
      exactly that ending as its extension, whatever comes before it. */
  lemma {:induction false} ExtensionOfName(stem: string, ext: string)
    requires |ext| >= 2 && ext[0] == '.'
    requires forall j :: 1 <= j < |ext| ==> ext[j] != '.' && !IsSeparator(ext[j])
    ensures Extension(stem + ext) == ext
  {
    var s := stem + ext;
    LastDotSkips(s, |stem|, |s|);
    assert s[|stem|..] == ext;
  }

  lemma {:induction false} LastDotSkips(s: string, k: nat, i: nat)
    requires k < i <= |s| && s[k] == '.'
    requires forall j :: k < j < |s| ==> s[j] != '.' && !IsSeparator(s[j])
    ensures LastDot(s, i) == Some(k)
    decreases i
  {
    if i - 1 != k {
      LastDotSkips(s, k, i - 1);
    }
  }

  /** The lowercased extension is one of the accepted image types. */
  predicate ImageTypeOk(fileName: string)
  {
    Text.ToLower(Extension(fileName)) in AllowedExtensions
  }

  /** The URL a saved image gets: a fresh GUID plus the lowercased extension. */
  function ImageUrl(guid: string, fileName: string): string
  {
    ImageFolder + guid + Text.ToLower(Extension(fileName))
  }

  /** A saved image's URL lies in the image folder, ends with the upload's
      lower-cased extension, which is an accepted one, and holds the GUID
      in between. */
  lemma ImageUrlKeepsType(guid: string, fileName: string)
    requires ImageTypeOk(fileName)
    ensures var url := ImageUrl(guid, fileName);
            var e := Text.ToLower(Extension(fileName));
            && e in AllowedExtensions
            && |url| == |ImageFolder| + |guid| + |e|
            && url[..|ImageFolder|] == ImageFolder
            && url[|ImageFolder|..|url| - |e|] == guid
            && url[|url| - |e|..] == e
  {
    var e := Text.ToLower(Extension(fileName));
    var url := ImageUrl(guid, fileName);
    assert url == ImageFolder + guid + e;
    assert url[..|ImageFolder|] == ImageFolder;
    assert url[|ImageFolder|..|url| - |e|] == guid;
    assert url[|url| - |e|..] == e;
  }

  // ---------------------------------------------------------------------
  // Normalisation
  // ---------------------------------------------------------------------

  /** A parsed decimal kept only when positive (`OldPrice`). */
  function PositiveReal(v: Option<real>): (r: Option<real>)
    ensures r.Some? <==> v.Some? && v.value > 0.0
    ensures r.Some? ==> r == v
  {
    if v.Some? && v.value > 0.0 then v else None
  }

  /** A parsed integer kept only when positive (`DiscountPercent`, `CategoryId`). */
  function PositiveInt(v: Option<int>): (r: Option<int>)
    ensures r.Some? <==> v.Some? && v.value > 0
    ensures r.Some? ==> r == v
  {
    if v.Some? && v.value > 0 then v else None
  }

  /** The product `Create` builds from the form, before any check: an
      unparseable price is 0, the rating defaults to 4.5 and the stock to
      100, and the optional numbers are kept only when positive. The id
      and image URL are filled in later. */
  function Normalize(form: ProductForm): (p: Product)
    ensures p.name == form.name && p.brand == form.brand && p.engine == form.engine && p.fuel == form.fuel
    ensures form.price.None? ==> p.price == 0.0
    ensures form.price.Some? ==> p.price == form.price.value
    ensures form.rating.None? ==> p.rating == DefaultRating
    ensures p.stock.Some? && (form.stock.None? ==> p.stock.value == DefaultStock)
    ensures form.rating.Some? ==> p.rating == form.rating.value
    ensures form.stock.Some? ==> p.stock == form.stock
    ensures p.badge == Some(form.badge) && p.color == Some(form.color)
    ensures p.warranty == Some(form.warranty) && p.description == Some(form.description)
    ensures p.oldPrice.Some? <==> form.oldPrice.Some? && form.oldPrice.value > 0.0
    ensures p.discountPercent.Some? <==> form.discountPercent.Some? && form.discountPercent.value > 0
    ensures p.categoryId.Some? <==> form.categoryId.Some? && form.categoryId.value > 0
    ensures p.oldPrice.Some? ==> p.oldPrice == form.oldPrice
    ensures p.discountPercent.Some? ==> p.discountPercent == form.discountPercent
    ensures p.categoryId.Some? ==> p.categoryId == form.categoryId
  {
    Product(
      id := 0,
      name := form.name,
      brand := form.brand,
      engine := form.engine,
      fuel := form.fuel,
      rating := form.rating.GetOr(DefaultRating),
      price := form.price.GetOr(0.0),
      oldPrice := PositiveReal(form.oldPrice),
      imageUrl := "",
      discountPercent := PositiveInt(form.discountPercent),
      badge := Some(form.badge),
      categoryId := PositiveInt(form.categoryId),
      description := Some(form.description),
      stock := Some(form.stock.GetOr(DefaultStock)),
      color := Some(form.color),
      warranty := Some(form.warranty))
  }

  /** The edit form written onto an existing product: text fields are
      overwritten, an unparseable price, rating or stock keeps the old
      value, and an absent or non-positive old price, discount or category
      is cleared. Id and image are untouched. */
  function ApplyForm(p: Product, form: ProductForm): (q: Product)
    ensures q.id == p.id && q.imageUrl == p.imageUrl
    ensures q.name == form.name && q.brand == form.brand && q.engine == form.engine && q.fuel == form.fuel
    ensures q.badge == Some(form.badge) && q.color == Some(form.color)
    ensures q.warranty == Some(form.warranty) && q.description == Some(form.description)
    ensures form.price.None? ==> q.price == p.price
    ensures form.rating.None? ==> q.rating == p.rating
    ensures form.stock.None? ==> q.stock == p.stock
    ensures form.price.Some? ==> q.price == form.price.value
    ensures form.rating.Some? ==> q.rating == form.rating.value
    ensures form.stock.Some? ==> q.stock == form.stock
    ensures q.oldPrice.Some? <==> form.oldPrice.Some? && form.oldPrice.value > 0.0
    ensures q.discountPercent.Some? <==> form.discountPercent.Some? && form.discountPercent.value > 0
    ensures q.categoryId.Some? <==> form.categoryId.Some? && form.categoryId.value > 0
    ensures q.oldPrice.Some? ==> q.oldPrice == form.oldPrice
    ensures q.discountPercent.Some? ==> q.discountPercent == form.discountPercent
    ensures q.categoryId.Some? ==> q.categoryId == form.categoryId
  {
    p.(name := form.name, brand := form.brand, engine := form.engine, fuel := form.fuel,
       badge := Some(form.badge), color := Some(form.color), warranty := Some(form.warranty),
       description := Some(form.description),
       price := form.price.GetOr(p.price),
       oldPrice := PositiveReal(form.oldPrice),
       rating := form.rating.GetOr(p.rating),
       discountPercent := PositiveInt(form.discountPercent),
       categoryId := PositiveInt(form.categoryId),
       stock := if form.stock.Some? then form.stock else p.stock)
  }

  /** Writing the same form twice is writing it once. */
  lemma ApplyFormIdempotent(p: Product, form: ProductForm)
    ensures ApplyForm(ApplyForm(p, form), form) == ApplyForm(p, form)
  {
  }

  /** The empty product `Create` starts from: price 0, rating 4.5, stock 100. */
  const BlankProduct: Product :=
    Product(0, "", "", "", "", DefaultRating, 0.0, None, "", None, None, None, None, Some(DefaultStock), None, None)

  /** Create and edit normalise alike: the create form's product is the
      edit form written onto the blank product. */
  lemma NormalizeIsApplyToBlank(form: ProductForm)
    ensures Normalize(form) == ApplyForm(BlankProduct, form)
  {
  }

  // ---------------------------------------------------------------------
  // Create
  // ---------------------------------------------------------------------

  /** The first failing check of the create form, in the order the action
      makes them. */
  function CreateCheck(p: Product, image: Option<Upload>): (e: Option<ProductError>)
    ensures e.None? <==>
      && !Text.IsBlank(p.name) && p.price > 0.0 && !Text.IsBlank(p.brand)
      && !Text.IsBlank(p.engine) && !Text.IsBlank(p.fuel)
      && image.Some? && 0 < image.value.length <= MaxImageBytes && ImageTypeOk(image.value.fileName)
  {
    if Text.IsBlank(p.name) then Some(NameRequired)
    else if p.price <= 0.0 then Some(PriceInvalid)
    else if Text.IsBlank(p.brand) then Some(BrandRequired)
    else if Text.IsBlank(p.engine) then Some(EngineRequired)
    else if Text.IsBlank(p.fuel) then Some(FuelRequired)
    else if image.None? || image.value.length == 0 then Some(ImageRequired)
    else if !ImageTypeOk(image.value.fileName) then Some(ImageType)
    else if image.value.length > MaxImageBytes then Some(ImageTooLarge)
    else None
  }

  datatype CreateOutcome =
    | CreateNotAuthorized
    | CreateRejected(error: ProductError, shown: Product)
    | Created(product: Product)

  /** Every field of the form the create checks look at is acceptable. */
  predicate CreateAcceptable(form: ProductForm, image: Option<Upload>)
  {
    && !Text.IsBlank(form.name) && form.price.Some? && form.price.value > 0.0
    && !Text.IsBlank(form.brand) && !Text.IsBlank(form.engine) && !Text.IsBlank(form.fuel)
    && image.Some? && 0 < image.value.length <= MaxImageBytes
    && ImageTypeOk(image.value.fileName)
  }

  /** `Create` (POST): a rejected form leaves the store as it was; an
      accepted one is appended with the next product id and the URL of the
      saved image. */
  function Create(s: Store, isAdmin: bool, form: ProductForm, image: Option<Upload>, guid: string)
    : (r: (CreateOutcome, Store))
    ensures !isAdmin ==> r == (CreateNotAuthorized, s)
    ensures !r.0.Created? ==> r.1 == s
    ensures isAdmin ==> (r.0.Created? <==> CreateAcceptable(form, image))
    ensures isAdmin ==>
      && (r.0.CreateRejected? && r.0.error == NameRequired <==> Text.IsBlank(form.name))
      && (r.0.CreateRejected? && r.0.error == PriceInvalid <==>
            !Text.IsBlank(form.name) && (form.price.None? || form.price.value <= 0.0))
      && (r.0.CreateRejected? && r.0.error == BrandRequired <==>
            !Text.IsBlank(form.name) && form.price.Some? && form.price.value > 0.0 && Text.IsBlank(form.brand))
    ensures isAdmin ==>
      var basic := !Text.IsBlank(form.name) && form.price.Some? && form.price.value > 0.0 && !Text.IsBlank(form.brand);
      var fields := basic && !Text.IsBlank(form.engine) && !Text.IsBlank(form.fuel);
      var present := fields && image.Some? && image.value.length != 0;
      && (r.0.CreateRejected? && r.0.error == EngineRequired <==> basic && Text.IsBlank(form.engine))
      && (r.0.CreateRejected? && r.0.error == FuelRequired <==>
            basic && !Text.IsBlank(form.engine) && Text.IsBlank(form.fuel))
      && (r.0.CreateRejected? && r.0.error == ImageRequired <==> fields && (image.None? || image.value.length == 0))
      && (r.0.CreateRejected? && r.0.error == ImageType <==> present && !ImageTypeOk(image.value.fileName))
      && (r.0.CreateRejected? && r.0.error == ImageTooLarge <==>
            present && ImageTypeOk(image.value.fileName) && image.value.length > MaxImageBytes)
    ensures r.0.Created? ==>
      var p := r.0.product;
      && r.1 == s.(products := s.products + [p], nextProductId := s.nextProductId + 1)
      && p.id == s.nextProductId
      && p.imageUrl == ImageUrl(guid, image.value.fileName)
      && p == Normalize(form).(id := p.id, imageUrl := p.imageUrl)
  {
    if !isAdmin then (CreateNotAuthorized, s)
    else
      var p := Normalize(form);
      assert CreateAcceptable(form, image) <==> CreateCheck(p, image).None?;
      match CreateCheck(p, image)
      case Some(e) => (CreateRejected(e, p), s)
      case None =>
        var url := ImageUrl(guid, image.value.fileName);
        var (id, s1) := TakeId(s, ProductIds);
        var q := p.(id := id, imageUrl := url);
        (Created(q), s1.(products := s1.products + [q]))
  }

  /** An unparseable price counts as 0 and is rejected as an invalid price. */
  lemma UnparsedPriceRejected(s: Store, form: ProductForm, image: Option<Upload>, guid: string)
    requires !Text.IsBlank(form.name) && form.price.None?
    ensures Create(s, true, form, image, guid).0 == CreateRejected(PriceInvalid, Normalize(form))
  {
  }

  /** Product ids increase along the list and stay below the counter, so an
      id names at most one product. */
  predicate ProductIdsOrdered(s: Store)
  {
    && (forall i, j :: 0 <= i < j < |s.products| ==> s.products[i].id < s.products[j].id)
    && (forall i :: 0 <= i < |s.products| ==> s.products[i].id < s.nextProductId)
  }

  /** A create grows the list by exactly one product or leaves it alone,
      and the new id was not in use. */
  lemma CreateKeepsIdsOrdered(s: Store, isAdmin: bool, form: ProductForm, image: Option<Upload>, guid: string)
    requires ProductIdsOrdered(s)
    ensures var r := Create(s, isAdmin, form, image, guid);
            && ProductIdsOrdered(r.1)
            && |r.1.products| == |s.products| + (if r.0.Created? then 1 else 0)
            && (r.0.Created? ==> forall i :: 0 <= i < |s.products| ==> s.products[i].id != r.0.product.id)
  {
    var r := Create(s, isAdmin, form, image, guid);
    if r.0.Created? {
      var ps := r.1.products;
      assert ps == s.products + [r.0.product];
      assert r.1.nextProductId == s.nextProductId + 1;
      forall i, j | 0 <= i < j < |ps|
        ensures ps[i].id < ps[j].id
      {
        assert ps[i] == s.products[i];
        if j < |s.products| {
          assert ps[j] == s.products[j];
        }
      }
    }
  }

  // ---------------------------------------------------------------------
  // Edit
  // ---------------------------------------------------------------------

  /** Position of the first product with the id (`FirstOrDefault(x => x.Id == id)`). */
  function FindProduct(ps: seq<Product>, id: int): (r: Option<nat>)
    ensures r.Some? ==> r.value < |ps| && ps[r.value].id == id
    ensures r.Some? ==> forall j :: 0 <= j < r.value ==> ps[j].id != id
    ensures r.None? ==> forall j :: 0 <= j < |ps| ==> ps[j].id != id
  {
    Seqs.FindFirst(ps, (p: Product) => p.id == id)
  }

  /** One entry of the edit page's "copy from" list. */
  datatype CopyEntry = CopyEntry(id: int, name: string)

  /** The products other than the edited one, in list order (the `Where`). */
  function OtherProducts(ps: seq<Product>, id: int): seq<Product>
  {
    Seqs.Filter(ps, (p: Product) => p.id != id)
  }

  /** `Edit` (GET)'s copy list: every other product's id and name, in list order. */
  function CopyList(ps: seq<Product>, id: int): (r: seq<CopyEntry>)
    ensures forall i :: 0 <= i < |r| ==> r[i].id != id
    ensures forall j :: 0 <= j < |ps| && ps[j].id != id ==> CopyEntry(ps[j].id, ps[j].name) in r
    ensures |r| <= |ps|
    ensures var others := OtherProducts(ps, id);
            && |r| == |others|
            && forall i :: 0 <= i < |r| ==> r[i] == CopyEntry(others[i].id, others[i].name)
  {
    if |ps| == 0 then []
    else
      var rest := CopyList(ps[1..], id);
      var r := if ps[0].id == id then rest else [CopyEntry(ps[0].id, ps[0].name)] + rest;
      CopyListCons(ps, id, rest, r);
      CopyEntriesListed(ps, id, r);
      r
  }

  /** One step of the copy list: the head product contributes an entry
      unless it is the edited one. */
  lemma CopyListCons(ps: seq<Product>, id: int, rest: seq<CopyEntry>, r: seq<CopyEntry>)
    requires |ps| > 0
    requires var others := OtherProducts(ps[1..], id);
             && |rest| == |others|
             && forall i :: 0 <= i < |rest| ==> rest[i] == CopyEntry(others[i].id, others[i].name)
    requires r == if ps[0].id == id then rest else [CopyEntry(ps[0].id, ps[0].name)] + rest
    ensures var others := OtherProducts(ps, id);
            && |r| == |others|
            && forall i :: 0 <= i < |r| ==> r[i] == CopyEntry(others[i].id, others[i].name)
  {
    OtherProductsCons(ps, id);
    if ps[0].id != id {
      var others := OtherProducts(ps, id);
      var tail := OtherProducts(ps[1..], id);
      assert others == [ps[0]] + tail;
      forall i | 0 < i < |r|
        ensures r[i] == CopyEntry(others[i].id, others[i].name)
      {
        assert r[i] == rest[i - 1] && others[i] == tail[i - 1];
      }
    }
  }

  /** A list read off the other products entry by entry names each of them. */
  lemma CopyEntriesListed(ps: seq<Product>, id: int, r: seq<CopyEntry>)
    requires var others := OtherProducts(ps, id);
             && |r| == |others|
             && forall i :: 0 <= i < |r| ==> r[i] == CopyEntry(others[i].id, others[i].name)
    ensures forall i :: 0 <= i < |r| ==> r[i].id != id
    ensures forall j :: 0 <= j < |ps| && ps[j].id != id ==> CopyEntry(ps[j].id, ps[j].name) in r
  {
    var others := OtherProducts(ps, id);
    forall j | 0 <= j < |ps| && ps[j].id != id
      ensures CopyEntry(ps[j].id, ps[j].name) in r
    {
      assert ps[j] in others;
      var i :| 0 <= i < |others| && others[i] == ps[j];
      assert r[i] == CopyEntry(ps[j].id, ps[j].name);
    }
  }

  lemma OtherProductsCons(ps: seq<Product>, id: int)
    requires |ps| > 0
    ensures OtherProducts(ps, id) == (if ps[0].id != id then [ps[0]] else []) + OtherProducts(ps[1..], id)
  {
    assert ps == [ps[0]] + ps[1..];
    Seqs.FilterAppend([ps[0]], ps[1..], (p: Product) => p.id != id);
  }

  /** When ids are unique, the copy list is one entry short of the catalog
      exactly when the edited product exists. */
  lemma {:induction false} CopyListLength(ps: seq<Product>, id: int)
    requires forall i, j :: 0 <= i < j < |ps| ==> ps[i].id < ps[j].id
    ensures |CopyList(ps, id)| == |ps| - (if FindProduct(ps, id).Some? then 1 else 0)
  {
    if |ps| > 0 {
      CopyListLength(ps[1..], id);
      if ps[0].id == id {
        assert forall j :: 0 <= j < |ps[1..]| ==> ps[1..][j].id != id by {
          forall j | 0 <= j < |ps[1..]|
            ensures ps[1..][j].id != id
          {
            assert ps[1..][j] == ps[j + 1];
          }
        }
      } else {
        var a := FindProduct(ps[1..], id);
        var b := FindProduct(ps, id);
        assert a.Some? <==> b.Some? by {
          if a.Some? {
            assert ps[a.value + 1].id == id;
          }
          if b.Some? {
            assert ps[1..][b.value - 1].id == id;
          }
        }
      }
    }
  }

  /** The first failing check of the edit form. There is no size limit on
      a new image, and no image at all is fine. */
  function EditCheck(p: Product, image: Option<Upload>): Option<ProductError>
  {
    if Text.IsBlank(p.name) then Some(NameRequired)
    else if p.price <= 0.0 then Some(PriceInvalid)
    else if image.Some? && image.value.length > 0 && !ImageTypeOk(image.value.fileName) then Some(ImageType)
    else None
  }

  datatype EditOutcome =
    | EditNotAuthorized
    | EditNotFound
    | EditRejected(error: ProductError, shown: Product)
    | Edited(product: Product)

  /** `Edit` (POST): the form is written onto the stored product before it
      is checked, so a rejected edit leaves the written fields in the
      store. A non-empty image of an accepted type replaces the image URL. */
  function Edit(s: Store, isAdmin: bool, id: int, form: ProductForm, image: Option<Upload>, guid: string)
    : (r: (EditOutcome, Store))
    ensures !isAdmin ==> r == (EditNotAuthorized, s)
    ensures isAdmin ==> (r.0 == EditNotFound <==> FindProduct(s.products, id).None?)
    ensures r.0 == EditNotFound ==> r.1 == s
    ensures r.0.EditRejected? || r.0.Edited? ==>
      var k := FindProduct(s.products, id).value;
      var written := ApplyForm(s.products[k], form);
      && r.1 == s.(products := s.products[k := if r.0.Edited? then r.0.product else r.0.shown])
      && (r.0.EditRejected? ==> r.0.shown == written)
      && (r.0.Edited? ==> r.0.product == written.(imageUrl := r.0.product.imageUrl))
    ensures r.0.Edited? ==> !Text.IsBlank(form.name) && r.0.product.price > 0.0 && r.0.product.id == id
    ensures r.0.Edited? && image.Some? && image.value.length > 0 ==>
              ImageTypeOk(image.value.fileName) && r.0.product.imageUrl == ImageUrl(guid, image.value.fileName)
    ensures r.0.Edited? && (image.None? || image.value.length == 0) ==>
              r.0.product.imageUrl == s.products[FindProduct(s.products, id).value].imageUrl
    ensures r.0.EditRejected? && r.0.error == ImageType ==> image.Some? && !ImageTypeOk(image.value.fileName)
    ensures isAdmin && FindProduct(s.products, id).Some? ==>
      var price := form.price.GetOr(s.products[FindProduct(s.products, id).value].price);
      var typeOk := image.None? || image.value.length == 0 || ImageTypeOk(image.value.fileName);
      && (r.0.Edited? <==> !Text.IsBlank(form.name) && price > 0.0 && typeOk)
      && (r.0.EditRejected? && r.0.error == NameRequired <==> Text.IsBlank(form.name))
      && (r.0.EditRejected? && r.0.error == PriceInvalid <==> !Text.IsBlank(form.name) && price <= 0.0)
      && (r.0.EditRejected? && r.0.error == ImageType <==> !Text.IsBlank(form.name) && price > 0.0 && !typeOk)
  {
    if !isAdmin then (EditNotAuthorized, s)
    else
      match FindProduct(s.products, id)
      case None => (EditNotFound, s)
      case Some(k) =>
        var written := ApplyForm(s.products[k], form);
        match EditCheck(written, image)
        case Some(e) => (EditRejected(e, written), s.(products := s.products[k := written]))
        case None =>
          var q := if image.Some? && image.value.length > 0
                   then written.(imageUrl := ImageUrl(guid, image.value.fileName))
                   else written;
          (Edited(q), s.(products := s.products[k := q]))
  }

  /** A rejected edit still changes the store whenever the form differs
      from what was stored. */
  lemma RejectedEditStillWrites(s: Store, id: int, form: ProductForm, image: Option<Upload>, guid: string)
    requires FindProduct(s.products, id).Some?
    requires var k := FindProduct(s.products, id).value;
             ApplyForm(s.products[k], form) != s.products[k]
    ensures var r := Edit(s, true, id, form, image, guid);
            r.0.EditRejected? ==> r.1 != s
  {
    var k := FindProduct(s.products, id).value;
    var r := Edit(s, true, id, form, image, guid);
    if r.0.EditRejected? {
      assert r.1.products[k] == ApplyForm(s.products[k], form);
    }
  }

  /** A form with a blank name is refused yet its brand is stored: the
      product with id 1 ends up with the new brand. */
  lemma BlankNameEditKeepsBrand(s: Store, form: ProductForm, image: Option<Upload>, guid: string)
    requires |s.products| > 0 && s.products[0].id == 1
    requires Text.IsBlank(form.name)
    ensures var r := Edit(s, true, 1, form, image, guid);
            && r.0 == EditRejected(NameRequired, ApplyForm(s.products[0], form))
            && r.1.products[0].brand == form.brand
  {
  }

  /** Submitting the same edit twice (with the same saved image) ends in
      the same store as submitting it once. */
  lemma EditTwice(s: Store, isAdmin: bool, id: int, form: ProductForm, image: Option<Upload>, guid: string)
    ensures var t := Edit(s, isAdmin, id, form, image, guid).1;
            Edit(t, isAdmin, id, form, image, guid).1 == t
  {
    var r := Edit(s, isAdmin, id, form, image, guid);
    if isAdmin && FindProduct(s.products, id).Some? {
      var k := FindProduct(s.products, id).value;
      var t := r.1;
      assert forall j :: 0 <= j < |s.products| ==> t.products[j].id == s.products[j].id;
      assert FindProduct(t.products, id) == Some(k);
      ApplyFormIdempotent(s.products[k], form);
    }
  }

  /** An edit never changes an id, so the ordering of ids is kept. */
  lemma EditKeepsIdsOrdered(s: Store, isAdmin: bool, id: int, form: ProductForm, image: Option<Upload>, guid: string)
    requires ProductIdsOrdered(s)
    ensures var t := Edit(s, isAdmin, id, form, image, guid).1;
            && ProductIdsOrdered(t)
            && |t.products| == |s.products|
            && forall j :: 0 <= j < |s.products| ==> t.products[j].id == s.products[j].id
  {
  }

  // ---------------------------------------------------------------------
  // Delete
  // ---------------------------------------------------------------------

  /** `DeleteConfirmed`: removes the product with the id; nothing happens
      for an unknown id. */
  function DeleteConfirmed(s: Store, isAdmin: bool, id: int): (r: Store)
    ensures !isAdmin || FindProduct(s.products, id).None? ==> r == s
    ensures isAdmin && FindProduct(s.products, id).Some? ==>
              r == s.(products := Seqs.RemoveAt(s.products, FindProduct(s.products, id).value))
  {
    if !isAdmin then s
    else
      match FindProduct(s.products, id)
      case None => s
      case Some(k) => s.(products := Seqs.RemoveAt(s.products, k))
  }

  /** With ordered ids, no product with the id is left after a delete,
      every other product is still there, and the list is one shorter
      exactly when the id was present. */
  lemma DeleteRemovesId(s: Store, id: int)
    requires ProductIdsOrdered(s)
    ensures var r := DeleteConfirmed(s, true, id);
            && (forall i :: 0 <= i < |r.products| ==> r.products[i].id != id)
            && (forall j :: 0 <= j < |s.products| && s.products[j].id != id ==> s.products[j] in r.products)
            && |r.products| == |s.products| - (if FindProduct(s.products, id).Some? then 1 else 0)
            && ProductIdsOrdered(r)
  {
    match FindProduct(s.products, id)
    case None =>
    case Some(k) =>
      RemoveProductAt(s, k);
  }

  lemma RemoveProductAt(s: Store, k: nat)
    requires ProductIdsOrdered(s) && k < |s.products|
    ensures var t := s.(products := Seqs.RemoveAt(s.products, k));
            && (forall i :: 0 <= i < |t.products| ==> t.products[i].id != s.products[k].id)
            && (forall j :: 0 <= j < |s.products| && j != k ==> s.products[j] in t.products)
            && ProductIdsOrdered(t)
  {
    var t := s.(products := Seqs.RemoveAt(s.products, k));
    Seqs.RemoveAtKeeps(s.products, k);
    Seqs.RemoveAtIncreasing(s.products, k, (p: Product) => p.id);
    forall i | 0 <= i < |t.products|
      ensures t.products[i].id < t.nextProductId
    {
      assert t.products[i] == s.products[if i < k then i else i + 1];
    }
  }
}

=== FILE: promotions.dfy ===
/** Seasonal promotions (`SeasonalPromotionService` and the admin
    `SeasonalPromotionsController`). A promotion is a percentage that
    applies to every product, to one category or to one brand. No
    controller calls `GetBestDiscount`, and the checkout total never
    includes a promotion. The service's static list and counter are a `Service`
    value, and the clock is a parameter. */
module Promotions {
  import opened Wrappers
  import opened Calendar
  import opened Models
  import Seqs
  import Text

  datatype SeasonalPromotion = SeasonalPromotion(
    id: int,
    name: string,
    description: string,
    discountPercent: real,
    startDate: Instant,
    endDate: Instant,
    isActive: bool,
    applyTo: Option<string>,
    categoryId: Option<int>,
    brand: Option<string>)

  /** The promotion list and the id counter (which starts at 1). */
  datatype Service = Service(promotions: seq<SeasonalPromotion>, counter: int)

  const Initial: Service := Service([], 1)

  const AllScope: string := "All"
  const CategoryScope: string := "Category"
  const BrandScope: string := "Brand"

  /** The name fragment that marks a weekend-only promotion ("Cuối Tuần"). */
  const WeekendTag: string := "Cuối Tuần"

  // ---------------------------------------------------------------------
  // Lookup
  // ---------------------------------------------------------------------

  /** Switched on and inside its window, inclusive at both ends. */
  predicate Live(p: SeasonalPromotion, now: Instant)
  {
    p.isActive && p.startDate <= now && p.endDate >= now
  }

  /** The scope test: "All" matches everything, "Category" an equal
      (possibly absent) category id, "Brand" the exact brand; any other
      scope, or none, matches nothing. */
  predicate ScopeMatches(p: SeasonalPromotion, product: Product)
  {
    || p.applyTo == Some(AllScope)
    || (p.applyTo == Some(CategoryScope) && p.categoryId == product.categoryId)
    || (p.applyTo == Some(BrandScope) && p.brand == Some(product.brand))
  }

  /** The weekend rule: an all-products promotion named as a weekend sale
      counts only on Saturday and Sunday; every other promotion passes. */
  predicate WeekendRule(p: SeasonalPromotion, weekend: bool)
  {
    || p.applyTo != Some(AllScope)
    || (p.applyTo == Some(AllScope) && Text.Contains(p.name, WeekendTag) && weekend)
    || (p.applyTo == Some(AllScope) && !Text.Contains(p.name, WeekendTag))
  }

  predicate Applicable(p: SeasonalPromotion, product: Product, now: Instant)
  {
    Live(p, now) && ScopeMatches(p, product) && WeekendRule(p, IsWeekend(now))
  }

  /** The largest percentage of a non-empty list. */
  function MaxPercent(ps: seq<SeasonalPromotion>): (r: real)
    requires |ps| > 0
    ensures forall i :: 0 <= i < |ps| ==> ps[i].discountPercent <= r
    ensures exists i :: 0 <= i < |ps| && ps[i].discountPercent == r
  {
    if |ps| == 1 then ps[0].discountPercent
    else
      var rest := MaxPercent(ps[1..]);
      assert forall i :: 1 <= i < |ps| ==> ps[i] == ps[1..][i - 1];
      if ps[0].discountPercent >= rest then ps[0].discountPercent else rest
  }

  /** `GetBestDiscount(product)`: 0 when no promotion applies, otherwise
      the largest percentage among those that do. */
  function GetBestDiscount(promotions: seq<SeasonalPromotion>, product: Product, now: Instant): (r: real)
    ensures (forall p :: p in promotions ==> !Applicable(p, product, now)) ==> r == 0.0
    ensures forall p :: p in promotions && Applicable(p, product, now) ==> p.discountPercent <= r
    ensures (exists p :: p in promotions && Applicable(p, product, now)) ==>
              exists p :: p in promotions && Applicable(p, product, now) && p.discountPercent == r
  {
    var applicable := Seqs.Filter(promotions, (p: SeasonalPromotion) => Applicable(p, product, now));
    if |applicable| == 0 then 0.0
    else
      assert applicable[0] in applicable;
      var r := MaxPercent(applicable);
      assert forall p :: p in applicable ==> p.discountPercent <= r by {
        forall p | p in applicable ensures p.discountPercent <= r {
          var i :| 0 <= i < |applicable| && applicable[i] == p;
        }
      }
      var k :| 0 <= k < |applicable| && applicable[k].discountPercent == r;
      assert applicable[k] in applicable;
      r
  }

  /** The weekend rule in one line: an all-products weekend sale counts
      exactly on weekends, and nothing else is affected by its name. */
  lemma WeekendRuleMeaning(p: SeasonalPromotion, weekend: bool)
    ensures WeekendRule(p, weekend) <==> p.applyTo != Some(AllScope) || !Text.Contains(p.name, WeekendTag) || weekend
  {
  }

  /** `GetActivePromotions()`: the live promotions, in list order. */
  function GetActivePromotions(s: Service, now: Instant): (r: seq<SeasonalPromotion>)
    ensures forall p :: p in r <==> p in s.promotions && Live(p, now)
    ensures |r| <= |s.promotions| && Seqs.Subsequence(r, s.promotions)
  {
    Seqs.FilterSubsequence(s.promotions, (p: SeasonalPromotion) => Live(p, now));
    Seqs.Filter(s.promotions, (p: SeasonalPromotion) => Live(p, now))
  }

  /** Every promotion that applies to some product is among the active
      ones. */
  lemma ApplicableIsActive(s: Service, product: Product, now: Instant, p: SeasonalPromotion)
    requires p in s.promotions && Applicable(p, product, now)
    ensures p in GetActivePromotions(s, now)
  {
  }

  // ---------------------------------------------------------------------
  // Changes
  // ---------------------------------------------------------------------

  /** Ids strictly increase along the list and stay below the counter. */
  predicate IdsOrdered(s: Service)
  {
    && (forall i, j :: 0 <= i < j < |s.promotions| ==> s.promotions[i].id < s.promotions[j].id)
    && (forall i :: 0 <= i < |s.promotions| ==> s.promotions[i].id < s.counter)
  }

  /** `Add(promo)`: whatever id the promotion carried, it gets the counter
      value, and goes to the end of the list. */
  function Add(s: Service, promo: SeasonalPromotion): (r: Service)
    ensures r.promotions == s.promotions + [promo.(id := s.counter)]
    ensures r.counter == s.counter + 1
  {
    Service(s.promotions + [promo.(id := s.counter)], s.counter + 1)
  }

  lemma AddKeepsIdsOrdered(s: Service, promo: SeasonalPromotion)
    requires IdsOrdered(s)
    ensures IdsOrdered(Add(s, promo))
  {
  }

  /** Two additions give ids one apart. */
  lemma SuccessiveAddIds(s: Service, a: SeasonalPromotion, b: SeasonalPromotion)
    ensures var r := Add(Add(s, a), b);
            r.promotions[|r.promotions| - 1].id == r.promotions[|r.promotions| - 2].id + 1
  {
  }

  function IndexOf(ps: seq<SeasonalPromotion>, id: int): (r: Option<nat>)
    ensures r.Some? ==> r.value < |ps| && ps[r.value].id == id
    ensures r.Some? ==> forall j :: 0 <= j < r.value ==> ps[j].id != id
    ensures r.None? ==> forall p :: p in ps ==> p.id != id
  {
    Seqs.FindFirst(ps, (p: SeasonalPromotion) => p.id == id)
  }

  /** `Remove(id)`: the first promotion with the id leaves the list; an
      unknown id changes nothing. */
  function Remove(s: Service, id: int): (r: Service)
    ensures r.counter == s.counter
    ensures (forall p :: p in s.promotions ==> p.id != id) ==> r == s
    ensures (exists p :: p in s.promotions && p.id == id) ==>
              var k := IndexOf(s.promotions, id).value;
              && |r.promotions| == |s.promotions| - 1
              && r.promotions == s.promotions[..k] + s.promotions[k + 1..]
  {
    match IndexOf(s.promotions, id)
    case None => s
    case Some(k) => s.(promotions := Seqs.RemoveAt(s.promotions, k))
  }

  lemma RemoveKeepsIdsOrdered(s: Service, id: int)
    requires IdsOrdered(s)
    ensures IdsOrdered(Remove(s, id))
    ensures forall p :: p in Remove(s, id).promotions ==> p.id != id
  {
    var r := Remove(s, id);
    match IndexOf(s.promotions, id)
    case None =>
    case Some(k) =>
      assert r.promotions == Seqs.RemoveAt(s.promotions, k);
      Seqs.RemoveAtIncreasing(s.promotions, k, (p: SeasonalPromotion) => p.id);
  }

  /** `Toggle(id)`: the first promotion with the id is switched on or off;
      nothing else changes, and an unknown id changes nothing. */
  function Toggle(s: Service, id: int): (r: Service)
    ensures r.counter == s.counter && |r.promotions| == |s.promotions|
    ensures forall i :: 0 <= i < |s.promotions| ==>
              r.promotions[i] == if Some(i) == IndexOf(s.promotions, id)
                                 then s.promotions[i].(isActive := !s.promotions[i].isActive)
                                 else s.promotions[i]
  {
    match IndexOf(s.promotions, id)
    case None => s
    case Some(k) => s.(promotions := s.promotions[k := s.promotions[k].(isActive := !s.promotions[k].isActive)])
  }

  /** Toggling twice restores the list. */
  lemma ToggleTwice(s: Service, id: int)
    ensures Toggle(Toggle(s, id), id) == s
  {
    var once := Toggle(s, id);
    assert IndexOf(once.promotions, id) == IndexOf(s.promotions, id) by {
      assert forall i :: 0 <= i < |s.promotions| ==> once.promotions[i].id == s.promotions[i].id;
      IndexOfSameIds(s.promotions, once.promotions, id);
    }
    assert Toggle(once, id).promotions == s.promotions;
  }

  lemma {:induction false} IndexOfSameIds(a: seq<SeasonalPromotion>, b: seq<SeasonalPromotion>, id: int)
    requires |a| == |b| && forall i :: 0 <= i < |a| ==> a[i].id == b[i].id
    ensures IndexOf(a, id) == IndexOf(b, id)
  {
    var x, y := IndexOf(a, id), IndexOf(b, id);
    if x.Some? && y.Some? {
      assert !(x.value < y.value) && !(y.value < x.value);
    }
  }

  // ---------------------------------------------------------------------
  // Seeding (`Initialize`)
  // ---------------------------------------------------------------------

  const FlashSaleName: string := "Flash Sale " + WeekendTag
  const FlashSale: SeasonalPromotion :=
    SeasonalPromotion(0, FlashSaleName, "Giảm 10% tất cả sản phẩm vào Thứ 7 & Chủ Nhật",
                      10.0, 0, 0, true, Some(AllScope), None, None)
  const ScooterSale: SeasonalPromotion :=
    SeasonalPromotion(0, "Sale Xe Tay Ga", "Giảm 15% cho tất cả xe tay ga",
                      15.0, 0, 0, true, Some(CategoryScope), Some(1), None)
  const HondaSale: SeasonalPromotion :=
    SeasonalPromotion(0, "Honda Sale", "Giảm 12% cho xe Honda",
                      12.0, 0, 0, true, Some(BrandScope), None, Some("Honda"))

  /** `Initialize()`: nothing when promotions exist; otherwise the weekend
      flash sale (six months), the scooter-category sale (three months) and
      the Honda sale (two months), all starting now, numbered on from the
      counter. */
  function Initialize(s: Service, now: Instant): (r: Service)
    ensures |s.promotions| > 0 ==> r == s
    ensures |s.promotions| == 0 ==>
              && |r.promotions| == 3 && r.counter == s.counter + 3
              && forall i :: 0 <= i < 3 ==> r.promotions[i].id == s.counter + i && r.promotions[i].startDate == now
  {
    if |s.promotions| > 0 then s
    else
      Service([ FlashSale.(id := s.counter, startDate := now, endDate := AddMonths(now, 6)),
                ScooterSale.(id := s.counter + 1, startDate := now, endDate := AddMonths(now, 3)),
                HondaSale.(id := s.counter + 2, startDate := now, endDate := AddMonths(now, 2)) ],
              s.counter + 3)
  }

  lemma InitializeIdempotent(s: Service, now: Instant, later: Instant)
    ensures Initialize(Initialize(s, now), later) == Initialize(s, now)
  {
  }

  lemma InitializeKeepsIdsOrdered(s: Service, now: Instant)
    requires IdsOrdered(s)
    ensures IdsOrdered(Initialize(s, now))
  {
  }

  /** At the moment of seeding all three seeded promotions are live. */
  lemma SeedsLive(now: Instant)
    ensures forall p :: p in Initialize(Initial, now).promotions ==> Live(p, now)
  {
    AddMonthsForward(now, 6);
    AddMonthsForward(now, 3);
    AddMonthsForward(now, 2);
  }

  /** With the seeded promotions, a Yamaha outside the scooter category
      gets the flash sale's 10% on a weekend and nothing on a weekday. */
  lemma SeedWeekendOnly(now: Instant, product: Product)
    requires product.brand == "Yamaha" && product.categoryId != Some(1)
    ensures GetBestDiscount(Initialize(Initial, now).promotions, product, now) == if IsWeekend(now) then 10.0 else 0.0
  {
    SeedsLive(now);
    FlashSaleTagged();
    var ps := Initialize(Initial, now).promotions;
    assert ps[0].name == FlashSaleName && ps[0].applyTo == Some(AllScope);
    assert Applicable(ps[0], product, now) <==> IsWeekend(now);
    assert !Applicable(ps[1], product, now) && !Applicable(ps[2], product, now);
    if IsWeekend(now) {
      OnlyOneApplies(ps, product, now, 0);
    } else {
      NoneApplies(ps, product, now);
    }
  }

  /** When exactly one promotion applies, its percentage is the best. */
  lemma OnlyOneApplies(ps: seq<SeasonalPromotion>, product: Product, now: Instant, k: nat)
    requires k < |ps| && Applicable(ps[k], product, now)
    requires forall j :: 0 <= j < |ps| && j != k ==> !Applicable(ps[j], product, now)
    ensures GetBestDiscount(ps, product, now) == ps[k].discountPercent
  {
    assert ps[k] in ps;
    assert forall p :: p in ps && Applicable(p, product, now) ==> p.discountPercent == ps[k].discountPercent by {
      forall p | p in ps && Applicable(p, product, now) ensures p.discountPercent == ps[k].discountPercent {
        var j :| 0 <= j < |ps| && ps[j] == p;
      }
    }
  }

  /** When nothing applies, the best discount is 0. */
  lemma NoneApplies(ps: seq<SeasonalPromotion>, product: Product, now: Instant)
    requires forall j :: 0 <= j < |ps| ==> !Applicable(ps[j], product, now)
    ensures GetBestDiscount(ps, product, now) == 0.0
  {
    assert forall p :: p in ps ==> !Applicable(p, product, now) by {
      forall p | p in ps ensures !Applicable(p, product, now) {
        var j :| 0 <= j < |ps| && ps[j] == p;
      }
    }
  }

  /** The flash sale carries the weekend tag in its name. */
  lemma FlashSaleTagged()
    ensures Text.Contains(FlashSaleName, WeekendTag)
  {
    assert Text.OccursAt(FlashSaleName, WeekendTag, 11);
  }

  /** A Honda scooter gets 15%: the category sale beats the Honda sale
      and, on a weekend, the flash sale. */
  lemma SeedHondaScooter(now: Instant, product: Product)
    requires product.brand == "Honda" && product.categoryId == Some(1)
    ensures GetBestDiscount(Initialize(Initial, now).promotions, product, now) == 15.0
  {
    SeedsLive(now);
    var ps := Initialize(Initial, now).promotions;
    assert ps[1] in ps && Applicable(ps[1], product, now);
    assert ps[0].discountPercent == 10.0 && ps[2].discountPercent == 12.0;
    assert forall p :: p in ps ==> p.discountPercent <= 15.0;
  }

  // ---------------------------------------------------------------------
  // The admin controller
  // ---------------------------------------------------------------------

  datatype PromotionError = NameRequired | PercentOutOfRange | EndNotAfterStart

  datatype PromotionOutcome = PromotionNotAuthorized | PromotionRejected(error: PromotionError) | PromotionCreated

  /** The checks of `Create(promo)`, in order. */
  function PromotionCheck(promo: SeasonalPromotion): (r: Option<PromotionError>)
    ensures r.None? <==>
              !Text.IsBlank(promo.name) && 0.0 < promo.discountPercent <= 100.0 && promo.endDate > promo.startDate
    ensures r == Some(NameRequired) <==> Text.IsBlank(promo.name)
    ensures r == Some(PercentOutOfRange) <==>
              !Text.IsBlank(promo.name) && (promo.discountPercent <= 0.0 || promo.discountPercent > 100.0)
  {
    if Text.IsBlank(promo.name) then Some(NameRequired)
    else if promo.discountPercent <= 0.0 || promo.discountPercent > 100.0 then Some(PercentOutOfRange)
    else if promo.endDate <= promo.startDate then Some(EndNotAfterStart)
    else None
  }

  /** `Create(promo)` (POST): only an administrator, and only a promotion
      passing every check, reaches `Add`. */
  function CreatePromotion(s: Service, isAdmin: bool, promo: SeasonalPromotion): (r: (PromotionOutcome, Service))
    ensures !isAdmin ==> r == (PromotionNotAuthorized, s)
    ensures isAdmin && PromotionCheck(promo).Some? ==> r == (PromotionRejected(PromotionCheck(promo).value), s)
    ensures r.0.PromotionCreated? <==> isAdmin && PromotionCheck(promo).None?
    ensures r.0.PromotionCreated? ==> r.1 == Add(s, promo)
  {
    if !isAdmin then (PromotionNotAuthorized, s)
    else match PromotionCheck(promo)
      case Some(e) => (PromotionRejected(e), s)
      case None => (PromotionCreated, Add(s, promo))
  }

  /** Every promotion created through the controller has a name, a
      percentage in (0, 100] and a window of positive length. */
  lemma CreatedPromotionValid(s: Service, promo: SeasonalPromotion)
    requires CreatePromotion(s, true, promo).0.PromotionCreated?
    ensures var p := Last(CreatePromotion(s, true, promo).1.promotions);
            !Text.IsBlank(p.name) && 0.0 < p.discountPercent <= 100.0 && p.startDate < p.endDate && p.id == s.counter
  {
  }

  function Last(ps: seq<SeasonalPromotion>): SeasonalPromotion
    requires |ps| > 0
  {
    ps[|ps| - 1]
  }

  /** `Toggle(id)` and `Delete(id)`: administrators only, delegated to the
      service. */
  function ToggleAction(s: Service, isAdmin: bool, id: int): (r: Service)
    ensures !isAdmin ==> r == s
    ensures isAdmin ==> r == Toggle(s, id)
  {
    if isAdmin then Toggle(s, id) else s
  }

  function DeleteAction(s: Service, isAdmin: bool, id: int): (r: Service)
    ensures !isAdmin ==> r == s
    ensures isAdmin ==> r == Remove(s, id)
  {
    if isAdmin then Remove(s, id) else s
  }

  /** The listing order: a promotion that starts no earlier comes first. */
  function StartsLater(a: SeasonalPromotion, b: SeasonalPromotion): bool
  {
    a.startDate >= b.startDate
  }

  lemma StartsLaterPreorder()
    ensures Seqs.TotalPreorder(StartsLater)
  {
  }

  /** `Index()`: all promotions, latest start first (a stable sort: those
      starting at the same instant keep their stored order). */
  function Listing(s: Service): (r: seq<SeasonalPromotion>)
    ensures multiset(r) == multiset(s.promotions)
    ensures forall i, j :: 0 <= i < j < |r| ==> r[i].startDate >= r[j].startDate
    ensures forall z :: Seqs.EquivClass(r, StartsLater, z) == Seqs.EquivClass(s.promotions, StartsLater, z)
  {
    StartsLaterPreorder();
    Seqs.SortBy(s.promotions, StartsLater)
  }
}

=== FILE: seqs.dfy ===
/** Sequence helpers standing in for the LINQ operators the source uses:
    `FirstOrDefault`, `Where`, `Sum`, `Take`, `List.Remove`, `Distinct`, and
    the stable `OrderBy` / `OrderByDescending`. */
module Seqs {
  import opened Wrappers

  /** Position of the first element satisfying `p`, as `FirstOrDefault` finds
      it; `None` when there is none. */
  function FindFirst<T>(s: seq<T>, p: T -> bool): (r: Option<nat>)
    ensures r.Some? ==> r.value < |s| && p(s[r.value])
    ensures r.Some? ==> forall j :: 0 <= j < r.value ==> !p(s[j])
    ensures r.None? ==> forall j :: 0 <= j < |s| ==> !p(s[j])
  {
    if |s| == 0 then None
    else if p(s[0]) then Some(0)
    else
      match FindFirst(s[1..], p)
      case None => None
      case Some(i) => Some(i + 1)
  }

  /** What `FindFirst` finds comes no later than any element satisfying `p`. */
  lemma FoundFirst<T>(s: seq<T>, p: T -> bool, k: nat)
    requires k < |s| && p(s[k]) && forall j :: 0 <= j < k ==> !p(s[j])
    ensures forall j :: 0 <= j < |s| && p(s[j]) ==> s[k] in s[..j + 1]
  {
    forall j | 0 <= j < |s| && p(s[j])
      ensures s[k] in s[..j + 1]
    {
      assert s[..j + 1][k] == s[k];
    }
  }

  /** A sequence with no member is empty. */
  lemma EmptyWhenNoMember<T>(s: seq<T>)
    ensures s == [] <==> forall x :: x !in s
  {
    if s != [] {
      assert s[0] in s;
    }
  }

  /** `Where`: the elements satisfying `p`, in their original order. */
  function Filter<T(!new)>(s: seq<T>, p: T -> bool): (r: seq<T>)
    ensures |r| <= |s|
    ensures forall x :: x in r <==> x in s && p(x)
    ensures forall i :: 0 <= i < |r| ==> p(r[i])
    ensures multiset(r) <= multiset(s)
  {
    if |s| == 0 then []
    else
      assert s == [s[0]] + s[1..];
      if p(s[0]) then [s[0]] + Filter(s[1..], p) else Filter(s[1..], p)
  }

  /** `r` is `s` with some elements left out, the rest in their order. */
  predicate Subsequence<T(==)>(r: seq<T>, s: seq<T>)
    decreases |s|
  {
    |r| == 0 || (|s| > 0 && ((r[0] == s[0] && Subsequence(r[1..], s[1..])) || Subsequence(r, s[1..])))
  }

  /** A filter keeps the order of what it keeps. */
  lemma {:induction false} FilterSubsequence<T(!new)>(s: seq<T>, p: T -> bool)
    ensures Subsequence(Filter(s, p), s)
  {
    if |s| > 0 {
      var f := Filter(s[1..], p);
      FilterSubsequence(s[1..], p);
      if p(s[0]) {
        assert Filter(s, p) == [s[0]] + f;
        assert ([s[0]] + f)[1..] == f;
      }
    }
  }

  /** A filter keeps every copy of what it keeps and no copy of the rest. */
  lemma {:induction false} FilterCounts<T(!new)>(s: seq<T>, p: T -> bool)
    ensures forall x :: multiset(Filter(s, p))[x] == if p(x) then multiset(s)[x] else 0
  {
    if |s| > 0 {
      FilterCounts(s[1..], p);
      assert s == [s[0]] + s[1..];
      assert multiset(s) == multiset([s[0]]) + multiset(s[1..]);
    }
  }

  /** `Where(p).Take(n)` keeps the first `n` matches: a match with fewer
      than `n` matches before it is kept. */
  lemma TakeFilterEarly<T(!new)>(s: seq<T>, p: T -> bool, n: nat, i: nat)
    requires i < |s| && p(s[i]) && |Filter(s[..i], p)| < n
    ensures s[i] in Take(Filter(s, p), n)
  {
    var before := Filter(s[..i], p);
    assert s == s[..i] + s[i..];
    FilterAppend(s[..i], s[i..], p);
    assert s[i..] == [s[i]] + s[i + 1..];
    FilterAppend([s[i]], s[i + 1..], p);
    assert Filter(s, p)[|before|] == s[i];
  }

  /** The tail of a sequence without repeats has none, nor its head. */
  lemma NoDuplicatesTail<T>(s: seq<T>)
    requires |s| > 0
    ensures NoDuplicates(s) ==> NoDuplicates(s[1..]) && s[0] !in s[1..]
  {
    if NoDuplicates(s) {
      forall a, b | 0 <= a < b < |s[1..]|
        ensures s[1..][a] != s[1..][b]
      {
        assert s[1..][a] == s[a + 1] && s[1..][b] == s[b + 1];
      }
    }
  }

  /** A prefix of a subsequence is a subsequence. */
  lemma {:induction false} SubsequencePrefix<T>(r: seq<T>, s: seq<T>, n: nat)
    requires Subsequence(r, s) && n <= |r|
    ensures Subsequence(r[..n], s)
    decreases |s|
  {
    if n > 0 {
      if r[0] == s[0] && Subsequence(r[1..], s[1..]) {
        SubsequencePrefix(r[1..], s[1..], n - 1);
        assert r[..n][1..] == r[1..][..n - 1];
      } else {
        SubsequencePrefix(r, s[1..], n);
      }
    }
  }

  /** The first `n` elements a filter keeps are in their original order. */
  lemma TakeFilterSubsequence<T(!new)>(s: seq<T>, p: T -> bool, n: nat)
    ensures Subsequence(Take(Filter(s, p), n), s)
  {
    var f := Filter(s, p);
    FilterSubsequence(s, p);
    SubsequencePrefix(f, s, |Take(f, n)|);
  }

  lemma {:induction false} FilterAppend<T(!new)>(a: seq<T>, b: seq<T>, p: T -> bool)
    ensures Filter(a + b, p) == Filter(a, p) + Filter(b, p)
  {
    if |a| == 0 {
      assert a + b == b;
    } else {
      assert (a + b)[1..] == a[1..] + b;
      FilterAppend(a[1..], b, p);
    }
  }

  /** A filter that keeps everything changes nothing. */
  lemma {:induction false} FilterAll<T(!new)>(s: seq<T>, p: T -> bool)
    requires forall i :: 0 <= i < |s| ==> p(s[i])
    ensures Filter(s, p) == s
  {
    if |s| > 0 {
      FilterAll(s[1..], p);
    }
  }

  /** The conjunction of two tests. */
  function Both<T>(p: T -> bool, q: T -> bool): T -> bool
  {
    x => p(x) && q(x)
  }

  /** Filters with the same test select the same elements. */
  lemma {:induction false} FilterSame<T(!new)>(s: seq<T>, p: T -> bool, q: T -> bool)
    requires forall x :: p(x) == q(x)
    ensures Filter(s, p) == Filter(s, q)
  {
    if |s| > 0 {
      FilterSame(s[1..], p, q);
    }
  }

  /** Two successive `Where`s are one `Where` on both conditions. */
  lemma {:induction false} FilterFilter<T(!new)>(s: seq<T>, p: T -> bool, q: T -> bool)
    ensures Filter(Filter(s, p), q) == Filter(s, Both(p, q))
  {
    if |s| > 0 {
      FilterFilter(s[1..], p, q);
      if p(s[0]) {
        assert Filter(s, p) == [s[0]] + Filter(s[1..], p);
        assert Filter(s, p)[1..] == Filter(s[1..], p);
      }
    }
  }

  /** When exactly one position satisfies `p`, the filter is that element. */
  lemma {:induction false} FilterOnly<T(!new)>(s: seq<T>, p: T -> bool, j: nat)
    requires j < |s| && p(s[j])
    requires forall i :: 0 <= i < |s| && i != j ==> !p(s[i])
    ensures Filter(s, p) == [s[j]]
  {
    if j == 0 {
      forall x | x in s[1..]
        ensures !p(x)
      {
        var i :| 0 <= i < |s[1..]| && s[1..][i] == x;
        assert s[i + 1] == x;
      }
      EmptyWhenNoMember(Filter(s[1..], p));
    } else {
      FilterOnly(s[1..], p, j - 1);
    }
  }

  /** `Sum(f)` over decimals. */
  function SumBy<T>(s: seq<T>, f: T -> real): real
  {
    if |s| == 0 then 0.0 else f(s[0]) + SumBy(s[1..], f)
  }

  lemma {:induction false} SumByAppend<T>(a: seq<T>, b: seq<T>, f: T -> real)
    ensures SumBy(a + b, f) == SumBy(a, f) + SumBy(b, f)
  {
    if |a| == 0 {
      assert a + b == b;
    } else {
      assert (a + b)[1..] == a[1..] + b;
      SumByAppend(a[1..], b, f);
    }
  }

  /** `Sum(f)` over integers. */
  function SumIntBy<T>(s: seq<T>, f: T -> int): int
  {
    if |s| == 0 then 0 else f(s[0]) + SumIntBy(s[1..], f)
  }

  /** `Take(n)`: the first `n` elements, or all of them when there are fewer. */
  function Take<T>(s: seq<T>, n: nat): (r: seq<T>)
    ensures |r| == if |s| < n then |s| else n
    ensures r == s[..|r|]
  {
    if |s| <= n then s else s[..n]
  }

  /** `List.Remove` of the element at position `i`. */
  function RemoveAt<T>(s: seq<T>, i: nat): (r: seq<T>)
    requires i < |s|
    ensures |r| == |s| - 1
    ensures forall j :: 0 <= j < i ==> r[j] == s[j]
    ensures forall j :: i <= j < |r| ==> r[j] == s[j + 1]
  {
    s[..i] + s[i + 1..]
  }

  /** Every element but the removed one is still there. */
  lemma RemoveAtKeeps<T>(s: seq<T>, i: nat)
    requires i < |s|
    ensures forall j :: 0 <= j < |s| && j != i ==> s[j] in RemoveAt(s, i)
  {
    var r := RemoveAt(s, i);
    forall j | 0 <= j < |s| && j != i
      ensures s[j] in r
    {
      if j < i {
        assert r[j] == s[j];
      } else {
        assert r[j - 1] == s[j];
      }
    }
  }

  /** Removing an element from a sequence whose keys strictly increase
      keeps them increasing, and leaves no element with the removed key. */
  lemma RemoveAtIncreasing<T>(s: seq<T>, i: nat, key: T -> int)
    requires i < |s|
    requires forall a, b :: 0 <= a < b < |s| ==> key(s[a]) < key(s[b])
    ensures var r := RemoveAt(s, i);
            && (forall a, b :: 0 <= a < b < |r| ==> key(r[a]) < key(r[b]))
            && (forall a :: 0 <= a < |r| ==> key(r[a]) != key(s[i]))
  {
    var r := RemoveAt(s, i);
    forall a, b | 0 <= a < b < |r|
      ensures key(r[a]) < key(r[b])
    {
      var a' := if a < i then a else a + 1;
      var b' := if b < i then b else b + 1;
      assert r[a] == s[a'] && r[b] == s[b'];
    }
    forall a | 0 <= a < |r|
      ensures key(r[a]) != key(s[i])
    {
      var a' := if a < i then a else a + 1;
      assert r[a] == s[a'];
    }
  }

  predicate NoDuplicates<T(==)>(s: seq<T>)
  {
    forall i, j :: 0 <= i < j < |s| ==> s[i] != s[j]
  }

  lemma {:induction false} NoDuplicatesCount<T>(s: seq<T>, x: T)
    requires NoDuplicates(s)
    ensures multiset(s)[x] <= 1
  {
    if |s| > 0 {
      var init := s[..|s| - 1];
      assert s == init + [s[|s| - 1]];
      NoDuplicatesCount(init, x);
      if s[|s| - 1] == x {
        assert x !in init by {
          assert forall i :: 0 <= i < |init| ==> init[i] == s[i];
        }
      }
    }
  }

  lemma RepeatCount<T>(t: seq<T>, i: nat, j: nat)
    requires i < j < |t|
    ensures t[i] == t[j] ==> multiset(t)[t[i]] >= 2
  {
    assert t == t[..j] + t[j..];
    assert t[i] == t[..j][i] && t[j] == t[j..][0];
    assert t[i] in multiset(t[..j]) && t[j] in multiset(t[j..]);
  }

  /** A rearrangement of a list without duplicates has none either. */
  lemma NoDuplicatesPermutation<T>(s: seq<T>, t: seq<T>)
    requires multiset(s) == multiset(t) && NoDuplicates(s)
    ensures NoDuplicates(t)
  {
    forall i, j | 0 <= i < j < |t|
      ensures t[i] != t[j]
    {
      RepeatCount(t, i, j);
      NoDuplicatesCount(s, t[i]);
    }
  }

  /** `IndexOf(x)` for an element that is present. */
  function FirstIndex<T(==)>(s: seq<T>, x: T): (k: nat)
    requires x in s
    ensures k < |s| && s[k] == x
    ensures forall j :: 0 <= j < k ==> s[j] != x
  {
    var i := FindFirst(s, y => y == x);
    assert i.Some? by {
      var j :| 0 <= j < |s| && s[j] == x;
    }
    i.value
  }

  /** `List.Remove(x)`: the first occurrence of `x` goes, if there is one. */
  function RemoveFirst<T(==)>(s: seq<T>, x: T): (r: seq<T>)
    ensures x !in s ==> r == s
    ensures x in s ==> |r| == |s| - 1 && r == s[..FirstIndex(s, x)] + s[FirstIndex(s, x) + 1..]
  {
    if x in s then RemoveAt(s, FirstIndex(s, x)) else s
  }

  /** Without duplicates, removing `x` removes it entirely and keeps every
      other element, in order. */
  lemma RemoveFirstNoDuplicates<T>(s: seq<T>, x: T)
    requires NoDuplicates(s)
    ensures NoDuplicates(RemoveFirst(s, x))
    ensures forall y :: y in RemoveFirst(s, x) <==> y in s && y != x
  {
    var r := RemoveFirst(s, x);
    if x in s {
      var k := FirstIndex(s, x);
      assert forall i :: 0 <= i < |r| ==> r[i] == if i < k then s[i] else s[i + 1];
      forall y
        ensures y in r <==> y in s && y != x
      {
        if y in s && y != x {
          var i :| 0 <= i < |s| && s[i] == y;
          assert y == r[if i < k then i else i - 1];
        }
      }
    }
  }

  /** `Distinct()`: first occurrences, in order. */
  function Distinct<T(==,!new)>(s: seq<T>): (r: seq<T>)
    ensures NoDuplicates(r)
    ensures forall x :: x in r <==> x in s
    decreases |s|
  {
    if |s| == 0 then []
    else
      var rest := Distinct(s[..|s| - 1]);
      if s[|s| - 1] in rest then rest else rest + [s[|s| - 1]]
  }

  // ---------------------------------------------------------------------
  // Stable sorting (`OrderBy`, `OrderByDescending`, `ThenBy`)
  // ---------------------------------------------------------------------

  /** A comparison any two elements answer, and that chains. */
  ghost predicate TotalPreorder<T(!new)>(le: (T, T) -> bool)
  {
    && (forall x, y :: le(x, y) || le(y, x))
    && (forall x, y, z :: le(x, y) && le(y, z) ==> le(x, z))
  }

  predicate SortedBy<T>(s: seq<T>, le: (T, T) -> bool)
  {
    forall i, j :: 0 <= i < j < |s| ==> le(s[i], s[j])
  }

  predicate Equiv<T>(le: (T, T) -> bool, x: T, y: T)
  {
    le(x, y) && le(y, x)
  }

  /** The elements of `s` that the order cannot tell apart from `z`, in
      their order in `s`. A sort is stable when it keeps every such
      subsequence as it was. */
  function EquivClass<T>(s: seq<T>, le: (T, T) -> bool, z: T): seq<T>
  {
    if |s| == 0 then []
    else (if Equiv(le, s[0], z) then [s[0]] else []) + EquivClass(s[1..], le, z)
  }

  lemma {:induction false} EquivClassAppend<T>(a: seq<T>, b: seq<T>, le: (T, T) -> bool, z: T)
    ensures EquivClass(a + b, le, z) == EquivClass(a, le, z) + EquivClass(b, le, z)
  {
    if |a| == 0 {
      assert a + b == b;
    } else {
      var h := if Equiv(le, a[0], z) then [a[0]] else [];
      assert (a + b)[0] == a[0] && (a + b)[1..] == a[1..] + b;
      EquivClassAppend(a[1..], b, le, z);
      assert EquivClass(a + b, le, z) == h + EquivClass(a[1..] + b, le, z);
      assert EquivClass(a, le, z) == h + EquivClass(a[1..], le, z);
    }
  }

  /** Insert `x` in front of the first element it is not above; elements
      equal to `x` therefore stay behind it. */
  function Insert<T>(x: T, t: seq<T>, le: (T, T) -> bool): (r: seq<T>)
    ensures |r| == |t| + 1
    ensures multiset(r) == multiset{x} + multiset(t)
  {
    if |t| == 0 then [x]
    else if le(x, t[0]) then [x] + t
    else
      assert t == [t[0]] + t[1..];
      [t[0]] + Insert(x, t[1..], le)
  }

  lemma {:induction false} InsertSorted<T(!new)>(x: T, t: seq<T>, le: (T, T) -> bool)
    requires TotalPreorder(le)
    requires SortedBy(t, le)
    ensures SortedBy(Insert(x, t, le), le)
  {
    if |t| > 0 && !le(x, t[0]) {
      var rest := Insert(x, t[1..], le);
      InsertSorted(x, t[1..], le);
      forall j | 0 <= j < |rest|
        ensures le(t[0], rest[j])
      {
        assert rest[j] in multiset(rest);
        if rest[j] != x {
          assert rest[j] in t[1..];
          var k :| 0 <= k < |t[1..]| && t[1..][k] == rest[j];
          assert t[k + 1] == rest[j];
        }
      }
      assert Insert(x, t, le) == [t[0]] + rest;
    }
  }

  lemma {:induction false} InsertClass<T(!new)>(x: T, t: seq<T>, le: (T, T) -> bool, z: T)
    requires TotalPreorder(le)
    ensures EquivClass(Insert(x, t, le), le, z) == EquivClass([x], le, z) + EquivClass(t, le, z)
  {
    if |t| == 0 {
    } else if le(x, t[0]) {
      EquivClassAppend([x], t, le, z);
    } else {
      var rest := Insert(x, t[1..], le);
      InsertClass(x, t[1..], le, z);
      EquivClassAppend([t[0]], rest, le, z);
      EquivClassAppend([t[0]], t[1..], le, z);
      assert [t[0]] + t[1..] == t;
      // x and t[0] cannot both be equivalent to z, since x is strictly above t[0]
      assert !(Equiv(le, x, z) && Equiv(le, t[0], z));
    }
  }

  lemma InsertKeepsClasses<T(!new)>(s: seq<T>, t: seq<T>, le: (T, T) -> bool)
    requires TotalPreorder(le)
    requires |s| > 0
    requires forall z :: EquivClass(t, le, z) == EquivClass(s[1..], le, z)
    ensures forall z :: EquivClass(Insert(s[0], t, le), le, z) == EquivClass(s, le, z)
  {
    forall z
      ensures EquivClass(Insert(s[0], t, le), le, z) == EquivClass(s, le, z)
    {
      InsertClass(s[0], t, le, z);
      EquivClassAppend([s[0]], s[1..], le, z);
      assert [s[0]] + s[1..] == s;
    }
  }

  /** A stable insertion sort: the result is a permutation of the input,
      ordered by `le`, and elements `le` cannot tell apart keep their input
      order (LINQ's `OrderBy` is documented stable). */
  function SortBy<T(!new)>(s: seq<T>, le: (T, T) -> bool): (r: seq<T>)
    requires TotalPreorder(le)
    ensures |r| == |s|
    ensures multiset(r) == multiset(s)
    ensures SortedBy(r, le)
    ensures forall z :: EquivClass(r, le, z) == EquivClass(s, le, z)
  {
    if |s| == 0 then []
    else
      var t := SortBy(s[1..], le);
      InsertSorted(s[0], t, le);
      InsertKeepsClasses(s, t, le);
      assert s == [s[0]] + s[1..];
      Insert(s[0], t, le)
  }

  /** Sorting and then looking at the elements is looking at the input. */
  lemma SortedMembers<T(!new)>(s: seq<T>, le: (T, T) -> bool)
    requires TotalPreorder(le)
    ensures forall x :: x in SortBy(s, le) <==> x in s
  {
    var r := SortBy(s, le);
    forall x
      ensures x in r <==> x in s
    {
      assert x in r <==> x in multiset(r);
      assert x in s <==> x in multiset(s);
    }
  }

  // ---------------------------------------------------------------------
  // Sums over groups (`GroupBy(...).Select(g => g.Sum(...))`)
  // ---------------------------------------------------------------------

  /** Splitting a filter into two disjoint filters splits its sum and its
      length. */
  lemma {:induction false} FilterSplit<T(!new)>(s: seq<T>, p: T -> bool, q: T -> bool, r: T -> bool, f: T -> real)
    requires forall x :: p(x) <==> q(x) || r(x)
    requires forall x :: !(q(x) && r(x))
    ensures SumBy(Filter(s, p), f) == SumBy(Filter(s, q), f) + SumBy(Filter(s, r), f)
    ensures |Filter(s, p)| == |Filter(s, q)| + |Filter(s, r)|
  {
    if |s| > 0 {
      FilterSplit(s[1..], p, q, r, f);
    }
  }

  /** The sum does not depend on the order of the elements. */
  lemma {:induction false} SumByPermutation<T>(a: seq<T>, b: seq<T>, f: T -> real)
    requires multiset(a) == multiset(b)
    ensures SumBy(a, f) == SumBy(b, f)
    decreases |a|
  {
    if |a| == 0 {
      assert |b| == |multiset(b)| == 0;
    } else {
      var x := a[0];
      assert x in multiset(b);
      var k := FirstIndex(b, x);
      var b' := b[..k] + b[k + 1..];
      assert b == b[..k] + [x] + b[k + 1..];
      assert multiset(b') == multiset(b) - multiset{x};
      assert a == [x] + a[1..];
      SumByPermutation(a[1..], b', f);
      SumByAppend(b[..k] + [x], b[k + 1..], f);
      SumByAppend(b[..k], [x], f);
      SumByAppend(b[..k], b[k + 1..], f);
    }
  }

  /** Sums agree when the summed values agree position by position. */
  lemma {:induction false} SumByPointwise<T>(a: seq<T>, b: seq<T>, f: T -> real)
    requires |a| == |b|
    requires forall i :: 0 <= i < |a| ==> f(a[i]) == f(b[i])
    ensures SumBy(a, f) == SumBy(b, f)
  {
    if |a| > 0 {
      SumByPointwise(a[1..], b[1..], f);
    }
  }

  /** `OrderBy(...).Take(n)` keeps a top `n`: every element left out comes
      no earlier in the order than every element kept. */
  lemma TopTake<T(!new)>(s: seq<T>, le: (T, T) -> bool, n: nat)
    requires TotalPreorder(le)
    ensures forall x, y :: x in Take(SortBy(s, le), n) && y in s && y !in Take(SortBy(s, le), n) ==> le(x, y)
  {
    var r := SortBy(s, le);
    var t := Take(r, n);
    SortedMembers(s, le);
    forall x, y | x in t && y in s && y !in t
      ensures le(x, y)
    {
      var i :| 0 <= i < |t| && t[i] == x;
      var j :| 0 <= j < |r| && r[j] == y;
      assert r[i] == x;
    }
  }

  /** A prefix of the stable sort takes each element at most as often as
      the input holds it, and of elements `le` cannot tell apart it keeps
      the earliest ones in input order. */
  lemma TopPrefix<T(!new)>(s: seq<T>, le: (T, T) -> bool, n: nat)
    requires TotalPreorder(le)
    ensures var r := Take(SortBy(s, le), n);
            && multiset(r) <= multiset(s)
            && forall z :: EquivClass(r, le, z) <= EquivClass(s, le, z)
  {
    var t := SortBy(s, le);
    var r := Take(t, n);
    assert t == r + t[|r|..];
    assert multiset(t) == multiset(r) + multiset(t[|r|..]);
    forall z
      ensures EquivClass(r, le, z) <= EquivClass(s, le, z)
    {
      EquivClassAppend(r, t[|r|..], le, z);
    }
  }

  /** `OrderBy(...).Take(n)`: the first `n` elements in the order `le`. */
  function Top<T(!new)>(s: seq<T>, le: (T, T) -> bool, n: nat): (r: seq<T>)
    requires TotalPreorder(le)
    ensures |r| == if |s| < n then |s| else n
    ensures SortedBy(r, le)
    ensures multiset(r) <= multiset(s)
    ensures forall x :: x in r ==> x in s
    ensures |s| <= n ==> multiset(r) == multiset(s)
    ensures forall x, y :: x in r && y in s && y !in r ==> le(x, y)
    ensures forall z :: EquivClass(r, le, z) <= EquivClass(s, le, z)
  {
    var sorted := SortBy(s, le);
    SortedMembers(s, le);
    TopTake(s, le, n);
    TopPrefix(s, le, n);
    Take(sorted, n)
  }

  /** Keys that are distinct in `s` stay distinct in anything that takes
      each element of `s` at most as often as `s` holds it. */
  lemma SubmultisetKeysDistinct<T>(r: seq<T>, s: seq<T>, key: T -> int)
    requires multiset(r) <= multiset(s)
    ensures (forall a, b :: 0 <= a < b < |s| ==> key(s[a]) != key(s[b])) ==>
              forall i, j :: 0 <= i < j < |r| ==> key(r[i]) != key(r[j])
  {
    if forall a, b :: 0 <= a < b < |s| ==> key(s[a]) != key(s[b]) {
      SubmultisetKeysDistinctFrom(r, s, key);
    }
  }

  lemma SubmultisetKeysDistinctFrom<T>(r: seq<T>, s: seq<T>, key: T -> int)
    requires multiset(r) <= multiset(s)
    requires forall a, b :: 0 <= a < b < |s| ==> key(s[a]) != key(s[b])
    ensures forall i, j :: 0 <= i < j < |r| ==> key(r[i]) != key(r[j])
  {
    assert NoDuplicates(s) by {
      forall a, b | 0 <= a < b < |s|
        ensures s[a] != s[b]
      {
        assert key(s[a]) != key(s[b]);
      }
    }
    forall i, j | 0 <= i < j < |r|
      ensures key(r[i]) != key(r[j])
    {
      var x := r[i];
      NoDuplicatesCount(s, x);
      assert r == r[..j] + [r[j]] + r[j + 1..];
      assert x in r[..j];
      assert multiset([r[j]])[x] == 0;
      assert r[i] in multiset(s) && r[j] in multiset(s);
      var a :| 0 <= a < |s| && s[a] == r[i];
      var b :| 0 <= b < |s| && s[b] == r[j];
      assert a != b;
    }
  }
}

=== FILE: text.dfy ===
/** The string operations the source relies on: `string.IsNullOrWhiteSpace`,
    `Trim`, ordinal case-insensitive comparison, `ToUpper`/`ToLower`,
    `Contains`, the two anchored regular expressions, ordinal string order,
    and zero-padded decimal formatting (`{id:D4}`, `yyyyMMdd`).

    Case mapping covers the ASCII letters only; see README. */
module Text {

  /** `char.IsWhiteSpace`: the Unicode separators plus the C0 controls
      U+0009 to U+000D, U+0085 and U+00A0. */
  predicate IsWhiteSpace(c: char)
  {
    || c == ' '
    || ('\t' <= c <= '\r')
    || c == '\U{85}' || c == '\U{A0}' || c == '\U{1680}'
    || ('\U{2000}' <= c <= '\U{200A}')
    || c == '\U{2028}' || c == '\U{2029}' || c == '\U{202F}'
    || c == '\U{205F}' || c == '\U{3000}'
  }

  /** `string.IsNullOrWhiteSpace` (a null string is modelled as ""). */
  predicate IsBlank(s: string)
  {
    forall i :: 0 <= i < |s| ==> IsWhiteSpace(s[i])
  }

  /** `TrimStart()`: drop the leading white space. */
  function TrimStart(s: string): (r: string)
    ensures |r| <= |s|
    ensures r == s[|s| - |r|..]
    ensures IsBlank(s[..|s| - |r|])
    ensures |r| > 0 ==> !IsWhiteSpace(r[0])
  {
    if |s| == 0 then s
    else if IsWhiteSpace(s[0]) then
      var r := TrimStart(s[1..]);
      assert s[..|s| - |r|] == [s[0]] + s[1..][..|s| - 1 - |r|];
      r
    else s
  }

  /** `TrimEnd()`: drop the trailing white space. */
  function TrimEnd(s: string): (r: string)
    ensures |r| <= |s|
    ensures r == s[..|r|]
    ensures IsBlank(s[|r|..])
    ensures |r| > 0 ==> !IsWhiteSpace(r[|r| - 1])
  {
    if |s| == 0 then s
    else if IsWhiteSpace(s[|s| - 1]) then
      var r := TrimEnd(s[..|s| - 1]);
      assert s[|r|..] == s[..|s| - 1][|r|..] + [s[|s| - 1]];
      r
    else s
  }

  /** `Trim()`. */
  function Trim(s: string): string
  {
    TrimEnd(TrimStart(s))
  }

  lemma TrimStartBlank(s: string)
    ensures IsBlank(s) <==> TrimStart(s) == []
  {
    var a := TrimStart(s);
    var p := |s| - |a|;
    if a == [] {
      assert s == s[..p];
    } else {
      assert a[0] == s[p];
      assert !IsWhiteSpace(s[p]);
    }
  }

  lemma TrimEndBlank(s: string)
    ensures IsBlank(s) <==> TrimEnd(s) == []
  {
    var b := TrimEnd(s);
    if b == [] {
      assert s == s[|b|..];
    } else {
      assert b[|b| - 1] == s[|b| - 1];
      assert !IsWhiteSpace(s[|b| - 1]);
    }
  }

  /** A string is blank exactly when trimming empties it, and trimming a
      string that is not blank leaves non-space characters at both ends. */
  lemma TrimBlank(s: string)
    ensures IsBlank(s) <==> Trim(s) == []
    ensures Trim(s) != [] ==> !IsWhiteSpace(Trim(s)[0]) && !IsWhiteSpace(Trim(s)[|Trim(s)| - 1])
  {
    var a := TrimStart(s);
    var b := TrimEnd(a);
    TrimStartBlank(s);
    TrimEndBlank(a);
    if a != [] {
      assert !IsBlank(a) by {
        assert !IsWhiteSpace(a[0]);
      }
    }
    if b != [] {
      assert b[0] == a[0];
    }
  }

  /** Trimming twice is trimming once. */
  lemma TrimIdempotent(s: string)
    ensures Trim(Trim(s)) == Trim(s)
  {
    TrimBlank(s);
    var t := Trim(s);
    if t != [] {
      assert TrimStart(t) == t;
    }
  }

  // ---------------------------------------------------------------------
  // Case mapping (ASCII letters)
  // ---------------------------------------------------------------------

  function UpperChar(c: char): char
  {
    if 'a' <= c <= 'z' then (c as int - 32) as char else c
  }

  function LowerChar(c: char): char
  {
    if 'A' <= c <= 'Z' then (c as int + 32) as char else c
  }

  function ToUpper(s: string): (r: string)
    ensures |r| == |s|
    ensures forall i :: 0 <= i < |s| ==> r[i] == UpperChar(s[i])
  {
    seq(|s|, i requires 0 <= i < |s| => UpperChar(s[i]))
  }

  function ToLower(s: string): (r: string)
    ensures |r| == |s|
    ensures forall i :: 0 <= i < |s| ==> r[i] == LowerChar(s[i])
  {
    seq(|s|, i requires 0 <= i < |s| => LowerChar(s[i]))
  }

  /** `Equals(b, StringComparison.OrdinalIgnoreCase)`. */
  predicate EqualsIgnoreCase(a: string, b: string)
  {
    ToUpper(a) == ToUpper(b)
  }

  /** Upper-casing does not change which strings compare equal ignoring case. */
  lemma UpperKeepsIgnoreCaseClass(s: string)
    ensures EqualsIgnoreCase(ToUpper(s), s)
  {
    assert ToUpper(ToUpper(s)) == ToUpper(s);
  }

  /** Ordinal `string.Contains(sub)`. */
  predicate Contains(s: string, sub: string)
  {
    exists i :: 0 <= i <= |s| - |sub| && OccursAt(s, sub, i)
  }

  predicate OccursAt(s: string, sub: string, i: nat)
    requires i + |sub| <= |s|
  {
    s[i..i + |sub|] == sub
  }

  // ---------------------------------------------------------------------
  // The two anchored regular expressions
  // ---------------------------------------------------------------------

  predicate IsAsciiDigit(c: char) { '0' <= c <= '9' }

  predicate IsUpperOrDigit(c: char) { 'A' <= c <= 'Z' || IsAsciiDigit(c) }

  /** The part of `^[0-9]{10,11}$` between the anchors. */
  predicate PhoneBody(s: string)
  {
    10 <= |s| <= 11 && forall i :: 0 <= i < |s| ==> IsAsciiDigit(s[i])
  }

  /** The part of `^[A-Z0-9]+$` between the anchors. */
  predicate CodeBody(s: string)
  {
    |s| >= 1 && forall i :: 0 <= i < |s| ==> IsUpperOrDigit(s[i])
  }

  /** .NET's `$` matches at the very end and also just before a final
      line feed, so `Regex.IsMatch(s, "^X$")` accepts `X` and `X` + "\n". */
  predicate DollarAnchored(s: string, body: string -> bool)
  {
    body(s) || (|s| > 0 && s[|s| - 1] == '\n' && body(s[..|s| - 1]))
  }

  predicate MatchesPhonePattern(s: string)
  {
    DollarAnchored(s, PhoneBody)
  }

  predicate MatchesCodePattern(s: string)
  {
    DollarAnchored(s, CodeBody)
  }

  /** For a string with no trailing white space the line-feed allowance of
      `$` plays no part. */
  lemma TrimmedCodePattern(s: string)
    requires |s| > 0 ==> !IsWhiteSpace(s[|s| - 1])
    ensures MatchesCodePattern(s) <==> CodeBody(s)
  {
  }

  // ---------------------------------------------------------------------
  // Ordinal string order
  // ---------------------------------------------------------------------

  /** Lexicographic order on character codes. */
  predicate StrLe(a: string, b: string)
  {
    if |a| == 0 then true
    else if |b| == 0 then false
    else if a[0] != b[0] then a[0] < b[0]
    else StrLe(a[1..], b[1..])
  }

  lemma {:induction false} StrLeTotal(a: string, b: string)
    ensures StrLe(a, b) || StrLe(b, a)
  {
    if |a| > 0 && |b| > 0 && a[0] == b[0] {
      StrLeTotal(a[1..], b[1..]);
    }
  }

  lemma {:induction false} StrLeTransitive(a: string, b: string, c: string)
    requires StrLe(a, b) && StrLe(b, c)
    ensures StrLe(a, c)
  {
    if |a| > 0 && |b| > 0 && |c| > 0 && a[0] == b[0] && b[0] == c[0] {
      StrLeTransitive(a[1..], b[1..], c[1..]);
    }
  }

  lemma {:induction false} StrLeAntisymmetric(a: string, b: string)
    requires StrLe(a, b) && StrLe(b, a)
    ensures a == b
  {
    if |a| > 0 && |b| > 0 {
      StrLeAntisymmetric(a[1..], b[1..]);
      assert a == [a[0]] + a[1..] && b == [b[0]] + b[1..];
    }
  }

  // ---------------------------------------------------------------------
  // Decimal digits
  // ---------------------------------------------------------------------

  function DigitChar(d: nat): char
    requires d < 10
  {
    ('0' as int + d) as char
  }

  /** `n.ToString()` for a non-negative integer. */
  function NatToString(n: nat): (r: string)
    ensures |r| >= 1
    ensures forall i :: 0 <= i < |r| ==> IsAsciiDigit(r[i])
  {
    if n < 10 then [DigitChar(n)] else NatToString(n / 10) + [DigitChar(n % 10)]
  }

  /** Zero-padding on the left to at least `width` characters. */
  function PadLeft(s: string, width: nat): (r: string)
    ensures |r| == if |s| < width then width else |s|
    ensures r[|r| - |s|..] == s
    ensures forall i :: 0 <= i < |r| - |s| ==> r[i] == '0'
  {
    if |s| >= width then s else seq(width - |s|, _ => '0') + s
  }

  /** The standard `D<width>` format of a non-negative integer. */
  function FormatPadded(n: nat, width: nat): (r: string)
    ensures |r| >= width
    ensures forall i :: 0 <= i < |r| ==> IsAsciiDigit(r[i])
  {
    var s := NatToString(n);
    var r := PadLeft(s, width);
    assert forall i :: |r| - |s| <= i < |r| ==> r[i] == r[|r| - |s|..][i - (|r| - |s|)];
    r
  }

  function DigitValue(c: char): nat
    requires IsAsciiDigit(c)
  {
    c as int - '0' as int
  }

  /** Reading a string of decimal digits back as a number. */
  function ParseDigits(s: string): nat
    requires forall i :: 0 <= i < |s| ==> IsAsciiDigit(s[i])
  {
    if |s| == 0 then 0
    else ParseDigits(s[..|s| - 1]) * 10 + DigitValue(s[|s| - 1])
  }

  lemma {:induction false} ParseNatToString(n: nat)
    ensures ParseDigits(NatToString(n)) == n
  {
    if n >= 10 {
      var s := NatToString(n);
      assert s[..|s| - 1] == NatToString(n / 10);
      ParseNatToString(n / 10);
    }
  }

  lemma {:induction false} ParseLeadingZeros(z: string, s: string)
    requires forall i :: 0 <= i < |z| ==> z[i] == '0'
    requires forall i :: 0 <= i < |s| ==> IsAsciiDigit(s[i])
    ensures ParseDigits(z + s) == ParseDigits(s)
    decreases |z| + |s|
  {
    if |s| == 0 {
      assert z + s == z;
      if |z| > 0 {
        assert z[..|z| - 1] + [] == z[..|z| - 1];
        ParseLeadingZeros(z[..|z| - 1], []);
      }
    } else {
      assert (z + s)[..|z + s| - 1] == z + s[..|s| - 1];
      ParseLeadingZeros(z, s[..|s| - 1]);
    }
  }

  /** Zero-padded formatting loses nothing: the digits read back as the
      number, and the text is exactly `width` long unless the number needs
      more digits. */
  lemma FormatPaddedRoundTrip(n: nat, width: nat)
    ensures forall i :: 0 <= i < |FormatPadded(n, width)| ==> IsAsciiDigit(FormatPadded(n, width)[i])
    ensures ParseDigits(FormatPadded(n, width)) == n
    ensures |FormatPadded(n, width)| >= width
    ensures |NatToString(n)| <= width ==> |FormatPadded(n, width)| == width
  {
    var d := NatToString(n);
    var r := FormatPadded(n, width);
    ParseNatToString(n);
    assert r == r[..|r| - |d|] + d;
    ParseLeadingZeros(r[..|r| - |d|], d);
  }
}

=== FILE: wrappers.dfy ===
/** The optional value used wherever the source has a nullable field (`int?`,
    `decimal?`, `string?`), a `FirstOrDefault` that may find nothing, or a
    `TryParse` that may fail. */
module Wrappers {

  datatype Option<+T> = None | Some(value: T) {

    /** The value, or `default` when absent (C#'s `??`). */
    function GetOr(default: T): T {
      match this
      case Some(v) => v
      case None => default
    }
  }
}
